=== FILE: README.md ===
# Task tracker core, modelled in Dafny

This project models the data logic of a single-page task tracker. The tracker
loads a task sheet and shows it as a filterable, sortable table. The sheet can be
an uploaded Excel/CSV workbook, a Google Sheets link or an Airtable base. The table
comes with summary cards, per-task-name statistics, a column manager and an
export dialog. Everything modelled lives in `src/App.jsx`. The model covers:

- the date layer (`parseDate`, `formatDate`, the serial-number epoch, the
  `D/M/YYYY` pattern, `new Date(y, m, d)` with its roll-over rules, the edit
  form's `toInputDate`/`parseLocal`, and the Airtable `MM/DD/YYYY` display);
- `calculateTimeMetrics`, the "Delay / running days" badge;
- `processWorkbook`:
  - the header search over the first twenty rows;
  - role lookup by keywords;
  - the kept headers;
  - the per-row task object with its `_internal` record;
  - the final `.filter(t => t.name)`;
- `filteredTasks` (search, task-name and status filters, the column sort),
  `handleSort`, `uniqueTaskNames`, the `stats` cards and `taskTypeStats`;
- the Airtable column-key order and the merge into the saved columns;
- the column manager (delete hidden, show/hide, move up/down, add a column);
- the Google Sheets link rewrite of `handleSheetLoad`;
- the export selection, its rows, and the export file name.

Modules follow those concerns:

| module | concern |
|---|---|
| `Results` | `Option` and `Outcome` (a result or a thrown error or alert) |
| `Text` | JavaScript whitespace, `trim`, `toLowerCase` on Latin-1, the `normalizeStr` fold, `includes`, `<` on strings, decimal numerals |
| `Calendar` | day numbers and proleptic Gregorian dates, both round trips, `new Date(y, m0, d)` |
| `Values` | the JavaScript values a cell or property can hold, truthiness, `String(v)`, the environment |
| `Dates` | `parseDate`, `formatDate`, the form helpers, the US display |
| `Status` | the status word lists and the exact completion labels |
| `Metrics` | `calculateTimeMetrics` |
| `Tasks` | the task object and JavaScript property lookup on it |
| `Workbook` | `processWorkbook` |
| `Seqs`, `Sorting` | `filter`, counting, `new Set` de-duplication, a stable sort |
| `Views` | `filteredTasks`, `handleSort`, `uniqueTaskNames`, `stats`, `taskTypeStats` |
| `Columns` | Airtable key order and merge; the column manager |
| `SheetUrl` | the Google Sheets link rewrite |
| `Export` | export selection, rows and file name |

Some conventions:

- A date is a day number: days since 1 January 1970 in the local calendar.
- "Today" is local midnight, and every date read is a local midnight too.
  `MidnightAbstraction` proves that the source's signed `Math.ceil(ms / day)`
  differences from today are day-number differences even when the other date
  falls later in its day. The absolute difference behind the running days is
  not covered by that result; see `Workbook.InternalOf` under "Left out".
- An Invalid Date is modelled explicitly. A huge serial or a malformed form date
  produces one, and it then prints as `NaN/NaN/NaN` and sorts as NaN.
- Thrown exceptions and alerts are `Outcome.Error`.
- A blank cell of the sheet is a hole in the row array that `sheet_to_json`
  returns (no `defval` is passed, `src/App.jsx:722`). `Undefined` in a header
  row stands for such a hole. `some` and `filter` skip holes, so the header
  test (lines 740-741) and the kept headers (line 759) pass over them. The role
  scans use `findIndex` (lines 765-769), which visits holes, and `h.includes`
  then throws. A blank header cell before a role's column therefore ends the
  ingestion with a TypeError (`Workbook.FindRole`, `Workbook.ProcessWorkbook`,
  `Workbook.BlankBeforeAssigneeFails`). The kept headers have already been set
  and saved as the column list by then (lines 760-761). The table therefore
  shows the new header's columns beside the previous tasks, and the model's
  result carries those columns with the error.
- The column list holds values, not text. A sheet stores its header cells as
  they are (line 759), and `includes` compares values. A number header 2024
  and the text "2024" are therefore two different columns
  (`Columns.NumberColumnAdmitsText`, `Columns.MergeBesideNumber`).
- The fixed fields (`name`, `status`, `isDelayed`, `deadline`, `timeMetrics`)
  are assigned after the header cells (`src/App.jsx:864-868`). They therefore
  overwrite a header property of the same name (`Tasks.Get`).
- Property lookup follows plain JavaScript objects. A name inherited from
  `Object.prototype` (`constructor`, `toString`, `__proto__`, ...) reads as an
  object when no own property has it, and a header reading `__proto__` creates
  no property (`Tasks.Get`, `Workbook.CellsKeys`, `Views.TypeStatsCount`).

Where the code's own comments, or parallel code doing the same job, disagree
with what the code does, the model follows the code:

- **Serial 45667.** The comment at `src/App.jsx:888` says serial 45667 is
  1 November 2025. The arithmetic right below it (lines 889-891) gives
  10 January 2025 (`Dates.SerialDates`).
- **Assignee.** The search box reads "Search tasks or assignees"
  (`src/App.jsx:1474`), and the search calls `task.assignee.toLowerCase()`
  (line 937). The sheet path finds the assignee column (line 766) but never
  stores an `assignee` property (lines 786-868); only the Airtable path does
  (line 287). The search therefore throws unless a header reads exactly
  "assignee" (`Workbook.AssigneeNotAProperty`, `Views.SearchThrowsWithoutAssignee`).
- **Completion.** The badge's "Rule 1: If status = Done" (lines 139-140)
  tests four exact, case-sensitive labels. The delayed flag (line 837), the
  filters and the statistics test the same four words after normalisation
  (`Status.LowerCaseDoneIsNotALabel`, `Workbook.BadgeDelayedButNotFlagged`).
- **"Réapparu".** Lines 959 and 1106 compare normalised text, whose accents are
  already stripped, against the accented spelling `'réapparu'`, which can never
  match. The neighbouring word lists spell `'termine'` without its accent
  (`Status.ReapparuNeverMatches`).
- **Delay-column sort.** The sentinel `-999999` of `raw || -999999`
  (lines 980-981) is meant for a missing `raw`. It also catches a `raw` of 0
  ("OK", "Deadline Now"), which then ranks with undated tasks
  (`Views.ZeroRawRanksAsMissing`).

## Model

| member | source | states |
|---|---|---|
| Text.Trim | src/App.jsx:725-731 | the trim is a slice of the input with only whitespace cut from either end, and it neither starts nor ends with whitespace |
| Text.TrimEmptyIffBlank | src/App.jsx:759 | `s.trim() === ''` holds exactly when every character of `s` is whitespace |
| Text.TrimIdempotent | src/App.jsx:725-731 | text without whitespace at either end is its own trim |
| Text.Normalize | src/App.jsx:725-731 | `normalizeStr` output is lower-case, has no combining mark and no surrounding whitespace |
| Text.NormalizePlain | src/App.jsx:725-731 | on text with no combining mark and no accented letter, `normalizeStr` is `toLowerCase` followed by `trim` |
| Text.FoldPointwise | src/App.jsx:725-731 | on text without combining marks, the fold maps each character to its lower-case base letter |
| Text.NormalizeHasNoAccents | src/App.jsx:725-731 | normalised text never contains "é" or "É": the accent is always folded away |
| Text.Contains | src/App.jsx:741-742 | `includes` holds exactly when the needle occurs at some position |
| Text.LexLessTotal | src/App.jsx:994-999 | any two distinct strings are ordered one way or the other by `<` |
| Text.LexLessTransitive | src/App.jsx:994-999 | `<` on strings is transitive |
| Text.NatToStringInjective | src/App.jsx:926-930 | different numbers print as different numerals |
| Text.PadStart2Value | src/App.jsx:926-927 | a two-digit zero-padded numeral reads back as its number |
| Calendar.CivilFromDays | src/App.jsx:926-928 | every day number has a valid calendar date, which converts back to the same day number |
| Calendar.CivilRoundTrip | src/App.jsx:905 | a valid date converts to its day number and back to the same date |
| Calendar.DaysFromCivilInjective | src/App.jsx:905 | different valid dates have different day numbers |
| Calendar.MakeDateInMonth | src/App.jsx:905 | `new Date(y, m0, d)` with a month in range and an in-month day is that calendar day, with years 0 to 99 read as 19YY |
| Calendar.MonthRollOver | src/App.jsx:905 | the day after a month's last day is the first of the next month, across February and year ends |
| Metrics.MidnightAbstraction | src/App.jsx:145-163 | with today at midnight and a date at any time of day on day `d`, `Math.ceil` of the signed millisecond gap over a day is exactly today's day number minus `d` |
| Metrics.TimeMetrics | src/App.jsx:138-187 | an exact label gives OK; otherwise a deadline today gives "Deadline Now" (red, raw 0), a past one "Delayed (+N days)" and a future one "N days left", raw being today minus the deadline; an unreadable deadline shows "NaN days left" with raw NaN; with no deadline a start gives "Running", red above 15 days and green otherwise, and an unreadable start "Running (NaN days)"; with neither date "-"; raw is NaN exactly when the deciding date is an Invalid Date |
| Metrics.DeadlineNowExactly | src/App.jsx:140-159 | the badge reads "Deadline Now" exactly when the status is not a completion label and the deadline is today |
| Metrics.OnlyDeadlineNowReadsSo | src/App.jsx:159-187 | no delayed, days-left or running text equals "Deadline Now" |
| Metrics.TimeMetricsExamples | src/App.jsx:156-184 | with today 10 June 2024: a 5 June deadline is 5 days late, a 15 June deadline is 5 days left, a 22 May start with no deadline runs 19 days and is red |
| Values.OrElse | src/App.jsx:783 | `v \|\| fallback` keeps a truthy value and replaces a falsy one by the fallback, so the result is truthy exactly when either is |
| Values.NormalizeValue | src/App.jsx:725-731 | `normalizeStr(v)` of a falsy value is "", and of a string it is that string's normalisation |
| Status.CompletedLabelIsCompleted | src/App.jsx:140 | each exact completion label is also a completed word after normalisation |
| Status.LowerCaseDoneIsNotALabel | src/App.jsx:140 | "done" is a completed word but not a completion label |
| Status.ReapparuNeverMatches | src/App.jsx:959 | no status normalises to the accented "réapparu" |
| Status.StatusExclusive | src/App.jsx:1101-1108 | a status is in at most one of completed, in progress and reappeared |
| Dates.NewDate | src/App.jsx:905 | `new Date(y, m0, d)` is never null, and a valid result is the constructor's day |
| Dates.MatchDmySpec | src/App.jsx:899 | the digit-run reading matches exactly when the text has the pattern's shape, and returns that (unique) split's groups |
| Dates.ParseDate | src/App.jsx:876-917 | falsy gives null, a Date is kept, a non-zero number n is the day n days after the epoch when that is in the Date range and an Invalid Date otherwise, an Invalid Date comes only from such a number or from text the pattern matches, and other values give null |
| Dates.ParseDmyText | src/App.jsx:894-907 | text `D/M/YYYY` (any of the separators, anything after) with month 1-12 is day D of month M of year YYYY, two-digit years read as 19YY |
| Dates.DayOverflow | src/App.jsx:905 | a day past the month's end runs on into the next month (31/02/2024 is 2 March 2024) |
| Dates.SerialDates | src/App.jsx:884-892 | serial 25569 is 1 January 1970, and serial 45667 is 10 January 2025, not 1 November 2025 |
| Dates.FalsyIsNull | src/App.jsx:877 | 0, "" and an empty cell parse to null and format as "-" |
| Dates.FormatDate | src/App.jsx:921-931 | `formatDate` returns "-" exactly when `parseDate` returns null |
| Dates.FormatDateManual | src/App.jsx:344-350 | `formatDateManual` returns "-" exactly for null |
| Dates.FormatParseRoundTrip | src/App.jsx:894-931 | formatting a day of a four-digit year and parsing the text, with anything after it, gives the same day |
| Dates.ParseFormatRoundTrip | src/App.jsx:894-931 | `DD/MM/YYYY` text of a valid date with a four-digit year is reproduced by `formatDate` |
| Dates.FormatOfParsed | src/App.jsx:796-803 | formatting the parsed cell agrees with formatting the cell, except that an out-of-range serial prints "-" instead of NaN |
| Dates.ParseLocal | src/App.jsx:314-318 | `parseLocal` returns null exactly for the empty string |
| Dates.LocalOfIso | src/App.jsx:314-318 | `YYYY-MM-DD` is read as `new Date(YYYY, MM - 1, DD)` |
| Dates.ToInputDate | src/App.jsx:441-445 | "" and "-" give ""; the call throws exactly for other text without a '/' |
| Dates.InputDateOfDmy | src/App.jsx:441-445 | `DD/MM/YYYY` becomes `YYYY-MM-DD` |
| Dates.EditRoundTrip | src/App.jsx:314-318 | a day with a four-digit year, taken through the edit form, is the same day again |
| Dates.FormatDateUs | src/App.jsx:274-280 | the Airtable display returns "-" exactly for null |
| Dates.UsDatesAreReadSwapped | src/App.jsx:274-280 | the month-first Airtable text is parsed day-first, so a day of month up to 12 that differs from the month comes back as another date |
| Dates.UsDatesAreEditedSwapped | src/App.jsx:441-445 | the edit form swaps day and month of the Airtable text in the same way |
| Tasks.Get | src/App.jsx:786-868 | a key that is not a fixed field reads the header cell of that name; without one, `id` reads the row index, a name inherited from `Object.prototype` reads as an object, and any other name is `undefined`; `name`, `status`, `isDelayed` and `deadline` read the fixed fields and `timeMetrics` and `_internal` read as objects, even when a header has that name |
| Workbook.FindRole | src/App.jsx:764-769 | a role's scan fails with the `includes` TypeError exactly when it reaches a blank (hole) header cell before any header naming the role; otherwise the column is -1 exactly when no header names the role, and else the leftmost header that does |
| Workbook.RolesOf | src/App.jsx:764-777 | the `IDX` record fails exactly when one of the five scans reaches a hole first, and otherwise holds each role's column |
| Workbook.NoHoleNoError | src/App.jsx:764-769 | a header row without blank cells never makes a scan throw |
| Workbook.BlankBeforeAssigneeFails | src/App.jsx:736-769 | a first row whose first two cells name the task and status columns (and not the assignee), followed by a blank cell, such as "Task, Status, (blank), Deadline", is chosen as the header, and ingesting it fails with the TypeError because the assignee scan reaches the blank cell, after the row's kept headers became the column list |
| Workbook.HoleFails | src/App.jsx:759-769 | a scan reaching a hole of the chosen header row ends the ingestion with the TypeError, and the kept headers stay set as the column list |
| Workbook.FirstTrueSpec | src/App.jsx:737-749 | the search returns the first true position, or -1 when there is none |
| Workbook.HeaderIndex | src/App.jsx:737-755 | the header is the first row among the first twenty that has both a name and a status header, and row 0 when none has |
| Workbook.HeaderFoundBelowNoise | src/App.jsx:737-749 | the first header-like row of the window is chosen whatever rows precede it |
| Workbook.HeaderBeyondWindow | src/App.jsx:752-755 | a header below the twentieth row is never found, and row 0 is used |
| Workbook.ValidHeaders | src/App.jsx:759 | a header is kept exactly when it is truthy and its text is not blank, and nothing else is added |
| Workbook.ValidHeadersConcat | src/App.jsx:759 | the kept headers of two stretches of the row are those of the first followed by those of the second, so order and repeats are kept |
| Workbook.ValidHeadersCell | src/App.jsx:759 | a single header is kept exactly when it passes the test |
| Workbook.StoredCell | src/App.jsx:790-805 | a Date cell is formatted, a start or deadline cell is parsed and formatted, any other cell is kept, and a falsy result is stored as "" |
| Workbook.CellsKeys | src/App.jsx:787-807 | a header property exists exactly when some kept header has that text and the text is not `__proto__` |
| Workbook.CellsLastWins | src/App.jsx:787-807 | with duplicate header texts, the rightmost column's value wins (a `__proto__` header sets nothing) |
| Workbook.OverlayLastWins | src/App.jsx:787-807 | the last assignment of a property gives its value |
| Workbook.InternalOf | src/App.jsx:810-861 | the internal record takes the role cells (`''` when absent), parses the dates, gives the absolute running days for a start, and marks a not-completed task delayed exactly when its deadline is before today, with the delay in days |
| Workbook.BuildTask | src/App.jsx:782-870 | the task has the row's index as id, the row's header cells, and fixed fields copying the internal ones; its `deadline` prints the parsed deadline and is "-" exactly when there is none |
| Workbook.KeepNamed | src/App.jsx:871 | a task is kept exactly when its name is truthy |
| Workbook.ProcessWorkbook | src/App.jsx:718-874 | an empty table fails before any column is set; otherwise the kept headers of the chosen row, in order, become the column list whether or not the tasks follow; the tasks fail exactly when the table is empty or a role scan reaches a hole of the chosen header row, with the `includes` TypeError in the second case; there are fewer tasks than rows, and every task has a truthy name and the id of a data row |
| Workbook.TasksAreNamedRows | src/App.jsx:780-871 | when the ingestion succeeds, the tasks are exactly the data rows with a truthy name cell, each built from its own row, numbered by its place among the data rows, and listed in row order |
| Workbook.KeepNamedKeepsOrder | src/App.jsx:871 | `.filter` keeps the relative order: ids rising along the list still rise after it |
| Workbook.NoNameColumnNoTasks | src/App.jsx:815 | a sheet that is ingested without error but has no name column yields no tasks |
| Workbook.DelayedShowsDelay | src/App.jsx:837-851 | a task flagged delayed shows "Delayed (+N days)" with its delay |
| Workbook.BadgeDelayedButNotFlagged | src/App.jsx:837-851 | a finished word that is not an exact label shows the delayed badge but is not flagged delayed |
| Workbook.RunningDaysAgree | src/App.jsx:825-828 | the stored running days equal the badge's count for a past start and are its negation for a future one |
| Workbook.BadDeadlineShownTwoWays | src/App.jsx:796-803 | an unparsable deadline is "-" in its column (an object under a `__proto__` header) but "NaN/NaN/NaN" in the `deadline` field |
| Workbook.AssigneeNotAProperty | src/App.jsx:766 | a task has no "assignee" property unless a header reads exactly "assignee" |
| Seqs.Filter | src/App.jsx:935 | `filter` keeps exactly the elements satisfying the test, in order |
| Seqs.FilterFilter | src/App.jsx:611-616 | filtering twice is filtering once by both tests |
| Seqs.Dedup | src/App.jsx:1017 | `new Set` keeps each value once and loses none |
| Seqs.DedupOrder | src/App.jsx:1017 | values keep the order of their first occurrences |
| Sorting.SortSorted | src/App.jsx:970-1001 | the sort's result is ordered when the comparator is consistent |
| Sorting.SortStable | src/App.jsx:970-1001 | elements the comparator ties keep their input order |
| Sorting.SortKeepsSorted | src/App.jsx:970-1001 | an input already in order is unchanged |
| Views.LowerOf | src/App.jsx:936-937 | `toLowerCase` throws exactly on a non-string |
| Views.SearchOutcome | src/App.jsx:936-937 | the search throws unless the name is a string; it matches when the name contains the term, and otherwise needs a string assignee containing it, all case-insensitively |
| Views.SearchThrowsWithoutAssignee | src/App.jsx:936-937 | a task whose name misses the term and which has no string assignee makes the search throw |
| Views.NumericNameThrows | src/App.jsx:935-937 | a task whose name is a number makes the whole filter throw, whatever the query |
| Views.TryFilter | src/App.jsx:935-966 | a filter whose test may throw returns the kept elements in order, or the error of the first element whose test throws, every earlier test having passed |
| Views.FilterTasks | src/App.jsx:935-966 | the rows are exactly the tasks meeting the search, the name filter and the status filter, in order, unless the search throws |
| Views.DescendingReverses | src/App.jsx:979-1000 | descending order is ascending order reversed |
| Views.UniformSortIsConsistent | src/App.jsx:969-1001 | with all-number or all-text keys the comparator is total and transitive, and the sorted rows are in its order |
| Views.DelayColumnIsUniform | src/App.jsx:979-983 | the delay column always sorts on numbers |
| Views.MixedKeysCycle | src/App.jsx:986-999 | numbers mixed with text make the comparator cyclic: 2 before 10, 10 before "1a", "1a" before 2 |
| Views.ZeroRawRanksAsMissing | src/App.jsx:980-982 | a raw 0 ranks as the default -999999, below every task with a larger count |
| Views.FilteredTasks | src/App.jsx:934-1005 | the table fails exactly when the search throws on some task; otherwise it holds the selected tasks, in their own order when no sort key is set and reordered only when one is |
| Views.FilteredTasksSorted | src/App.jsx:968-1005 | with a sort key whose values among the selected tasks are all numbers or all non-numbers, the rows come out ordered by the comparator |
| Views.HandleSort | src/App.jsx:1007-1013 | a click sorts by the column, descending exactly when the same column was ascending |
| Views.SortToggleAlternates | src/App.jsx:1007-1013 | the second click on a column changes the order, and the third gives back the first click's order |
| Views.UniqueTaskNames | src/App.jsx:1016-1018 | the list starts with "all", followed by exactly the truthy task names, each once |
| Views.TaskNamedAllSelectsEverything | src/App.jsx:939 | choosing a task named "all" selects every task |
| Views.StatsOf | src/App.jsx:1020-1055 | the total card is the number of tasks, and no other card exceeds it |
| Views.StatsMatchButtons | src/App.jsx:1035-1053 | when every name is a string, the delayed, completed and "Deadline Now" cards count the rows their button shows (lines 948-962), and the in-progress card plus the in-progress tasks due now counts the in-progress button's rows |
| Views.TypeStatsCount | src/App.jsx:1058-1112 | a name has a record exactly when some task is named so and the name is not inherited from `Object.prototype`, and the record counts that name's tasks with exclusive status categories |
| Views.TypeStatsMatchStats | src/App.jsx:1058-1112 | each name's record agrees with the summary cards over that name's tasks alone |
| Columns.KeyOrderIsConsistent | src/App.jsx:231-238 | the key comparator is total and transitive |
| Columns.OrderKeysSpec | src/App.jsx:224-238 | the sorted keys are the record keys, each once: standard keys first in standard order, then the rest in string order |
| Columns.MergeColumns | src/App.jsx:241-251 | the saved columns stay in front, the result holds exactly the saved columns and the keys, and a list without repeats gains none |
| Columns.MergeBesideNumber | src/App.jsx:244 | a field key "2024" is appended even when the list holds the number 2024 |
| Columns.MergeAppendsNew | src/App.jsx:241-251 | with distinct keys the merge appends exactly the new keys, in order |
| Columns.MergeIdempotent | src/App.jsx:241-251 | importing the same records twice gives the columns of one import |
| Columns.AirtableColumns | src/App.jsx:222-252 | no records leaves the columns as they were |
| Columns.AirtableColumnsSpec | src/App.jsx:222-252 | an import keeps the saved columns in front, appends every field key whose string value is not yet listed, and repeats none |
| Columns.Visible | src/App.jsx:1553 | a column is shown exactly when it is listed and not hidden |
| Columns.DeleteHidden | src/App.jsx:2124-2133 | a column stays exactly when it is not hidden, nothing is hidden afterwards, and the custom fields are untouched |
| Columns.DeleteHiddenKeepsView | src/App.jsx:2124-2133 | deleting the hidden columns leaves the visible table unchanged |
| Columns.ToggleHidden | src/App.jsx:2166-2174 | checking leaves the column not hidden, unchecking hides it, and no other column's state or the column list changes |
| Columns.HideThenShow | src/App.jsx:2166-2174 | unchecking and then checking a shown column restores the settings |
| Columns.MoveUp | src/App.jsx:2180-2187 | the column at `index` (not the first, whose arrow is disabled) changes place with the one above, and nothing else changes |
| Columns.MoveDown | src/App.jsx:2195-2202 | the column at `index` (not the last, whose arrow is disabled) changes place with the one below, and nothing else changes |
| Columns.MoveUpDownInverse | src/App.jsx:2180-2202 | moving a column up and then down restores the list, and conversely |
| Columns.MoveKeepsColumns | src/App.jsx:2180-2202 | reordering is a permutation of the column list |
| Columns.AddColumn | src/App.jsx:2249-2267 | a blank name and a name already listed as that string are refused with their alerts; otherwise the field is recorded and the name appended as a string |
| Columns.AddColumnKeepsDistinct | src/App.jsx:2249-2267 | adding keeps the column list free of repeats, and adding the same name again is refused |
| Columns.PaddedDuplicateAccepted | src/App.jsx:2254 | a name differing from an existing column only by surrounding spaces is accepted |
| Columns.NumberColumnAdmitsText | src/App.jsx:2254 | the text "2024" is accepted beside a number column 2024, and both are then listed |
| SheetUrl.FindPubIsIncludes | src/App.jsx:110 | the search for "/pubhtml" succeeds exactly when the link includes it |
| SheetUrl.ReplacePubHtml | src/App.jsx:111 | "/pubhtml" and the rest of its line become "/pub?output=csv" |
| SheetUrl.SheetId | src/App.jsx:115 | there is no id exactly when "/d/" is never followed by an id character; otherwise the id is the longest run of id characters after the leftmost such "/d/" |
| SheetUrl.Rewrite | src/App.jsx:98-119 | an empty link loads nothing; a "/pubhtml" link is pointed at its CSV; a link with an id other than "e" becomes that sheet's export URL; anything else is kept |
| SheetUrl.EditLinkBecomesExport | src/App.jsx:114-119 | an edit link `.../spreadsheets/d/<id>/...` becomes the export URL of `<id>` |
| SheetUrl.ExportUrlIsStable | src/App.jsx:114-119 | rewriting an export URL leaves it unchanged |
| SheetUrl.PublishedKeyIsNotAnId | src/App.jsx:116-117 | a `/d/e/<key>` link without "/pubhtml" is fetched as typed |
| SheetUrl.PublishedLinkBecomesCsv | src/App.jsx:110-111 | `<base>/pubhtml<rest>` becomes `<base>/pub?output=csv` |
| Export.Selection | src/App.jsx:605-617 | the filtered scope takes the table's rows; otherwise a task is exported exactly when it matches the task-name choice and, if ticked, is delayed |
| Export.SelectionIsOneFilter | src/App.jsx:608-616 | the two narrowing steps keep exactly the wanted tasks in task-list order |
| Export.ExportRows | src/App.jsx:619-633 | an empty selection is refused with its alert; otherwise there is one row per selected task, in order |
| Export.RowOf | src/App.jsx:625-633 | a row copies the name, status and deadline, and "-" for the delay of a task that is not delayed |
| Export.DelayedRowHasNoCount | src/App.jsx:632 | without a "delay" header, a delayed task's delay cell is `undefined` |
| Export.ReplaceSpaces | src/App.jsx:659 | replacing whitespace runs leaves no whitespace, never lengthens the text and changes text without whitespace not at all |
| Export.ReplaceSpacesRun | src/App.jsx:659 | run by run: a whitespace-free prefix is kept, the maximal whitespace run after it becomes one "_", and the rest is replaced in turn |
| Export.ReplaceSpacesIdempotent | src/App.jsx:659 | replacing again changes nothing |
| Export.Extension | src/App.jsx:669-678 | the extension is ".csv" exactly for the CSV format |
| Export.FileName | src/App.jsx:652-678 | the file name ends with the format's extension |
| Export.FileNameHasNoSpace | src/App.jsx:652-664 | with a whitespace-free date, the file name has no whitespace |
| Export.DelayedNameDiffers | src/App.jsx:661-663 | ticking "delayed only" on an all-tasks export always changes the name |
| Export.TaskNamedLikeDefaultCollides | src/App.jsx:653-660 | a task named "tasks export" gets the same file name as the export of all tasks |

## Left out

- Rendering, React state, `localStorage`, `window.confirm` and the modal flow
  are not modelled. Alerts appear as `Outcome.Error` messages.
- I/O is not modelled: reading the workbook (`XLSX`), `fetch` of the sheet CSV
  and of Airtable, the file save and the MIME types. `processWorkbook` starts
  from the first sheet as a table of cell values.
- The clock and the time zone are not modelled. "Today" is `Env.today`, a day
  number at local midnight. The export's ISO date is the `day` parameter of
  `Export.FileName`.
- The engine's fallback `new Date(text)` parse and `Date.prototype.toString`
  (what `String(v)` gives for a Date) are functions in `Env`. Their results are
  not modelled.
- Numbers are integers. Fractional serials, fractional cells and floating-point
  rounding are not modelled.
- Text.LowerChar: case mapping covers ASCII and Latin-1 (plus U+0178) only, and
  other characters are left unchanged. Canonical decomposition likewise covers
  only the precomposed Latin-1 letters.
- Columns.LocaleCompare: `localeCompare` is locale collation, and the model
  uses code-point order (`Text.LexLess`) in its place. The two differ widely.
  Collation compares letters first and ignores case and accents at that level,
  so the engine sorts "notes" before "Priority" and "état" before "Zone". Code
  points put every upper-case ASCII letter before every lower-case one and
  accented letters after both, so the model puts "Priority" first and "Zone"
  first. Spaces and punctuation weigh differently too. The model's order of the
  non-standard Airtable keys is therefore the engine's only for keys that the
  two orders rank alike. The standard keys' order does not depend on it.
- Text.LexLess: JavaScript's `<` on strings compares UTF-16 code units, while
  the model's characters are code points. The two orders differ only between a
  character above U+FFFF and one from U+E000 to U+FFFF.
- Dates.ParseDate: a serial n is the day n days after the epoch. The engine adds
  n times 86 400 000 ms to the epoch's local midnight. When the UTC offset at the
  epoch differs from the one at the date (daylight saving, historic offsets), the
  engine's Date lands off midnight, and it lands on the previous day when the
  offset shrank. The model has no time zone and keeps the day.
- Workbook.InternalOf: the running days are the absolute day difference between
  today and the start date. For a start date in the future that the engine placed
  after midnight (see `Dates.ParseDate` above), the source's
  `Math.ceil(Math.abs(ms) / day)` counts one day more than the model.
- Tasks.Get: a name inherited from `Object.prototype` reads as `Obj`. The engine
  gives a function (or `Object.prototype` itself), whose `String(...)` form is
  the function's source text, not "[object Object]". This only matters when
  sorting by a column the task has no cell for.
- Workbook.CellsKeys: a header reading `__proto__` whose cell is a plain object
  would replace the task's prototype. Cells read from a sheet are never plain
  objects, so the model drops such a header's cell.
- Columns.ToggleHidden: two Date header cells for the same day are one value in
  the model but two objects in the engine. In the model, hiding one hides both,
  and `AddColumnKeepsDistinct` counts them as a repeat.
- Views.UniqueTaskNames: `new Set` keeps every distinct Date object, even two
  for the same day. The model's values have no object identity, so two Date
  names for the same day are listed once.
- Views.FilteredTasks: the order is stated only for columns whose keys are all
  numbers or all text (`Views.FilteredTasksSorted`). With mixed keys the
  comparator is inconsistent (`Views.MixedKeysCycle`), and the engine's result
  then depends on its sort algorithm. The model's insertion sort is one possible
  outcome.
- Export.RowOf: the `custom_` fields of the export row are not modelled. They
  depend on enumerating object keys and on `parseInt` of the key. The eight
  fixed columns are modelled.
- The Airtable task mapping beyond the key order, the merge and the date display
  is not modelled: field-by-field copying and record ids. It uses the same date
  parser and badge as the sheet path.
- `handleAddTask` and `handleEdit` are modelled only through their date helpers
  (`parseLocal`, `formatDateManual`, `toInputDate`). Writing records to Airtable
  is I/O.
- Views.StatsOf: its own contract only bounds the counts. What each card counts
  is stated against the filter buttons by `Views.StatsMatchButtons`, and per task
  name by `Views.TypeStatsMatchStats`.
- Views.MatchesSearch has no contract of its own. Its behaviour is stated by
  `Views.SearchOutcome`.

=== FILE: calendar.dfy ===
/** Proleptic Gregorian calendar arithmetic on integer day numbers.

    A calendar day is the number of days since 1 January 1970 in the local
    calendar.  The conversion follows the usual "March-based era" layout: a
    400-year era starts on 1 March, so that the leap day, when there is one,
    is the last day of a March-based year.  Both directions of the
    conversion are proved inverse to each other. */
module Calendar {

  /** Days since 1970-01-01 (local calendar, no time of day). */
  type Day = int

  datatype Civil = Civil(year: int, month: int, day: int)

  predicate IsLeap(y: int) {
    y % 4 == 0 && (y % 100 != 0 || y % 400 == 0)
  }

  function DaysInMonth(y: int, m: int): int
    requires 1 <= m <= 12
  {
    if m == 2 then (if IsLeap(y) then 29 else 28)
    else if m == 4 || m == 6 || m == 9 || m == 11 then 30
    else 31
  }

  predicate ValidCivil(c: Civil) {
    1 <= c.month <= 12 && 1 <= c.day <= DaysInMonth(c.year, c.month)
  }

  /** Days in one 400-year era. */
  const EraDays: int := 146097
  /** Days from 0000-03-01 to 1970-01-01. */
  const EpochShift: int := 719468

  /** Days before March-based year `k` of an era (0 <= k <= 400). */
  function DaysBeforeYoe(k: int): int
    requires 0 <= k <= 400
  {
    365 * k + k / 4 - k / 100 + k / 400
  }

  /** Length of March-based year `k` of an era: its February belongs to
      calendar year `k + 1` of the era. */
  function YearLenYoe(k: int): int
    requires 0 <= k < 400
  {
    if IsLeap(k + 1) then 366 else 365
  }

  /** Offset of month `mp` (0 = March, ..., 10 = January, 11 = February)
      from 1 March. */
  function MonthStart(mp: int): int
    requires 0 <= mp <= 11
  {
    if mp == 0 then 0 else if mp == 1 then 31 else if mp == 2 then 61
    else if mp == 3 then 92 else if mp == 4 then 122 else if mp == 5 then 153
    else if mp == 6 then 184 else if mp == 7 then 214 else if mp == 8 then 245
    else if mp == 9 then 275 else if mp == 10 then 306 else 337
  }

  /** The March-based month that day-of-year `doy` falls in. */
  function MonthOfDoy(doy: int): (mp: int)
    requires 0 <= doy <= 365
    ensures 0 <= mp <= 11
    ensures MonthStart(mp) <= doy
    ensures mp < 11 ==> doy < MonthStart(mp + 1)
  {
    if doy < 31 then 0 else if doy < 61 then 1 else if doy < 92 then 2
    else if doy < 122 then 3 else if doy < 153 then 4 else if doy < 184 then 5
    else if doy < 214 then 6 else if doy < 245 then 7 else if doy < 275 then 8
    else if doy < 306 then 9 else if doy < 337 then 10 else 11
  }

  function MarchMonth(m: int): int
    requires 1 <= m <= 12
  {
    if m > 2 then m - 3 else m + 9
  }

  function CalendarMonth(mp: int): int
    requires 0 <= mp <= 11
  {
    if mp < 10 then mp + 3 else mp - 9
  }

  /** Day number of a calendar date.  Days past the end of the month simply
      run on into the next months (the formula is additive in `d`). */
  function DaysFromCivil(y: int, m: int, d: int): Day
    requires 1 <= m <= 12
  {
    var yy := if m <= 2 then y - 1 else y;
    (yy / 400) * EraDays + DaysBeforeYoe(yy % 400) + MonthStart(MarchMonth(m)) + d - 1 - EpochShift
  }

  lemma DivStep4(k: int)
    requires 0 <= k
    ensures (k + 1) / 4 == k / 4 + (if (k + 1) % 4 == 0 then 1 else 0)
  {
  }

  lemma DivStep100(k: int)
    requires 0 <= k
    ensures (k + 1) / 100 == k / 100 + (if (k + 1) % 100 == 0 then 1 else 0)
  {
  }

  lemma DivStep400(k: int)
    requires 0 <= k
    ensures (k + 1) / 400 == k / 400 + (if (k + 1) % 400 == 0 then 1 else 0)
  {
  }

  lemma YearStep(k: int)
    requires 0 <= k < 400
    ensures DaysBeforeYoe(k + 1) == DaysBeforeYoe(k) + YearLenYoe(k)
  {
    DivStep4(k);
    DivStep100(k);
    DivStep400(k);
  }

  lemma {:induction false} DaysBeforeYoeMono(k: int, k': int)
    requires 0 <= k <= k' <= 400
    ensures DaysBeforeYoe(k) + 365 * (k' - k) <= DaysBeforeYoe(k')
    decreases k' - k
  {
    if k < k' {
      YearStep(k);
      DaysBeforeYoeMono(k + 1, k');
    }
  }

  /** Splits the day-of-era `doe` into a March-based year of the era and a
      day of that year: centuries, then four-year cycles, then years. */
  function SplitEra(doe: int): (r: (int, int))
    requires 0 <= doe < EraDays
    ensures 0 <= r.0 < 400 && 0 <= r.1 < YearLenYoe(r.0)
    ensures DaysBeforeYoe(r.0) + r.1 == doe
  {
    var c := if doe / 36524 < 3 then doe / 36524 else 3;
    var rest := doe - 36524 * c;
    var q := rest / 1461;
    var r2 := rest - 1461 * q;
    var y4 := if r2 / 365 < 3 then r2 / 365 else 3;
    SplitEraSound(doe, c, rest, q, r2, y4);
    (100 * c + 4 * q + y4, r2 - 365 * y4)
  }

  /** The steps of `SplitEra` land inside the era and add back up. */
  lemma SplitEraSound(doe: int, c: int, rest: int, q: int, r2: int, y4: int)
    requires 0 <= doe < EraDays
    requires c == (if doe / 36524 < 3 then doe / 36524 else 3) && rest == doe - 36524 * c
    requires q == rest / 1461 && r2 == rest - 1461 * q
    requires y4 == (if r2 / 365 < 3 then r2 / 365 else 3)
    ensures var yoe := 100 * c + 4 * q + y4;
            0 <= yoe < 400 && 0 <= r2 - 365 * y4 < YearLenYoe(yoe)
            && DaysBeforeYoe(yoe) + r2 - 365 * y4 == doe
  {
    assert 0 <= c <= 3 && 0 <= rest;
    assert 0 <= q <= 24 && 0 <= r2 < 1461 && 0 <= y4 <= 3;
    YoeParts(c, q, y4);
    assert r2 - 365 * y4 == 365 ==> y4 == 3 && r2 == 1460;
    assert r2 - 365 * y4 == 365 && q == 24 ==> c == 3;
  }

  /** A year of era counted in centuries, four-year cycles and years. */
  lemma YoeParts(c: int, q: int, y4: int)
    requires 0 <= c <= 3 && 0 <= q <= 24 && 0 <= y4 <= 3
    ensures var yoe := 100 * c + 4 * q + y4;
            yoe / 4 == 25 * c + q && yoe / 100 == c && yoe / 400 == 0
            && DaysBeforeYoe(yoe) == 36524 * c + 1461 * q + 365 * y4
  {
  }

  /** A day of era has exactly one (year of era, day of year) split. */
  lemma SplitUnique(k1: int, d1: int, k2: int, d2: int)
    requires 0 <= k1 < 400 && 0 <= d1 < YearLenYoe(k1)
    requires 0 <= k2 < 400 && 0 <= d2 < YearLenYoe(k2)
    requires DaysBeforeYoe(k1) + d1 == DaysBeforeYoe(k2) + d2
    ensures k1 == k2 && d1 == d2
  {
    if k1 < k2 {
      YearStep(k1);
      DaysBeforeYoeMono(k1 + 1, k2);
    } else if k2 < k1 {
      YearStep(k2);
      DaysBeforeYoeMono(k2 + 1, k1);
    }
  }

  /** Leap years repeat with a period of 400 years. */
  lemma LeapPeriodic(era: int, k: int)
    ensures IsLeap(400 * era + k) == IsLeap(k)
  {
    ShiftMod4(100 * era, k);
    ShiftMod100(4 * era, k);
    ShiftMod400(era, k);
  }

  lemma ShiftMod4(t: int, k: int)
    ensures (4 * t + k) % 4 == k % 4
  {
  }

  lemma ShiftMod100(t: int, k: int)
    ensures (100 * t + k) % 100 == k % 100
  {
  }

  lemma ShiftMod400(t: int, k: int)
    ensures (400 * t + k) % 400 == k % 400
  {
  }

  lemma DivModUnique(z: int, q: int, r: int)
    requires 0 <= r < EraDays && z == q * EraDays + r
    ensures z / EraDays == q && z % EraDays == r
  {
  }

  /** The date of day `doy` of March-based year `yoe` of era `era`. */
  function CivilOfEra(era: int, yoe: int, doy: int): (c: Civil)
    requires 0 <= yoe < 400 && 0 <= doy < YearLenYoe(yoe)
    ensures ValidCivil(c)
    ensures DaysFromCivil(c.year, c.month, c.day) == era * EraDays + DaysBeforeYoe(yoe) + doy - EpochShift
  {
    var mp := MonthOfDoy(doy);
    var m := CalendarMonth(mp);
    var y := era * 400 + yoe + (if m <= 2 then 1 else 0);
    LeapPeriodic(era, yoe + 1);
    var yy := if m <= 2 then y - 1 else y;
    assert yy == era * 400 + yoe;
    assert yy / 400 == era && yy % 400 == yoe;
    assert MarchMonth(m) == mp;
    Civil(y, m, doy - MonthStart(mp) + 1)
  }

  /** The calendar date of a day number.  It is always a valid date, and
      converting it back gives the same day number. */
  function CivilFromDays(n: Day): (c: Civil)
    ensures ValidCivil(c)
    ensures DaysFromCivil(c.year, c.month, c.day) == n
  {
    var z := n + EpochShift;
    var split := SplitEra(z % EraDays);
    CivilOfEra(z / EraDays, split.0, split.1)
  }

  /** A day of a year of the era is a day of the era. */
  lemma DayOfEraBound(yoe: int, doy: int)
    requires 0 <= yoe < 400 && 0 <= doy < YearLenYoe(yoe)
    ensures 0 <= DaysBeforeYoe(yoe) + doy < EraDays
  {
    YearStep(yoe);
    DaysBeforeYoeMono(yoe + 1, 400);
  }

  /** Converting a valid date to its day number and back gives the date. */
  lemma CivilRoundTrip(c: Civil)
    requires ValidCivil(c)
    ensures CivilFromDays(DaysFromCivil(c.year, c.month, c.day)) == c
  {
    var yy := if c.month <= 2 then c.year - 1 else c.year;
    var doy := MonthStart(MarchMonth(c.month)) + c.day - 1;
    EraPosition(c);
    DaysOfEraPosition(DaysFromCivil(c.year, c.month, c.day), yy / 400, yy % 400, doy);
  }

  /** The era, year of era and day of year of a valid date, in the form
      `CivilOfEra` builds it from. */
  lemma EraPosition(c: Civil)
    requires ValidCivil(c)
    ensures var yy := if c.month <= 2 then c.year - 1 else c.year;
            var doy := MonthStart(MarchMonth(c.month)) + c.day - 1;
            0 <= doy < YearLenYoe(yy % 400) && CivilOfEra(yy / 400, yy % 400, doy) == c
  {
    var yy := if c.month <= 2 then c.year - 1 else c.year;
    var era := yy / 400;
    var yoe := yy % 400;
    var mp := MarchMonth(c.month);
    var doy := MonthStart(mp) + c.day - 1;
    LeapPeriodic(era, yoe + 1);
    assert c.month <= 2 ==> c.year == 400 * era + yoe + 1;
    assert doy < YearLenYoe(yoe);
    assert MonthOfDoy(doy) == mp;
  }

  /** A day number with a known era position converts to that position's
      date. */
  lemma DaysOfEraPosition(n: Day, era: int, yoe: int, doy: int)
    requires 0 <= yoe < 400 && 0 <= doy < YearLenYoe(yoe)
    requires n == era * EraDays + DaysBeforeYoe(yoe) + doy - EpochShift
    ensures CivilFromDays(n) == CivilOfEra(era, yoe, doy)
  {
    var doe := DaysBeforeYoe(yoe) + doy;
    DayOfEraBound(yoe, doy);
    var z := n + EpochShift;
    assert z == era * EraDays + doe;
    DivModUnique(z, era, doe);
    var split := SplitEra(doe);
    SplitUnique(split.0, split.1, yoe, doy);
    assert split == SplitEra(z % EraDays);
    assert CivilFromDays(n) == CivilOfEra(z / EraDays, split.0, split.1);
    assert z / EraDays == era && split.0 == yoe && split.1 == doy;
  }

  /** Day numbers and valid dates are in one-to-one correspondence. */
  lemma DaysFromCivilInjective(a: Civil, b: Civil)
    requires ValidCivil(a) && ValidCivil(b)
    requires DaysFromCivil(a.year, a.month, a.day) == DaysFromCivil(b.year, b.month, b.day)
    ensures a == b
  {
    CivilRoundTrip(a);
    CivilRoundTrip(b);
  }

  // ---------------------------------------------------------------------
  // The local-time Date constructor `new Date(year, monthIndex, day)`.

  /** The constructor reads a year between 0 and 99 as 1900 + year. */
  function ConstructorYear(y: int): int {
    if 0 <= y <= 99 then 1900 + y else y
  }

  /** `new Date(y, m0, d)` at local midnight: months outside 0..11 roll the
      year over, days outside the month roll into neighbouring months. */
  function MakeDate(y: int, m0: int, d: int): Day {
    DaysFromCivil(ConstructorYear(y) + m0 / 12, m0 % 12 + 1, 1) + d - 1
  }

  /** In-range fields are taken literally (after the two-digit-year rule). */
  lemma MakeDateInMonth(y: int, m0: int, d: int)
    requires 0 <= m0 < 12 && 1 <= d <= DaysInMonth(ConstructorYear(y), m0 + 1)
    ensures CivilFromDays(MakeDate(y, m0, d)) == Civil(ConstructorYear(y), m0 + 1, d)
  {
    assert m0 / 12 == 0 && m0 % 12 == m0;
    assert MakeDate(y, m0, d) == DaysFromCivil(ConstructorYear(y), m0 + 1, d);
    CivilRoundTrip(Civil(ConstructorYear(y), m0 + 1, d));
  }

  /** The first day after a month is the first of the following month. */
  lemma MonthRollOver(y: int, m: int)
    requires 1 <= m <= 12
    ensures DaysFromCivil(y, m, 1) + DaysInMonth(y, m)
            == (if m == 12 then DaysFromCivil(y + 1, 1, 1) else DaysFromCivil(y, m + 1, 1))
  {
    if m == 2 {
      FebruaryRollOver(y);
    } else {
      var yy := if m <= 2 then y - 1 else y;
      var next := if m == 12 then 1 else m + 1;
      var ny := if m == 12 then y + 1 else y;
      assert (if next <= 2 then ny - 1 else ny) == yy;
      MarchMonthStep(m);
      assert DaysFromCivil(ny, next, 1) - DaysFromCivil(y, m, 1)
             == MonthStart(MarchMonth(next)) - MonthStart(MarchMonth(m));
    }
  }

  /** Outside February a month's length is the gap to the next month's
      start in the March-based year. */
  lemma MarchMonthStep(m: int)
    requires 1 <= m <= 12 && m != 2
    ensures MarchMonth(m) < 11
    ensures MarchMonth(if m == 12 then 1 else m + 1) == MarchMonth(m) + 1
    ensures MonthStart(MarchMonth(m) + 1) - MonthStart(MarchMonth(m)) == DaysInMonth(0, m)
  {
  }

  /** The day after the last of February is 1 March: the March-based year
      moves on by one year, whose length counts the leap day. */
  lemma FebruaryRollOver(y: int)
    ensures DaysFromCivil(y, 2, 1) + DaysInMonth(y, 2) == DaysFromCivil(y, 3, 1)
  {
    var era := (y - 1) / 400;
    var k := (y - 1) % 400;
    if k < 399 {
      FebruaryWithinEra(y, era, k);
    } else {
      FebruaryEndsEra(y, era);
    }
  }

  lemma FebruaryWithinEra(y: int, era: int, k: int)
    requires 0 <= k < 399 && y - 1 == 400 * era + k
    ensures DaysFromCivil(y, 2, 1) + DaysInMonth(y, 2) == DaysFromCivil(y, 3, 1)
  {
    EraOfYear(y - 1, era, k);
    EraOfYear(y, era, k + 1);
    LeapPeriodic(era, k + 1);
    YearStep(k);
  }

  lemma FebruaryEndsEra(y: int, era: int)
    requires y - 1 == 400 * era + 399
    ensures DaysFromCivil(y, 2, 1) + DaysInMonth(y, 2) == DaysFromCivil(y, 3, 1)
  {
    var feb := DaysFromCivil(y, 2, 1);
    var mar := DaysFromCivil(y, 3, 1);
    EraOfYear(y - 1, era, 399);
    assert feb == era * EraDays + DaysBeforeYoe(399) + 337 - EpochShift;
    EraOfYear(y, era + 1, 0);
    assert mar == (era + 1) * EraDays - EpochShift;
    LeapEra(y, era + 1);
    assert DaysInMonth(y, 2) == 29;
    assert DaysBeforeYoe(399) + 337 + 29 == EraDays;
  }

  lemma LeapEra(y: int, e: int)
    requires y == 400 * e
    ensures IsLeap(y)
  {
    LeapPeriodic(e, 0);
  }

  /** A year written as `400 * era + k` has era `era` and year of era `k`. */
  lemma EraOfYear(y: int, era: int, k: int)
    requires 0 <= k < 400 && y == 400 * era + k
    ensures y / 400 == era && y % 400 == k
    ensures DaysFromCivil(y, 3, 1) == era * EraDays + DaysBeforeYoe(k) - EpochShift
    ensures DaysFromCivil(y + 1, 2, 1) == era * EraDays + DaysBeforeYoe(k) + 337 - EpochShift
  {
  }

  /** Largest magnitude of a Date's time value is 8.64e15 ms, that is
      100,000,000 days either side of the epoch. */
  const MaxJsDays: int := 100_000_000

  predicate InDateRange(n: Day) {
    -MaxJsDays <= n <= MaxJsDays
  }
}

=== FILE: columns.dfy ===
/** The table's column list: the order an Airtable import gives the
    record keys, the merge of those keys into the saved list, and the
    column manager's edits (delete hidden, show/hide, reorder, add). */
module Columns {
  import opened Results
  import opened Text
  import opened Seqs
  import opened Sorting
  import opened Values

  // ---------------------------------------------------------------------
  // Airtable key order

  /** The keys listed first, in this order, when a record has them. */
  const StandardOrder: seq<string> := ["Task Name", "Description", "Assignee", "Status", "Start Date", "Deadline"]

  /** `localeCompare`, replaced here by code-point order; locale
      collation (case and accents ignored at the first level) is not
      modelled. */
  function LocaleCompare(a: string, b: string): int {
    if LexLess(a, b) then -1 else if LexLess(b, a) then 1 else 0
  }

  /** The comparator of the key sort. */
  function KeyCompare(a: string, b: string): int {
    var ia := IndexOfElem(StandardOrder, a);
    var ib := IndexOfElem(StandardOrder, b);
    if ia != -1 && ib != -1 then ia - ib
    else if ia != -1 then -1
    else if ib != -1 then 1
    else LocaleCompare(a, b)
  }

  /** `a` may stay before `b`. */
  predicate KeyLe(a: string, b: string) {
    KeyCompare(a, b) <= 0
  }

  /** The key order, spelled out: standard keys first, by their place in
      the standard list, then the other keys in string order. */
  predicate KeyBefore(a: string, b: string) {
    if a in StandardOrder && b in StandardOrder then IndexOfElem(StandardOrder, a) <= IndexOfElem(StandardOrder, b)
    else if a in StandardOrder then true
    else if b in StandardOrder then false
    else !LexLess(b, a)
  }

  lemma KeyLeMeansBefore(a: string, b: string)
    ensures KeyLe(a, b) <==> KeyBefore(a, b)
  {
    if LexLess(a, b) && LexLess(b, a) {
      LexLessTransitive(a, b, a);
      LexLessIrreflexive(a);
    }
  }

  lemma KeyLeTotal(a: string, b: string)
    ensures KeyLe(a, b) || KeyLe(b, a)
  {
    KeyLeMeansBefore(a, b);
    KeyLeMeansBefore(b, a);
    if a != b {
      LexLessTotal(a, b);
    }
  }

  lemma KeyLeTransitive(a: string, b: string, c: string)
    requires KeyLe(a, b) && KeyLe(b, c)
    ensures KeyLe(a, c)
  {
    KeyLeMeansBefore(a, b);
    KeyLeMeansBefore(b, c);
    KeyLeMeansBefore(a, c);
    if a !in StandardOrder && b !in StandardOrder && c !in StandardOrder && a != b && b != c {
      LexLessTotal(a, b);
      LexLessTotal(b, c);
      LexLessTransitive(a, b, c);
      if LexLess(c, a) {
        LexLessTransitive(a, c, a);
        LexLessIrreflexive(a);
      }
    }
  }

  /** The comparator is a total order on any keys. */
  lemma KeyOrderIsConsistent(keys: seq<string>)
    ensures Preorder(keys, (a: string, b: string) => KeyLe(a, b))
  {
    forall a, b | a in keys && b in keys ensures KeyLe(a, b) || KeyLe(b, a) {
      KeyLeTotal(a, b);
    }
    forall a, b, c | a in keys && b in keys && c in keys && KeyLe(a, b) && KeyLe(b, c) ensures KeyLe(a, c) {
      KeyLeTransitive(a, b, c);
    }
  }

  /** `Array.from(allKeys).sort(...)`: every field key of every record,
      each once (a `Set` keeps first-insertion order), sorted. */
  function OrderKeys(fieldKeys: seq<string>): (r: seq<string>)
    ensures multiset(r) == multiset(Dedup(fieldKeys))
  {
    InsertionSort(Dedup(fieldKeys), (a: string, b: string) => KeyLe(a, b))
  }

  /** The sorted keys are exactly the record keys, each once, in the key
      order: standard keys first in their standard order, then the rest
      in string order. */
  lemma OrderKeysSpec(fieldKeys: seq<string>)
    ensures forall k :: k in OrderKeys(fieldKeys) <==> k in fieldKeys
    ensures Distinct(OrderKeys(fieldKeys))
    ensures forall i, j :: 0 <= i < j < |OrderKeys(fieldKeys)| ==> KeyBefore(OrderKeys(fieldKeys)[i], OrderKeys(fieldKeys)[j])
  {
    var d := Dedup(fieldKeys);
    var r := OrderKeys(fieldKeys);
    assert forall k :: k in r <==> k in multiset(r);
    assert forall k :: k in d <==> k in multiset(d);
    KeyOrderIsConsistent(d);
    SortSorted(d, (a: string, b: string) => KeyLe(a, b));
    forall i, j | 0 <= i < j < |r| ensures KeyBefore(r[i], r[j]) {
      KeyLeMeansBefore(r[i], r[j]);
    }
    DistinctMultiset(d, r);
  }

  /** A permutation of a sequence without repeats has none either. */
  lemma DistinctMultiset(d: seq<string>, r: seq<string>)
    requires Distinct(d) && multiset(r) == multiset(d)
    ensures Distinct(r)
  {
    forall x | x in multiset(d) ensures multiset(d)[x] == 1 {
      DistinctCount(d, x);
    }
    forall i, j | 0 <= i < j < |r| ensures r[i] != r[j] {
      if r[i] == r[j] {
        assert multiset(d)[r[i]] == 1;
        TwoCopies(r, i, j);
        assert false;
      }
    }
  }

  lemma {:induction false} DistinctCount(d: seq<string>, x: string)
    requires Distinct(d) && x in d
    ensures multiset(d)[x] == 1
  {
    var n := |d| - 1;
    assert d == d[..n] + [d[n]];
    if d[n] == x {
      assert x !in d[..n];
    } else {
      assert x in d[..n];
      DistinctCount(d[..n], x);
    }
  }

  lemma TwoCopies(r: seq<string>, i: nat, j: nat)
    requires i < j < |r| && r[i] == r[j]
    ensures multiset(r)[r[i]] >= 2
  {
    assert r == r[..i] + [r[i]] + r[i + 1..j] + [r[j]] + r[j + 1..];
  }

  // ---------------------------------------------------------------------
  // Merging record keys into the saved columns

  /** `sortedKeys.forEach(key => { if (!newColumns.includes(key))
      newColumns.push(key) })`: new keys are appended, existing columns
      keep their place. */
  function MergeColumns<T(==,!new)>(cols: seq<T>, keys: seq<T>): (r: seq<T>)
    ensures |cols| <= |r| && r[..|cols|] == cols
    ensures forall k :: k in r <==> k in cols || k in keys
    ensures Distinct(cols) ==> Distinct(r)
    decreases |keys|
  {
    if keys == [] then cols
    else
      assert forall k :: k in keys <==> k == keys[0] || k in keys[1..];
      var next := if keys[0] in cols then cols else cols + [keys[0]];
      var r := MergeColumns(next, keys[1..]);
      assert r[..|cols|] == r[..|next|][..|cols|];
      r
  }

  /** What a merge appends to `cols`: the keys not yet saved. */
  function NewKeys<T(==,!new)>(cols: seq<T>, keys: seq<T>): seq<T> {
    Filter(keys, (k: T) => k !in cols)
  }

  /** A key already saved is skipped. */
  lemma NewKeysSkip<T(!new)>(cols: seq<T>, keys: seq<T>)
    requires keys != [] && keys[0] in cols
    ensures NewKeys(cols, keys) == NewKeys(cols, keys[1..])
  {
    assert keys == [keys[0]] + keys[1..];
    FilterConcat([keys[0]], keys[1..], (k: T) => k !in cols);
  }

  /** A new key is kept, and later keys are judged against the list with
      it appended. */
  lemma NewKeysTake<T(!new)>(cols: seq<T>, keys: seq<T>)
    requires keys != [] && keys[0] !in cols && keys[0] !in keys[1..]
    ensures NewKeys(cols, keys) == [keys[0]] + NewKeys(cols + [keys[0]], keys[1..])
  {
    assert keys == [keys[0]] + keys[1..];
    FilterConcat([keys[0]], keys[1..], (k: T) => k !in cols);
    FilterSame(keys[1..], (k: T) => k !in cols + [keys[0]], (k: T) => k !in cols);
  }

  /** With keys listed once each, the merge appends exactly the keys not
      already saved, in key order. */
  lemma {:induction false} MergeAppendsNew<T(!new)>(cols: seq<T>, keys: seq<T>)
    requires Distinct(keys)
    ensures MergeColumns(cols, keys) == cols + NewKeys(cols, keys)
    decreases |keys|
  {
    if keys != [] {
      assert Distinct(keys[1..]) && keys[0] !in keys[1..] by {
        assert forall i :: 1 <= i < |keys| ==> keys[i] == keys[1..][i - 1];
      }
      if keys[0] in cols {
        MergeAppendsNew(cols, keys[1..]);
        NewKeysSkip(cols, keys);
      } else {
        MergeAppendsNew(cols + [keys[0]], keys[1..]);
        NewKeysTake(cols, keys);
      }
    }
  }

  /** Merging keys that are all present changes nothing. */
  lemma {:induction false} MergePresent<T(!new)>(cols: seq<T>, keys: seq<T>)
    requires forall k :: k in keys ==> k in cols
    ensures MergeColumns(cols, keys) == cols
    decreases |keys|
  {
    if keys != [] {
      assert keys[0] in cols;
      MergePresent(cols, keys[1..]);
    }
  }

  /** Importing the same records twice gives the columns of one import. */
  lemma MergeIdempotent<T(!new)>(cols: seq<T>, keys: seq<T>)
    ensures MergeColumns(MergeColumns(cols, keys), keys) == MergeColumns(cols, keys)
  {
    MergePresent(MergeColumns(cols, keys), keys);
  }

  /** `includes` compares values, not their text: a sheet header holding
      the number 2024 does not stop a field key "2024" from being
      appended. */
  lemma MergeBesideNumber(cols: seq<Value>)
    requires Num(2024) in cols && Str("2024") !in cols
    ensures MergeColumns(cols, [Str("2024")]) == cols + [Str("2024")]
  {
    assert [Str("2024")][1..] == [];
  }

  /** The columns after an Airtable import; with no records the list is
      left as it was. */
  function AirtableColumns(cols: seq<Value>, records: seq<seq<string>>): (r: seq<Value>)
    ensures records == [] ==> r == cols
  {
    if records == [] then cols
    else MergeColumns(cols, Strs(OrderKeys(Flatten(records))))
  }

  /** The keys as the string values `includes` compares with the saved
      columns. */
  function Strs(keys: seq<string>): (r: seq<Value>)
    ensures |r| == |keys| && forall i :: 0 <= i < |keys| ==> r[i] == Str(keys[i])
    ensures forall v :: v in r <==> v.Str? && v.s in keys
    ensures Distinct(keys) ==> Distinct(r)
  {
    seq(|keys|, i requires 0 <= i < |keys| => Str(keys[i]))
  }

  /** Every record's field keys, record by record. */
  function Flatten(records: seq<seq<string>>): (r: seq<string>)
    ensures forall k :: k in r <==> exists i :: 0 <= i < |records| && k in records[i]
  {
    if records == [] then []
    else
      var rest := Flatten(records[1..]);
      assert forall i :: 1 <= i < |records| ==> records[i] == records[1..][i - 1];
      records[0] + rest
  }

  /** An import keeps the saved columns in front and appends each field
      key it has not seen, once. */
  lemma AirtableColumnsSpec(cols: seq<Value>, records: seq<seq<string>>)
    requires Distinct(cols)
    ensures var r := AirtableColumns(cols, records);
            |cols| <= |r| && r[..|cols|] == cols && Distinct(r)
            && forall k :: k in r <==> k in cols || (k.Str? && exists i :: 0 <= i < |records| && k.s in records[i])
  {
    if records != [] {
      OrderKeysSpec(Flatten(records));
    }
  }

  // ---------------------------------------------------------------------
  // The column manager

  /** A column the user added, with its input type. */
  datatype CustomField = CustomField(name: string, kind: string)

  /** The saved column list, the hidden columns and the custom fields.
      Columns are values: a sheet's header cells are stored as they are,
      and `includes` and `!==` compare values, not their text. */
  datatype Settings = Settings(columns: seq<Value>, hidden: seq<Value>, customFields: seq<CustomField>)

  /** The table shows the columns that are not hidden, in list order. */
  function Visible(s: Settings): (r: seq<Value>)
    ensures forall c :: c in r <==> c in s.columns && c !in s.hidden
  {
    Filter(s.columns, (c: Value) => c !in s.hidden)
  }

  /** "Delete hidden columns": the hidden columns leave the list and
      nothing is hidden any more. */
  function DeleteHidden(s: Settings): (r: Settings)
    ensures r.hidden == [] && r.customFields == s.customFields
    ensures forall c :: c in r.columns <==> c in s.columns && c !in s.hidden
  {
    Settings(Filter(s.columns, (c: Value) => c !in s.hidden), [], s.customFields)
  }

  /** Deleting the hidden columns leaves the table as it looked. */
  lemma DeleteHiddenKeepsView(s: Settings)
    ensures Visible(DeleteHidden(s)) == Visible(s)
  {
    var r := DeleteHidden(s);
    FilterAll(r.columns, (c: Value) => c !in r.hidden);
  }

  /** The show/hide checkbox of column `col`: checking removes every
      copy from the hidden list, unchecking appends one. */
  function ToggleHidden(s: Settings, col: Value, checked: bool): (r: Settings)
    ensures r.columns == s.columns && r.customFields == s.customFields
    ensures checked ==> col !in r.hidden
    ensures !checked ==> col in r.hidden
    ensures forall c :: c != col ==> (c in r.hidden <==> c in s.hidden)
  {
    var hidden := if checked then Filter(s.hidden, (c: Value) => c != col) else s.hidden + [col];
    Settings(s.columns, hidden, s.customFields)
  }

  /** Unchecking then checking a shown column restores the settings. */
  lemma HideThenShow(s: Settings, col: Value)
    requires col !in s.hidden
    ensures ToggleHidden(ToggleHidden(s, col, false), col, true) == s
  {
    FilterConcat(s.hidden, [col], (c: Value) => c != col);
    FilterAll(s.hidden, (c: Value) => c != col);
    assert Filter([col], (c: Value) => c != col) == [];
    assert s.hidden + [] == s.hidden;
  }

  /** `[a[i], a[j]] = [a[j], a[i]]`. */
  function Swap(cols: seq<Value>, i: nat, j: nat): (r: seq<Value>)
    requires i < |cols| && j < |cols|
    ensures |r| == |cols| && r[i] == cols[j] && r[j] == cols[i]
    ensures forall k :: 0 <= k < |cols| && k != i && k != j ==> r[k] == cols[k]
    ensures multiset(r) == multiset(cols)
  {
    var r := cols[i := cols[j]][j := cols[i]];
    assert multiset(cols[i := cols[j]]) == multiset(cols) - multiset{cols[i]} + multiset{cols[j]};
    r
  }

  /** The up arrow of the column at `index`, disabled on the first row. */
  function MoveUp(s: Settings, index: nat): (r: Settings)
    requires 0 < index < |s.columns|
    ensures r.hidden == s.hidden && r.customFields == s.customFields
    ensures |r.columns| == |s.columns|
    ensures r.columns[index - 1] == s.columns[index] && r.columns[index] == s.columns[index - 1]
    ensures forall k :: 0 <= k < |s.columns| && k != index - 1 && k != index ==> r.columns[k] == s.columns[k]
  {
    Settings(Swap(s.columns, index - 1, index), s.hidden, s.customFields)
  }

  /** The down arrow of the column at `index`, disabled on the last row. */
  function MoveDown(s: Settings, index: nat): (r: Settings)
    requires index + 1 < |s.columns|
    ensures r.hidden == s.hidden && r.customFields == s.customFields
    ensures |r.columns| == |s.columns|
    ensures r.columns[index + 1] == s.columns[index] && r.columns[index] == s.columns[index + 1]
    ensures forall k :: 0 <= k < |s.columns| && k != index && k != index + 1 ==> r.columns[k] == s.columns[k]
  {
    Settings(Swap(s.columns, index + 1, index), s.hidden, s.customFields)
  }

  /** Swapping twice restores the list. */
  lemma SwapTwice(cols: seq<Value>, i: nat, j: nat)
    requires i < |cols| && j < |cols|
    ensures Swap(Swap(cols, i, j), j, i) == cols
  {
    var r := Swap(Swap(cols, i, j), j, i);
    assert forall k :: 0 <= k < |cols| ==> r[k] == cols[k];
  }

  /** Moving a column up and then down again restores the list, and the
      other way round. */
  lemma MoveUpDownInverse(s: Settings, index: nat)
    requires 0 < index < |s.columns|
    ensures MoveDown(MoveUp(s, index), index - 1) == s
    ensures MoveUp(MoveDown(s, index - 1), index) == s
  {
    UpThenDown(s, index);
    DownThenUp(s, index);
  }

  lemma UpThenDown(s: Settings, index: nat)
    requires 0 < index < |s.columns|
    ensures MoveDown(MoveUp(s, index), index - 1) == s
  {
    var up := MoveUp(s, index);
    assert up.columns == Swap(s.columns, index - 1, index);
    SwapTwice(s.columns, index - 1, index);
    assert MoveDown(up, index - 1).columns == Swap(up.columns, index, index - 1);
  }

  lemma DownThenUp(s: Settings, index: nat)
    requires 0 < index < |s.columns|
    ensures MoveUp(MoveDown(s, index - 1), index) == s
  {
    var down := MoveDown(s, index - 1);
    assert down.columns == Swap(s.columns, index, index - 1);
    SwapTwice(s.columns, index, index - 1);
    assert MoveUp(down, index).columns == Swap(down.columns, index - 1, index);
  }

  /** Reordering never adds, drops or duplicates a column. */
  lemma MoveKeepsColumns(s: Settings, index: nat)
    requires 0 < index < |s.columns|
    ensures multiset(MoveUp(s, index).columns) == multiset(s.columns)
    ensures multiset(MoveDown(s, index - 1).columns) == multiset(s.columns)
  {
  }

  const BlankNameError: string := "Please enter a column name"
  const DuplicateError: string := "Column already exists"

  /** "Add column": a blank name (after trimming) and a name already in
      the list are refused; otherwise the field is recorded and the name,
      untrimmed, is appended to the list. */
  function AddColumn(s: Settings, name: string, kind: string): (r: Outcome<Settings>)
    ensures r == Error(BlankNameError) <==> AllSpace(name)
    ensures r == Error(DuplicateError) <==> !AllSpace(name) && Str(name) in s.columns
    ensures r.Ok? ==> r.value.columns == s.columns + [Str(name)]
                      && r.value.hidden == s.hidden
                      && r.value.customFields == s.customFields + [CustomField(name, kind)]
  {
    TrimEmptyIffBlank(name);
    if Trim(name) == [] then Error(BlankNameError)
    else if Str(name) in s.columns then Error(DuplicateError)
    else Ok(Settings(s.columns + [Str(name)], s.hidden, s.customFields + [CustomField(name, kind)]))
  }

  /** Adding keeps the column list free of repeats, and adding the same
      name again is refused. */
  lemma AddColumnKeepsDistinct(s: Settings, name: string, kind: string)
    requires Distinct(s.columns) && AddColumn(s, name, kind).Ok?
    ensures Distinct(AddColumn(s, name, kind).value.columns)
    ensures AddColumn(AddColumn(s, name, kind).value, name, kind) == Error(DuplicateError)
  {
  }

  /** The duplicate test compares the untrimmed name: a name differing
      from an existing column only by surrounding spaces is accepted. */
  lemma PaddedDuplicateAccepted(s: Settings, name: string, padded: string)
    requires Str(name) in s.columns && padded == " " + name && Str(padded) !in s.columns
    requires !AllSpace(name)
    ensures AddColumn(s, padded, "text").Ok?
  {
    assert !AllSpace(padded) by {
      var i :| 0 <= i < |name| && !IsSpace(name[i]);
      assert padded[i + 1] == name[i];
    }
  }

  /** A name whose text equals a number column is not a duplicate: the
      list then shows the number 2024 and the text "2024" side by side. */
  lemma NumberColumnAdmitsText(s: Settings, kind: string)
    requires Num(2024) in s.columns && Str("2024") !in s.columns
    ensures AddColumn(s, "2024", kind).Ok?
    ensures Num(2024) in AddColumn(s, "2024", kind).value.columns
    ensures Str("2024") in AddColumn(s, "2024", kind).value.columns
  {
    assert !IsSpace("2024"[0]);
  }
}

=== FILE: dates.dfy ===
/** The application's date layer: `parseDate` and `formatDate` used by the
    spreadsheet ingestion, the edit-form converters `parseLocal`,
    `formatDateManual` and `toInputDate`, and the Airtable display
    formatter.  Dates are day numbers; a Date object that holds NaN is
    `BadDate`. */
module Dates {
  import opened Results
  import opened Text
  import opened Calendar
  import opened Values

  /** `null`, an Invalid Date, or a valid Date at local midnight. */
  datatype DateVal = NoDate | BadDate | OnDay(day: Day)

  /** The Date object (or null) as a JavaScript value. */
  function AsValue(d: DateVal): Value {
    match d
    case NoDate => Undefined
    case BadDate => InvalidDate
    case OnDay(n) => DateObj(n)
  }

  /** `new Date(y, m0, d)`: a time value outside the representable range
      makes an Invalid Date. */
  function NewDate(y: int, m0: int, d: int): (r: DateVal)
    ensures r != NoDate
    ensures r.OnDay? ==> r.day == MakeDate(y, m0, d)
  {
    var n := MakeDate(y, m0, d);
    if InDateRange(n) then OnDay(n) else BadDate
  }

  // ---------------------------------------------------------------------
  // The pattern ^(\d{1,2})[\/\-\.](\d{1,2})[\/\-\.](\d{4})

  predicate IsSep(c: char) {
    c == '/' || c == '-' || c == '.'
  }

  /** Length of the run of digits at the start of `s`. */
  function DigitRun(s: string): (n: nat)
    ensures n <= |s| && AllDigits(s[..n])
    ensures n < |s| ==> !IsDigit(s[n])
  {
    if s != [] && IsDigit(s[0]) then
      var k := DigitRun(s[1..]);
      assert s[..k + 1] == [s[0]] + s[1..][..k];
      1 + k
    else 0
  }

  lemma DigitRunUnique(s: string, k: nat)
    requires k < |s| && AllDigits(s[..k]) && !IsDigit(s[k])
    ensures DigitRun(s) == k
  {
  }

  datatype Dmy = Dmy(day: int, month: int, year: int)

  /** The shape the pattern accepts: `a` and `b` digits, a separator,
      and four digits, at the start of `t`; anything may follow. */
  predicate DmyShape(t: string, a: int, b: int) {
    1 <= a <= 2 && 1 <= b <= 2 && a + b + 6 <= |t|
    && AllDigits(t[..a]) && IsSep(t[a])
    && AllDigits(t[a + 1..a + 1 + b]) && IsSep(t[a + 1 + b])
    && AllDigits(t[a + b + 2..a + b + 6])
  }

  function DmyOfShape(t: string, a: int, b: int): Dmy
    requires DmyShape(t, a, b)
  {
    Dmy(DecimalValue(t[..a]), DecimalValue(t[a + 1..a + 1 + b]), DecimalValue(t[a + b + 2..a + b + 6]))
  }

  /** The match of the pattern on `t`, read as day, month, year: each
      `\d{1,2}` takes the whole run of digits in front of a separator. */
  function MatchDmy(t: string): Option<Dmy> {
    var a := DigitRun(t);
    if 1 <= a <= 2 && a < |t| && IsSep(t[a]) then
      var b := DigitRun(t[a + 1..]);
      assert t[a + 1..][..b] == t[a + 1..a + 1 + b];
      if 1 <= b <= 2 && a + b + 6 <= |t| && IsSep(t[a + 1 + b]) && AllDigits(t[a + b + 2..a + b + 6]) then
        Some(DmyOfShape(t, a, b))
      else None
    else None
  }

  /** The digit-run reading agrees with the regular expression: it matches
      exactly when some split of `t` has the pattern's shape, and the
      groups it returns are that split's (there is only one). */
  lemma MatchDmySpec(t: string)
    ensures MatchDmy(t).Some? <==> exists a, b :: DmyShape(t, a, b)
    ensures forall a, b :: DmyShape(t, a, b) ==> MatchDmy(t) == Some(DmyOfShape(t, a, b))
  {
    forall a, b | DmyShape(t, a, b) ensures MatchDmy(t) == Some(DmyOfShape(t, a, b)) {
      ShapeFound(t, a, b);
    }
    var a := DigitRun(t);
    if MatchDmy(t).Some? {
      var b := DigitRun(t[a + 1..]);
      assert t[a + 1..][..b] == t[a + 1..a + 1 + b];
      assert DmyShape(t, a, b);
    }
  }

  lemma ShapeFound(t: string, a: int, b: int)
    requires DmyShape(t, a, b)
    ensures DigitRun(t) == a && DigitRun(t[a + 1..]) == b
    ensures MatchDmy(t) == Some(DmyOfShape(t, a, b))
  {
    DigitRunUnique(t, a);
    var u := t[a + 1..];
    assert u[..b] == t[a + 1..a + 1 + b];
    DigitRunUnique(u, b);
  }

  /** A string built from the three groups is matched with those groups. */
  lemma MatchDmyOf(t: string, d: string, s1: char, m: string, s2: char, y: string, rest: string)
    requires 1 <= |d| <= 2 && 1 <= |m| <= 2 && |y| == 4
    requires AllDigits(d) && AllDigits(m) && AllDigits(y) && IsSep(s1) && IsSep(s2)
    requires t == d + [s1] + m + [s2] + y + rest
    ensures MatchDmy(t) == Some(Dmy(DecimalValue(d), DecimalValue(m), DecimalValue(y)))
  {
    ShapeOf(t, d, s1, m, s2, y, rest);
    ShapeFound(t, |d|, |m|);
  }

  lemma ShapeOf(t: string, d: string, s1: char, m: string, s2: char, y: string, rest: string)
    requires 1 <= |d| <= 2 && 1 <= |m| <= 2 && |y| == 4
    requires AllDigits(d) && AllDigits(m) && AllDigits(y) && IsSep(s1) && IsSep(s2)
    requires t == d + [s1] + m + [s2] + y + rest
    ensures DmyShape(t, |d|, |m|)
    ensures DmyOfShape(t, |d|, |m|) == Dmy(DecimalValue(d), DecimalValue(m), DecimalValue(y))
  {
    var a := |d|;
    var b := |m|;
    assert t[..a] == d;
    assert t[a] == s1;
    assert t[a + 1..a + 1 + b] == m;
    assert t[a + 1 + b] == s2;
    assert t[a + b + 2..a + b + 6] == y;
  }

  // ---------------------------------------------------------------------
  // parseDate

  /** The spreadsheet epoch, 30 December 1899 (`new Date(1899, 11, 30)`). */
  function SerialEpoch(): Day {
    MakeDate(1899, 11, 30)
  }

  /** The text branch of `parseDate` on the trimmed text: a leading
      d/m/yyyy is given to `new Date(year, month - 1, day)`, otherwise the
      engine's own parse decides. */
  function ParseText(env: Env, clean: string): (r: DateVal)
    ensures r == BadDate ==> MatchDmy(clean).Some?
  {
    match MatchDmy(clean)
    case Some(g) => NewDate(g.year, g.month - 1, g.day)
    case None =>
      (match env.parseText(clean)
       case Some(n) => OnDay(n)
       case None => NoDate)
  }

  /** `parseDate(val)`:
      - falsy values (including 0 and "") give null;
      - a Date object is kept when valid, null when invalid;
      - a number n is the day n days after 30 December 1899, an Invalid
        Date when that is outside the Date range;
      - text is trimmed and read by `ParseText`;
      - anything else gives null. */
  function ParseDate(env: Env, v: Value): (r: DateVal)
    ensures !Truthy(v) ==> r == NoDate
    ensures v.DateObj? ==> r == OnDay(v.day)
    ensures v.Num? && v.n != 0 ==> (r.OnDay? <==> InDateRange(SerialEpoch() + v.n))
    ensures v.Num? && v.n != 0 && InDateRange(SerialEpoch() + v.n) ==> r == OnDay(SerialEpoch() + v.n)
    ensures r == BadDate ==> (v.Num? && !InDateRange(SerialEpoch() + v.n))
                             || (v.Str? && MatchDmy(Trim(v.s)).Some?)
    ensures v.Bool? || v.Obj? || v.InvalidDate? ==> r == NoDate
  {
    if !Truthy(v) then NoDate
    else match v
      case DateObj(n) => OnDay(n)
      case Num(n) =>
        var day := SerialEpoch() + n;
        if InDateRange(day) then OnDay(day) else BadDate
      case Str(s) => ParseText(env, Trim(s))
      case _ => NoDate
  }

  // ---------------------------------------------------------------------
  // Formatting

  /** Day of month or month, `String(k).padStart(2, '0')`. */
  function Two(k: int): string {
    PadStart2(IntToString(k))
  }

  /** `DD/MM/YYYY` of a valid date. */
  function FormatDay(n: Day): string {
    var c := CivilFromDays(n);
    Two(c.day) + "/" + Two(c.month) + "/" + IntToString(c.year)
  }

  /** `formatDateManual(date)`: null gives "-", an Invalid Date prints its
      NaN fields. */
  function FormatDateManual(d: DateVal): (r: string)
    ensures d == NoDate <==> r == "-"
  {
    match d
    case NoDate => "-"
    case BadDate => "NaN/NaN/NaN"
    case OnDay(n) => FormatDay(n)
  }

  /** `formatDate(val)`: parse, then print as DD/MM/YYYY. */
  function FormatDate(env: Env, v: Value): (r: string)
    ensures ParseDate(env, v) == NoDate <==> r == "-"
  {
    FormatDateManual(ParseDate(env, v))
  }

  /** The Airtable mapper's `formatDateDisplay`: month first. */
  function FormatDateUs(d: DateVal): (r: string)
    ensures d == NoDate <==> r == "-"
  {
    match d
    case NoDate => "-"
    case BadDate => "NaN/NaN/NaN"
    case OnDay(n) =>
      var c := CivilFromDays(n);
      Two(c.month) + "/" + Two(c.day) + "/" + IntToString(c.year)
  }

  // ---------------------------------------------------------------------
  // Properties of parseDate and formatDate

  /** A numeric cell counts days from 30 December 1899.  Serial 45667 is
      10 January 2025 (not 1 November 2025). */
  lemma SerialDates()
    ensures SerialEpoch() + 25569 == DaysFromCivil(1970, 1, 1) == 0
    ensures SerialEpoch() + 45667 == DaysFromCivil(2025, 1, 10)
    ensures SerialEpoch() + 45667 != DaysFromCivil(2025, 11, 1)
    ensures forall env: Env :: ParseDate(env, Num(45667)) == OnDay(DaysFromCivil(2025, 1, 10))
  {
    SerialEpochValue();
    KnownDays();
    assert forall env: Env :: ParseDate(env, Num(45667)) == OnDay(SerialEpoch() + 45667);
  }

  lemma SerialEpochValue()
    ensures SerialEpoch() == -25569
  {
    assert ConstructorYear(1899) == 1899 && 11 / 12 == 0 && 11 % 12 == 11;
    assert 1899 / 400 == 4 && 1899 % 400 == 299;
    assert DaysBeforeYoe(299) == 109207;
    assert DaysFromCivil(1899, 12, 1) == -25598;
  }

  lemma KnownDays()
    ensures DaysFromCivil(1970, 1, 1) == 0
    ensures DaysFromCivil(2025, 1, 10) == 20098
    ensures DaysFromCivil(2025, 11, 1) == 20393
  {
    assert 1969 / 400 == 4 && 1969 % 400 == 369 && DaysBeforeYoe(369) == 134774;
    assert 2024 / 400 == 5 && 2024 % 400 == 24 && DaysBeforeYoe(24) == 8766;
    assert 2025 / 400 == 5 && 2025 % 400 == 25 && DaysBeforeYoe(25) == 9131;
  }

  /** Falsy cells parse to null: the number 0 is not the epoch day. */
  lemma FalsyIsNull(env: Env)
    ensures ParseDate(env, Num(0)) == NoDate
    ensures ParseDate(env, Str("")) == NoDate
    ensures ParseDate(env, Undefined) == NoDate
    ensures FormatDate(env, Num(0)) == "-"
  {
  }

  lemma Digits2(k: int)
    requires 0 <= k < 100
    ensures |Two(k)| == 2 && AllDigits(Two(k)) && DecimalValue(Two(k)) == k
  {
    PadStart2Value(k);
  }

  lemma Digits4(y: int)
    requires 1000 <= y <= 9999
    ensures |IntToString(y)| == 4 && AllDigits(IntToString(y)) && DecimalValue(IntToString(y)) == y
  {
    NatToStringLength(y);
  }

  /** Trimming keeps a prefix that neither starts nor ends with
      whitespace. */
  lemma TrimKeepsPrefix(p: string, rest: string)
    requires p != [] && !IsSpace(p[0]) && !IsSpace(p[|p| - 1])
    ensures |p| <= |Trim(p + rest)| && Trim(p + rest)[..|p|] == p
  {
    var s := p + rest;
    assert s[0] == p[0] && s[|p| - 1] == p[|p| - 1] && s[..|p|] == p;
    TrimKeepsUpTo(s, |p| - 1);
  }

  /** Every character of an all-whitespace suffix is whitespace. */
  lemma SpaceAfter(s: string, k: int, j: int)
    requires 0 <= k <= j < |s| && AllSpace(s[k..])
    ensures IsSpace(s[j])
  {
    assert s[k..][j - k] == s[j];
  }

  /** The values of short digit strings. */
  lemma Decimal2(s: string)
    requires |s| == 2 && AllDigits(s)
    ensures DecimalValue(s) == 10 * (s[0] as int - '0' as int) + (s[1] as int - '0' as int)
  {
    var h := s[..1];
    assert h[..0] == [] && h[0] == s[0];
    assert DecimalValue(h) == 10 * DecimalValue(h[..0]) + (h[0] as int - '0' as int);
    assert s[..|s| - 1] == h;
  }

  lemma Decimal4(s: string)
    requires |s| == 4 && AllDigits(s)
    ensures DecimalValue(s) == 1000 * (s[0] as int - '0' as int) + 100 * (s[1] as int - '0' as int)
                               + 10 * (s[2] as int - '0' as int) + (s[3] as int - '0' as int)
  {
    Decimal2(s[..2]);
    assert s[..3][..2] == s[..2];
  }

  /** Text whose trim matches the pattern is given to `new Date`. */
  lemma ParseGroups(env: Env, s: string, g: Dmy)
    requires s != "" && MatchDmy(Trim(s)) == Some(g)
    ensures ParseDate(env, Str(s)) == NewDate(g.year, g.month - 1, g.day)
  {
    ParseDateOfText(env, s);
    ParseTextGroups(env, Trim(s), g);
  }

  lemma ParseDateOfText(env: Env, s: string)
    requires s != ""
    ensures ParseDate(env, Str(s)) == ParseText(env, Trim(s))
  {
  }

  lemma ParseTextGroups(env: Env, t: string, g: Dmy)
    requires MatchDmy(t) == Some(g)
    ensures ParseText(env, t) == NewDate(g.year, g.month - 1, g.day)
  {
  }

  /** `new Date(y, m - 1, d)` for a month in range is the calendar day
      (after the two-digit-year rule); days past the month's end run on. */
  lemma MakeDateLiteral(y: int, m: int, d: int)
    requires 1 <= m <= 12
    ensures MakeDate(y, m - 1, d) == DaysFromCivil(ConstructorYear(y), m, d)
  {
    assert (m - 1) / 12 == 0 && (m - 1) % 12 == m - 1;
  }

  /** Dates of years 100 to 9999 are far inside the Date range. */
  lemma DayBound(y: int, m: int, d: int)
    requires 100 <= y <= 9999 && 1 <= m <= 12 && 0 <= d < 100
    ensures InDateRange(DaysFromCivil(y, m, d))
  {
  }

  /** `new Date(y, m - 1, d)` of a year up to 9999 is a valid Date on that
      calendar day. */
  lemma DayOfFields(y: int, m: int, d: int)
    requires 0 <= y <= 9999 && 1 <= m <= 12 && 0 <= d < 100
    ensures NewDate(y, m - 1, d) == OnDay(DaysFromCivil(ConstructorYear(y), m, d))
  {
    MakeDateLiteral(y, m, d);
    DayBound(ConstructorYear(y), m, d);
  }

  /** The pattern finds the three fields of `D/M/YYYY` (one or two digits
      for day and month, any separators, anything after, surrounding
      whitespace trimmed). */
  lemma GroupsOfFields(ds: string, s1: char, ms: string, s2: char, ys: string, rest: string)
    requires 1 <= |ds| <= 2 && 1 <= |ms| <= 2 && |ys| == 4
    requires AllDigits(ds) && AllDigits(ms) && AllDigits(ys) && IsSep(s1) && IsSep(s2)
    ensures MatchDmy(Trim(ds + [s1] + ms + [s2] + ys + rest))
            == Some(Dmy(DecimalValue(ds), DecimalValue(ms), DecimalValue(ys)))
  {
    var p := ds + [s1] + ms + [s2] + ys;
    assert p[0] == ds[0] && p[|p| - 1] == ys[3];
    TrimKeepsPrefix(p, rest);
    var t := Trim(p + rest);
    PrefixThenRest(t, p);
    MatchDmyOf(t, ds, s1, ms, s2, ys, t[|p|..]);
  }

  /** A sequence that starts with `p` is `p` followed by the rest. */
  lemma PrefixThenRest(t: string, p: string)
    requires |p| <= |t| && t[..|p|] == p
    ensures t == p + t[|p|..]
  {
    assert t == t[..|p|] + t[|p|..];
  }

  /** Numerals of up to two and up to four digits. */
  lemma {:induction false} DecimalBelow(s: string)
    requires AllDigits(s)
    ensures |s| <= 1 ==> DecimalValue(s) < 10
    ensures |s| <= 2 ==> DecimalValue(s) < 100
    ensures |s| <= 3 ==> DecimalValue(s) < 1000
    ensures |s| <= 4 ==> DecimalValue(s) < 10000
  {
    if |s| > 0 {
      DecimalBelow(s[..|s| - 1]);
    }
  }

  /** What the pattern branch of `parseDate` means: the text `D/M/YYYY`
      (any separators, anything after) with a month from 1 to 12 is the
      calendar day D of month M of year YYYY, a year below 100 being read
      as 19YY and a day past the month's end running on into the
      following month.  A fifth year digit, or any other trailing text, is
      ignored. */
  lemma ParseDmyText(env: Env, ds: string, s1: char, ms: string, s2: char, ys: string, rest: string)
    requires 1 <= |ds| <= 2 && 1 <= |ms| <= 2 && |ys| == 4
    requires AllDigits(ds) && AllDigits(ms) && AllDigits(ys) && IsSep(s1) && IsSep(s2)
    requires 1 <= DecimalValue(ms) <= 12
    ensures ParseDate(env, Str(ds + [s1] + ms + [s2] + ys + rest))
            == OnDay(DaysFromCivil(ConstructorYear(DecimalValue(ys)), DecimalValue(ms), DecimalValue(ds)))
  {
    var text := ds + [s1] + ms + [s2] + ys + rest;
    GroupsOfFields(ds, s1, ms, s2, ys, rest);
    assert text != [] by { assert |text| >= 1; }
    DecimalBelow(ds);
    DecimalBelow(ys);
    ParseFields(env, text, DecimalValue(ds), DecimalValue(ms), DecimalValue(ys));
  }

  /** Text the pattern reads as an in-range day, month and year is that
      calendar day. */
  lemma ParseFields(env: Env, text: string, d: int, m: int, y: int)
    requires text != [] && MatchDmy(Trim(text)) == Some(Dmy(d, m, y))
    requires 0 <= y <= 9999 && 1 <= m <= 12 && 0 <= d < 100
    ensures ParseDate(env, Str(text)) == OnDay(DaysFromCivil(ConstructorYear(y), m, d))
  {
    ParseGroups(env, text, Dmy(d, m, y));
    DayOfFields(y, m, d);
  }

  /** A day past the end of its month runs on into the next: 31/02/2024
      is read as 2 March 2024. */
  lemma DayOverflow(y: int, m: int, d: int)
    requires 1 <= m < 12 && d > DaysInMonth(y, m)
    ensures DaysFromCivil(y, m, d) == DaysFromCivil(y, m + 1, d - DaysInMonth(y, m))
    ensures DaysFromCivil(2024, 2, 31) == DaysFromCivil(2024, 3, 2)
  {
    MonthRollOver(y, m);
    MonthRollOver(2024, 2);
  }

  /** `DD/MM/YYYY` text of a day of a four-digit year, as `formatDate`
      writes it. */
  lemma ParseTwoDigitText(env: Env, y: int, m: int, d: int, s1: char, s2: char, rest: string)
    requires 1000 <= y <= 9999 && 1 <= m <= 12 && 0 <= d < 100 && IsSep(s1) && IsSep(s2)
    ensures ParseDate(env, Str(Two(d) + [s1] + Two(m) + [s2] + IntToString(y) + rest))
            == OnDay(DaysFromCivil(y, m, d))
  {
    Digits2(d);
    Digits2(m);
    Digits4(y);
    ParseDmyText(env, Two(d), s1, Two(m), s2, IntToString(y), rest);
  }

  /** Round trip: formatting a day with a four-digit year and parsing the
      text gives the same day, whatever text follows the date. */
  lemma FormatParseRoundTrip(env: Env, n: Day, rest: string)
    requires 1000 <= CivilFromDays(n).year <= 9999
    ensures ParseDate(env, Str(FormatDay(n) + rest)) == OnDay(n)
  {
    var c := CivilFromDays(n);
    ParseTwoDigitText(env, c.year, c.month, c.day, '/', '/', rest);
    assert FormatDay(n) + rest == Two(c.day) + ['/'] + Two(c.month) + ['/'] + IntToString(c.year) + rest;
  }

  /** Round trip the other way: the text of a valid date with a four-digit
      year is reproduced by parse-then-format. */
  lemma ParseFormatRoundTrip(env: Env, c: Civil)
    requires ValidCivil(c) && 1000 <= c.year <= 9999
    ensures FormatDate(env, Str(Two(c.day) + "/" + Two(c.month) + "/" + IntToString(c.year)))
            == Two(c.day) + "/" + Two(c.month) + "/" + IntToString(c.year)
  {
    ParseTwoDigitText(env, c.year, c.month, c.day, '/', '/', "");
    var t := Two(c.day) + "/" + Two(c.month) + "/" + IntToString(c.year);
    assert Two(c.day) + ['/'] + Two(c.month) + ['/'] + IntToString(c.year) + "" == t;
    CivilRoundTrip(c);
  }

  /** `formatDate(parseDate(v))`, as the assembler writes it for the start
      and deadline columns, agrees with `formatDate(v)` except that an
      Invalid Date from an out-of-range serial prints "-" instead of NaN. */
  lemma FormatOfParsed(env: Env, v: Value)
    ensures FormatDate(env, AsValue(ParseDate(env, v)))
            == (if ParseDate(env, v) == BadDate then "-" else FormatDate(env, v))
  {
  }

  // ---------------------------------------------------------------------
  // The edit-form converters

  /** `s.split(sep)`. */
  function Split(s: string, sep: char): (r: seq<string>)
    ensures |r| >= 1
    ensures forall i :: 0 <= i < |r| ==> sep !in r[i]
  {
    if s == [] then [[]]
    else
      var tail := Split(s[1..], sep);
      if s[0] == sep then [[]] + tail
      else [[s[0]] + tail[0]] + tail[1..]
  }

  lemma {:induction false} SplitNoSep(s: string, sep: char)
    requires sep !in s
    ensures Split(s, sep) == [s]
  {
    if s != [] {
      SplitNoSep(s[1..], sep);
      assert [s[0]] + s[1..] == s;
    }
  }

  lemma {:induction false} SplitAt(a: string, sep: char, rest: string)
    requires sep !in a
    ensures Split(a + [sep] + rest, sep) == [a] + Split(rest, sep)
  {
    if a == [] {
      assert ([] + [sep] + rest)[1..] == rest;
    } else {
      assert (a + [sep] + rest)[1..] == a[1..] + [sep] + rest;
      SplitAt(a[1..], sep, rest);
      assert [a[0]] + a[1..] == a;
    }
  }

  /** `Number(part)` on the parts of a date input's value: digit strings
      are read as decimals, the empty string is 0, anything else is NaN.
      `Number` also accepts surrounding whitespace, a sign, a fraction, an
      exponent and hexadecimal, octal and binary prefixes; the value of a
      date input is `yyyy-mm-dd` or empty, so its parts never hold them. */
  function ToNumber(s: string): Option<int> {
    if s == [] then Some(0)
    else if AllDigits(s) then Some(DecimalValue(s))
    else None
  }

  function Part(parts: seq<string>, i: nat): Option<int> {
    if i < |parts| then ToNumber(parts[i]) else None
  }

  /** `parseLocal(s)`: the form's YYYY-MM-DD split on '-' and given to
      `new Date(y, m - 1, d)`; a missing or non-numeric part gives an
      Invalid Date, the empty string gives null. */
  function ParseLocal(s: string): (r: DateVal)
    ensures s == "" <==> r == NoDate
  {
    if s == "" then NoDate
    else
      var parts := Split(s, '-');
      match (Part(parts, 0), Part(parts, 1), Part(parts, 2))
      case (Some(y), Some(m), Some(d)) => NewDate(y, m - 1, d)
      case _ => BadDate
  }

  /** `toInputDate(s)`: DD/MM/YYYY to YYYY-MM-DD for the form.  Fewer than
      two '/'-separated parts makes `month.padStart` throw; a missing year
      prints as "undefined". */
  function ToInputDate(s: string): (r: Outcome<string>)
    ensures s == "" || s == "-" ==> r == Ok("")
    ensures r.Error? <==> s != "" && s != "-" && '/' !in s
  {
    if s == "" || s == "-" then Ok("")
    else
      var parts := Split(s, '/');
      if |parts| < 2 then
        SplitParts(s);
        Error("TypeError: cannot read properties of undefined (reading 'padStart')")
      else
        SplitParts(s);
        var year := if |parts| >= 3 then parts[2] else "undefined";
        Ok(year + "-" + PadStart2(parts[1]) + "-" + PadStart2(parts[0]))
  }

  lemma {:induction false} SplitParts(s: string)
    ensures |Split(s, '/')| >= 2 <==> '/' in s
  {
    if s != [] {
      SplitParts(s[1..]);
    }
  }

  /** Three separator-free parts joined by the separator split back into
      the same three parts. */
  lemma SplitThree(x: string, y: string, z: string, sep: char)
    requires sep !in x && sep !in y && sep !in z
    ensures Split(x + [sep] + y + [sep] + z, sep) == [x, y, z]
  {
    assert x + [sep] + y + [sep] + z == x + [sep] + (y + [sep] + z);
    SplitAt(x, sep, y + [sep] + z);
    SplitAt(y, sep, z);
    SplitNoSep(z, sep);
  }

  lemma DigitsHaveNo(s: string, c: char)
    requires AllDigits(s) && !IsDigit(c)
    ensures c !in s
  {
  }

  /** `toInputDate` on `DD/MM/YYYY` gives `YYYY-MM-DD`. */
  lemma InputDateOfDmy(dd: string, mm: string, yyyy: string)
    requires |dd| == 2 && |mm| == 2 && AllDigits(dd) && AllDigits(mm) && AllDigits(yyyy)
    ensures ToInputDate(dd + "/" + mm + "/" + yyyy) == Ok(yyyy + "-" + mm + "-" + dd)
  {
    DigitsHaveNo(dd, '/');
    DigitsHaveNo(mm, '/');
    DigitsHaveNo(yyyy, '/');
    SplitThree(dd, mm, yyyy, '/');
  }

  /** `parseLocal` on `YYYY-MM-DD` with a four-digit year is
      `new Date(YYYY, MM - 1, DD)`. */
  lemma LocalOfIso(yyyy: string, mm: string, dd: string)
    requires |yyyy| == 4 && |mm| == 2 && |dd| == 2
    requires AllDigits(yyyy) && AllDigits(mm) && AllDigits(dd)
    ensures ParseLocal(yyyy + "-" + mm + "-" + dd)
            == NewDate(DecimalValue(yyyy), DecimalValue(mm) - 1, DecimalValue(dd))
  {
    var s := yyyy + "-" + mm + "-" + dd;
    IsoParts(yyyy, mm, dd);
    assert |s| == 10;
    ParseLocalOfParts(s, DecimalValue(yyyy), DecimalValue(mm), DecimalValue(dd));
  }

  /** The three parts of `YYYY-MM-DD` are its digit groups. */
  lemma IsoParts(yyyy: string, mm: string, dd: string)
    requires |yyyy| == 4 && |mm| == 2 && |dd| == 2
    requires AllDigits(yyyy) && AllDigits(mm) && AllDigits(dd)
    ensures var parts := Split(yyyy + "-" + mm + "-" + dd, '-');
            Part(parts, 0) == Some(DecimalValue(yyyy)) && Part(parts, 1) == Some(DecimalValue(mm))
            && Part(parts, 2) == Some(DecimalValue(dd))
  {
    DigitsHaveNo(dd, '-');
    DigitsHaveNo(mm, '-');
    DigitsHaveNo(yyyy, '-');
    SplitThree(yyyy, mm, dd, '-');
    PartsOfDigits([yyyy, mm, dd]);
  }

  /** Three digit strings are read as their decimal values. */
  lemma PartsOfDigits(parts: seq<string>)
    requires |parts| == 3 && forall i :: 0 <= i < 3 ==> parts[i] != [] && AllDigits(parts[i])
    ensures Part(parts, 0) == Some(DecimalValue(parts[0]))
    ensures Part(parts, 1) == Some(DecimalValue(parts[1]))
    ensures Part(parts, 2) == Some(DecimalValue(parts[2]))
  {
  }

  /** `parseLocal` on text whose three '-'-separated parts are numbers. */
  lemma ParseLocalOfParts(s: string, y: int, m: int, d: int)
    requires s != ""
    requires Part(Split(s, '-'), 0) == Some(y) && Part(Split(s, '-'), 1) == Some(m)
    requires Part(Split(s, '-'), 2) == Some(d)
    ensures ParseLocal(s) == NewDate(y, m - 1, d)
  {
  }

  /** The text of a day with a four-digit year, taken through the edit
      form (`toInputDate` then `parseLocal`), is the same day again. */
  lemma EditRoundTrip(n: Day)
    requires 1000 <= CivilFromDays(n).year <= 9999
    ensures ToInputDate(FormatDay(n)).Ok?
    ensures ParseLocal(ToInputDate(FormatDay(n)).value) == OnDay(n)
  {
    var c := CivilFromDays(n);
    Digits2(c.day);
    Digits2(c.month);
    Digits4(c.year);
    InputDateOfDmy(Two(c.day), Two(c.month), IntToString(c.year));
    LocalOfIso(IntToString(c.year), Two(c.month), Two(c.day));
    DayOfFields(c.year, c.month, c.day);
  }

  /** The Airtable display writes MM/DD/YYYY, but `parseDate` reads
      DD/MM: a date whose day of month is at most 12 and differs from its
      month comes back as another date, with the two fields swapped. */
  lemma UsDatesAreReadSwapped(env: Env, n: Day)
    requires 1000 <= CivilFromDays(n).year <= 9999
    requires CivilFromDays(n).day <= 12 && CivilFromDays(n).day != CivilFromDays(n).month
    ensures ParseDate(env, Str(FormatDateUs(OnDay(n))))
            == OnDay(DaysFromCivil(CivilFromDays(n).year, CivilFromDays(n).day, CivilFromDays(n).month))
    ensures ParseDate(env, Str(FormatDateUs(OnDay(n)))) != OnDay(n)
  {
    var c := CivilFromDays(n);
    UsText(n);
    ParseTwoDigitText(env, c.year, c.day, c.month, '/', '/', "");
    SwapMoves(c);
  }

  lemma UsText(n: Day)
    ensures FormatDateUs(OnDay(n))
            == Two(CivilFromDays(n).month) + ['/'] + Two(CivilFromDays(n).day) + ['/'] + IntToString(CivilFromDays(n).year) + ""
  {
  }

  /** Exchanging day and month of a valid date moves it, when the day is
      a possible month and differs from the month. */
  lemma SwapMoves(c: Civil)
    requires ValidCivil(c) && c.day <= 12 && c.day != c.month
    ensures DaysFromCivil(c.year, c.day, c.month) != DaysFromCivil(c.year, c.month, c.day)
  {
    var swapped := Civil(c.year, c.day, c.month);
    assert ValidCivil(swapped);
    if DaysFromCivil(c.year, c.day, c.month) == DaysFromCivil(c.year, c.month, c.day) {
      DaysFromCivilInjective(c, swapped);
    }
  }

  /** The edit form has the same swap: the US text becomes an ISO date
      with day and month exchanged. */
  lemma UsDatesAreEditedSwapped(n: Day)
    requires 1000 <= CivilFromDays(n).year <= 9999
    requires CivilFromDays(n).day <= 12
    ensures ParseLocal(ToInputDate(FormatDateUs(OnDay(n))).value)
            == OnDay(DaysFromCivil(CivilFromDays(n).year, CivilFromDays(n).day, CivilFromDays(n).month))
  {
    var c := CivilFromDays(n);
    Digits2(c.day);
    Digits2(c.month);
    Digits4(c.year);
    InputDateOfDmy(Two(c.month), Two(c.day), IntToString(c.year));
    LocalOfIso(IntToString(c.year), Two(c.day), Two(c.month));
    DayOfFields(c.year, c.day, c.month);
  }
}

=== FILE: export.dfy ===
/** The "Export" dialog: which tasks are written, the columns of each
    written row, and the file name. */
module Export {
  import opened Results
  import opened Text
  import opened Values
  import opened Tasks
  import opened Seqs

  /** `exportFilters.scope`: the table's current rows, or every task
      (any scope other than "filtered"). */
  datatype Scope = FilteredRows | AllTasks

  /** The dialog's choices; `format` is "csv", "xlsx" or "numbers". */
  datatype Options = Options(scope: Scope, taskName: string, delayedOnly: bool, format: string)

  predicate HasName(t: Task, name: string) {
    t.name == Str(name)
  }

  /** The tasks to write: the table's rows as shown, or all tasks narrowed
      by the task-name choice and then by the delayed-only box. */
  function Selection(o: Options, tasks: seq<Task>, shown: seq<Task>): (r: seq<Task>)
    ensures o.scope == FilteredRows ==> r == shown
    ensures o.scope == AllTasks ==>
              |r| <= |tasks|
              && forall t :: t in r <==> t in tasks && (o.taskName == "all" || HasName(t, o.taskName))
                                         && (!o.delayedOnly || t.isDelayed)
  {
    if o.scope == FilteredRows then shown
    else
      var byName := if o.taskName != "all" then Filter(tasks, (t: Task) => HasName(t, o.taskName)) else tasks;
      if o.delayedOnly then Filter(byName, (t: Task) => t.isDelayed) else byName
  }

  /** What the all-tasks export writes, as one filter over the task list. */
  predicate Wanted(o: Options, t: Task) {
    (o.taskName == "all" || HasName(t, o.taskName)) && (!o.delayedOnly || t.isDelayed)
  }

  /** The two narrowing steps keep exactly the wanted tasks, in task-list
      order. */
  lemma SelectionIsOneFilter(o: Options, tasks: seq<Task>, shown: seq<Task>)
    requires o.scope == AllTasks
    ensures Selection(o, tasks, shown) == Filter(tasks, (t: Task) => Wanted(o, t))
  {
    var byName := if o.taskName != "all" then Filter(tasks, (t: Task) => HasName(t, o.taskName)) else tasks;
    assert forall i :: 0 <= i < |tasks| ==> (Wanted(o, tasks[i]) <==> (o.taskName == "all" || HasName(tasks[i], o.taskName)) && (!o.delayedOnly || tasks[i].isDelayed));
    if o.taskName != "all" {
      if o.delayedOnly {
        FilterFilter(tasks, (t: Task) => HasName(t, o.taskName), (t: Task) => t.isDelayed, (t: Task) => Wanted(o, t));
      } else {
        FilterSame(tasks, (t: Task) => HasName(t, o.taskName), (t: Task) => Wanted(o, t));
      }
    } else {
      if o.delayedOnly {
        FilterSame(tasks, (t: Task) => t.isDelayed, (t: Task) => Wanted(o, t));
      } else {
        FilterAll(tasks, (t: Task) => Wanted(o, t));
      }
    }
  }

  /** One written row, column by column. The columns read the task's
      properties by name: "description", "assignee", "startDate", "delay"
      and "runningDays" exist only when a sheet header has that exact
      name. */
  datatype Row = Row(taskName: Value, description: Value, assignee: Value, status: Value,
                     startDate: Value, deadline: Value, delayDays: Value, runningDays: Value)

  function RowOf(t: Task): (r: Row)
    ensures r.taskName == t.name && r.status == t.status && r.deadline == Str(t.deadline)
    ensures !t.isDelayed ==> r.delayDays == Str("-")
  {
    Row(Get(t, "name"), OrElse(Get(t, "description"), Str("-")), Get(t, "assignee"), Get(t, "status"),
        Get(t, "startDate"), Get(t, "deadline"),
        if t.isDelayed then Get(t, "delay") else Str("-"),
        OrElse(Get(t, "runningDays"), Str("-")))
  }

  /** The key "delay" is not one of the fixed task fields. */
  lemma DelayIsNotFixed(key: string)
    requires key == "delay"
    ensures key !in FixedKeys && key != "id" && key !in InheritedKeys
  {
    assert key[0] == 'd' && key[1] == 'e' && key[2] == 'l';
    assert forall k :: 0 <= k < |FixedKeys| ==> |FixedKeys[k]| < 3 || FixedKeys[k][..3] != "del";
    assert forall k :: k in InheritedKeys ==> k[0] != 'd';
  }

  /** The delay a delayed task carries is kept in its internal record,
      which the export does not read: without a sheet column named
      "delay" its "Delay (Days)" cell is `undefined`. */
  lemma DelayedRowHasNoCount(t: Task, key: string)
    requires key == "delay" && t.isDelayed && key !in t.cells
    ensures RowOf(t).delayDays == Undefined
  {
    DelayIsNotFixed(key);
  }

  /** Nothing to write is refused with an alert; otherwise each selected
      task gives one row, in order. */
  function ExportRows(o: Options, tasks: seq<Task>, shown: seq<Task>): (r: Outcome<seq<Row>>)
    ensures r.Error? <==> Selection(o, tasks, shown) == []
    ensures r.Error? ==> r.message == "No tasks to export with the selected options"
    ensures r.Ok? ==> |r.value| == |Selection(o, tasks, shown)|
                      && forall i :: 0 <= i < |r.value| ==> r.value[i] == RowOf(Selection(o, tasks, shown)[i])
  {
    var sel := Selection(o, tasks, shown);
    if sel == [] then Error("No tasks to export with the selected options")
    else Ok(seq(|sel|, i requires 0 <= i < |sel| => RowOf(sel[i])))
  }

  // ---------------------------------------------------------------------
  // File name

  predicate NoSpace(s: string) {
    forall i :: 0 <= i < |s| ==> !IsSpace(s[i])
  }

  /** `s.replace(/\s+/g, '_')`: each run of whitespace becomes one "_". */
  function ReplaceSpaces(s: string): (r: string)
    ensures NoSpace(r)
    ensures |r| <= |s|
    ensures NoSpace(s) ==> r == s
    decreases |s|
  {
    if s == [] then []
    else if IsSpace(s[0]) then
      var rest := TrimStart(s);
      ['_'] + ReplaceSpaces(rest)
    else
      var tail := ReplaceSpaces(s[1..]);
      assert NoSpace(s) ==> NoSpace(s[1..]);
      [s[0]] + tail
  }

  /** Replacing again changes nothing. */
  lemma ReplaceSpacesIdempotent(s: string)
    ensures ReplaceSpaces(ReplaceSpaces(s)) == ReplaceSpaces(s)
  {
  }

  /** The file's extension: ".csv" for CSV, ".xlsx" for Excel and
      Numbers. */
  function Extension(format: string): (e: string)
    ensures e == ".csv" <==> format == "csv"
  {
    if format == "csv" then ".csv" else ".xlsx"
  }

  const DefaultStem: string := "tasks_export"
  const FilteredTag: string := "_filtered"
  const DelayedTag: string := "_delayed"

  /** The name before the extension; `day` is the ISO date of the export
      (`new Date().toISOString().split('T')[0]`). */
  function BaseName(o: Options, day: string): string {
    var base := DefaultStem + "_" + day;
    if o.scope == FilteredRows then base + FilteredTag
    else
      (if o.taskName != "all" then ReplaceSpaces(o.taskName) + "_" + day else base)
      + (if o.delayedOnly then DelayedTag else "")
  }

  function FileName(o: Options, day: string): (r: string)
    ensures |r| > |Extension(o.format)| && r[|r| - |Extension(o.format)|..] == Extension(o.format)
  {
    var b := BaseName(o, day);
    var e := Extension(o.format);
    assert (b + e)[|b|..] == e;
    b + e
  }

  lemma NoSpaceConcat(a: string, b: string)
    requires NoSpace(a) && NoSpace(b)
    ensures NoSpace(a + b)
  {
    assert forall i :: |a| <= i < |a + b| ==> (a + b)[i] == b[i - |a|];
  }

  /** Letters, digits, dots and underscores are not whitespace. */
  predicate Plain(s: string) {
    forall i :: 0 <= i < |s| ==> ('a' <= s[i] <= 'z') || ('0' <= s[i] <= '9') || s[i] == '_' || s[i] == '.'
  }

  lemma PlainHasNoSpace(s: string)
    requires Plain(s)
    ensures NoSpace(s)
  {
  }

  lemma FixedPartsHaveNoSpace()
    ensures NoSpace(DefaultStem) && NoSpace("_") && NoSpace(FilteredTag) && NoSpace(DelayedTag)
    ensures NoSpace(".csv") && NoSpace(".xlsx")
  {
    PlainHasNoSpace(DefaultStem);
    PlainHasNoSpace(FilteredTag);
    PlainHasNoSpace(DelayedTag);
    PlainHasNoSpace(".csv");
    PlainHasNoSpace(".xlsx");
  }

  /** With a whitespace-free date, the file name has no whitespace
      whatever the task name. */
  lemma FileNameHasNoSpace(o: Options, day: string)
    requires NoSpace(day)
    ensures NoSpace(FileName(o, day))
  {
    FixedPartsHaveNoSpace();
    var stem := if o.scope == AllTasks && o.taskName != "all" then ReplaceSpaces(o.taskName) else DefaultStem;
    NoSpaceConcat(stem, "_");
    NoSpaceConcat(stem + "_", day);
    var tag := if o.scope == FilteredRows then FilteredTag else if o.delayedOnly then DelayedTag else "";
    NoSpaceConcat(stem + "_" + day, tag);
    assert BaseName(o, day) == stem + "_" + day + tag;
    NoSpaceConcat(BaseName(o, day), Extension(o.format));
  }

  /** Ticking "delayed only" on an all-tasks export always changes the
      name, so the two files never overwrite each other. */
  lemma DelayedNameDiffers(o: Options, day: string)
    requires o.scope == AllTasks
    ensures FileName(o.(delayedOnly := true), day) != FileName(o.(delayedOnly := false), day)
  {
    assert |FileName(o.(delayedOnly := true), day)| == |FileName(o.(delayedOnly := false), day)| + 8;
  }

  /** A task named like the default stem with a space for its "_" (such
      as "tasks export") gets the same file name as the export of every
      task: the name replaces the "tasks_export" stem and its space
      becomes an underscore. */
  lemma TaskNamedLikeDefaultCollides(o: Options, day: string, a: string, b: string)
    requires o.scope == AllTasks && !o.delayedOnly
    requires NoSpace(a) && NoSpace(b) && b != [] && a + "_" + b == DefaultStem
    ensures FileName(o.(taskName := a + " " + b), day) == FileName(o.(taskName := "all"), day)
  {
    ReplaceSpacesSplit(a, b);
    assert |a + " " + b| != 3;
  }

  /** The whole replacement, one run at a time: a whitespace-free
      prefix is kept, the maximal whitespace run after it becomes a
      single "_", and the rest is replaced in turn. */
  lemma ReplaceSpacesRun(a: string, w: string, b: string)
    requires NoSpace(a) && w != [] && AllSpace(w) && (b == [] || !IsSpace(b[0]))
    ensures ReplaceSpaces(a + w + b) == a + "_" + ReplaceSpaces(b)
  {
    ConcatAssoc(a, w, b);
    ReplaceKeepsPrefix(a, w + b);
    ReplaceLeadingRun(w, b);
    ConcatAssoc(a, "_", ReplaceSpaces(b));
  }

  /** A whitespace-free prefix is kept as it is. */
  lemma {:induction false} ReplaceKeepsPrefix(a: string, t: string)
    requires NoSpace(a)
    ensures ReplaceSpaces(a + t) == a + ReplaceSpaces(t)
  {
    if a != [] {
      ConsSplit(a, t);
      ReplaceKeepsHead(a[0], a[1..] + t);
      ReplaceKeepsPrefix(a[1..], t);
      ConsSplit(a, ReplaceSpaces(t));
    } else {
      assert a + t == t;
    }
  }

  lemma ConcatAssoc(a: string, b: string, c: string)
    ensures a + b + c == a + (b + c)
  {
  }

  lemma ConsSplit(a: string, x: string)
    requires a != []
    ensures [a[0]] + (a[1..] + x) == a + x
  {
  }

  /** A character that is not whitespace is kept as it is. */
  lemma ReplaceKeepsHead(c: char, t: string)
    requires !IsSpace(c)
    ensures ReplaceSpaces([c] + t) == [c] + ReplaceSpaces(t)
  {
    assert ([c] + t)[1..] == t;
  }

  /** A leading whitespace run becomes a single "_". */
  lemma ReplaceLeadingRun(w: string, b: string)
    requires w != [] && AllSpace(w) && (b == [] || !IsSpace(b[0]))
    ensures ReplaceSpaces(w + b) == "_" + ReplaceSpaces(b)
  {
    assert (w + b)[0] == w[0];
    TrimStartRun(w, b);
  }

  /** Whitespace-free text around one space becomes text around "_". */
  lemma ReplaceSpacesSplit(a: string, b: string)
    requires NoSpace(a) && NoSpace(b) && b != []
    ensures ReplaceSpaces(a + " " + b) == a + "_" + b
  {
    ReplaceSpacesRun(a, " ", b);
  }
}

=== FILE: metrics.dfy ===
/** `calculateTimeMetrics`: the badge shown in the "Delay / running days"
    cell.  Dates are day numbers at local midnight; `today` is the
    current day. */
module Metrics {
  import opened Text
  import opened Values
  import opened Dates
  import opened Status
  import opened Calendar

  /** The cell's CSS class. */
  datatype Css = BadgeGreen | DelayCell | BadgeBlue | NoClass

  function ClassName(c: Css): string {
    match c
    case BadgeGreen => "badge badge-green"
    case DelayCell => "delay-cell"
    case BadgeBlue => "badge badge-blue"
    case NoClass => ""
  }

  /** The sort key `raw`: a whole number of days, or NaN when a date is an
      Invalid Date. */
  datatype Raw = Days(n: int) | NaN

  datatype Metric = Metric(display: string, css: Css, raw: Raw)

  const DeadlineNowText: string := "Deadline Now"

  function DelayedText(n: int): string {
    "Delayed (+" + IntToString(n) + " days)"
  }

  function DaysLeftText(s: string): string {
    s + " days left"
  }

  function RunningText(s: string): string {
    "Running (" + s + " days)"
  }

  /** Milliseconds in a day, the divisor of every day difference. */
  const MsPerDay: int := 86_400_000

  /** `Math.ceil(x / k)` for a positive divisor. */
  function CeilDiv(x: int, k: int): int
    requires k > 0
  {
    -((-x) / k)
  }

  /** Why day numbers suffice: today is at midnight, and for a date on
      day `d` at any time of day `t`, `Math.ceil((today - date) / day)` is
      exactly the difference of the day numbers, and the two are the same
      calendar day exactly when the day numbers agree. */
  lemma MidnightAbstraction(today: int, d: int, t: int)
    requires 0 <= t < MsPerDay
    ensures CeilDiv(today * MsPerDay - (d * MsPerDay + t), MsPerDay) == today - d
  {
    var x := today * MsPerDay - (d * MsPerDay + t);
    assert -x == (d - today) * MsPerDay + t;
    assert (-x) / MsPerDay == d - today;
  }

  /** `calculateTimeMetrics(status, startDate, deadline)`:
      - an exact finished label gives "OK";
      - otherwise a deadline today gives "Deadline Now", a past deadline
        "Delayed (+N days)" and a future one "N days left";
      - otherwise a start date gives "Running (N days)", flagged once N
        exceeds 15;
      - otherwise "-".
      An Invalid Date is truthy but yields NaN at every comparison. */
  function TimeMetrics(today: Day, status: Value, start: DateVal, deadline: DateVal): (m: Metric)
    ensures IsCompletedLabel(status) ==> m == Metric("OK", BadgeGreen, Days(0))
    ensures !IsCompletedLabel(status) && deadline == OnDay(today) ==> m == Metric(DeadlineNowText, DelayCell, Days(0))
    ensures !IsCompletedLabel(status) && deadline.OnDay? && deadline.day < today
            ==> m == Metric(DelayedText(today - deadline.day), DelayCell, Days(today - deadline.day))
    ensures !IsCompletedLabel(status) && deadline.OnDay? && deadline.day > today
            ==> m == Metric(DaysLeftText(IntToString(deadline.day - today)), BadgeBlue, Days(today - deadline.day))
    ensures !IsCompletedLabel(status) && deadline == NoDate && start.OnDay?
            ==> m.display == RunningText(IntToString(today - start.day)) && m.raw == Days(today - start.day)
                && m.css == (if today - start.day > 15 then DelayCell else BadgeGreen)
    ensures !IsCompletedLabel(status) && deadline == NoDate && start == NoDate ==> m == Metric("-", NoClass, Days(0))
    ensures !IsCompletedLabel(status) && deadline == NoDate && start == BadDate ==> m == Metric(RunningText("NaN"), BadgeGreen, NaN)
    ensures !IsCompletedLabel(status) && deadline == BadDate ==> m == Metric(DaysLeftText("NaN"), BadgeBlue, NaN)
    ensures m.raw == NaN <==> !IsCompletedLabel(status) && (deadline == BadDate || (deadline == NoDate && start == BadDate))
  {
    if IsCompletedLabel(status) then Metric("OK", BadgeGreen, Days(0))
    else match deadline
      case OnDay(d) =>
        if d == today then Metric(DeadlineNowText, DelayCell, Days(0))
        else
          var diff := today - d;
          if diff > 0 then Metric(DelayedText(diff), DelayCell, Days(diff))
          else Metric(DaysLeftText(IntToString(-diff)), BadgeBlue, Days(diff))
      case BadDate => Metric(DaysLeftText("NaN"), BadgeBlue, NaN)
      case NoDate =>
        match start
        case OnDay(s) =>
          var run := today - s;
          Metric(RunningText(IntToString(run)), if run > 15 then DelayCell else BadgeGreen, Days(run))
        case BadDate => Metric(RunningText("NaN"), BadgeGreen, NaN)
        case NoDate => Metric("-", NoClass, Days(0))
  }

  /** No other display text reads "Deadline Now". */
  lemma OnlyDeadlineNowReadsSo(n: int, k: nat, t: string)
    ensures DelayedText(n) != DeadlineNowText
    ensures DaysLeftText(IntToString(k)) != DeadlineNowText
    ensures DaysLeftText("NaN") != DeadlineNowText
    ensures RunningText(t) != DeadlineNowText
  {
    assert DelayedText(n)[2] == 'l' && DeadlineNowText[2] == 'a';
    assert DaysLeftText(IntToString(k))[0] == NatToString(k)[0];
    assert DaysLeftText("NaN")[2] == 'N';
    assert RunningText(t)[0] == 'R';
  }

  /** The "Deadline Now" badge, which the filter and both statistics
      count, is shown exactly for an unfinished task due today. */
  lemma DeadlineNowExactly(today: Day, status: Value, start: DateVal, deadline: DateVal)
    ensures TimeMetrics(today, status, start, deadline).display == DeadlineNowText
            <==> !IsCompletedLabel(status) && deadline == OnDay(today)
  {
    var m := TimeMetrics(today, status, start, deadline);
    if deadline.OnDay? && deadline.day != today {
      OnlyDeadlineNowReadsSo(today - deadline.day, if deadline.day > today then deadline.day - today else 0, "");
    } else if deadline == BadDate {
      OnlyDeadlineNowReadsSo(0, 0, "");
    } else if start.OnDay? {
      OnlyDeadlineNowReadsSo(0, 0, IntToString(today - start.day));
    } else {
      OnlyDeadlineNowReadsSo(0, 0, "NaN");
    }
  }

  /** The worked examples of the time rules, with today 10 June 2024: a
      deadline on 5 June is five days late, one on 15 June is five days
      away, and a task started on 22 May without a deadline has run
      19 days and is flagged. */
  lemma TimeMetricsExamples(status: Value)
    requires !IsCompletedLabel(status)
    ensures var today := DaysFromCivil(2024, 6, 10);
            TimeMetrics(today, status, NoDate, OnDay(DaysFromCivil(2024, 6, 5)))
              == Metric(DelayedText(5), DelayCell, Days(5))
            && TimeMetrics(today, status, NoDate, OnDay(DaysFromCivil(2024, 6, 15)))
              == Metric(DaysLeftText(IntToString(5)), BadgeBlue, Days(-5))
            && TimeMetrics(today, status, OnDay(DaysFromCivil(2024, 5, 22)), NoDate)
              == Metric(RunningText(IntToString(19)), DelayCell, Days(19))
  {
  }
}

=== FILE: results.dfy ===
/** Optional values and failing computations. */
module Results {

  /** A value that may be absent (`null` in the application). */
  datatype Option<+T> = None | Some(value: T)

  /** The outcome of a step that can fail: `Error` stands for a thrown
      exception or a user-facing alert, with its message. */
  datatype Outcome<+T> = Ok(value: T) | Error(message: string)
}

=== FILE: seqs.dfy ===
/** `Array.prototype.filter`, counting, and the first-occurrence
    de-duplication of `new Set(...)`, on sequences. */
module Seqs {
  /** `s.filter(p)`: the elements satisfying `p`, in order. */
  function Filter<T(!new)>(s: seq<T>, p: T -> bool): (r: seq<T>)
    ensures |r| <= |s|
    ensures forall i :: 0 <= i < |r| ==> p(r[i])
    ensures forall x :: x in r <==> x in s && p(x)
  {
    if s == [] then []
    else (if p(s[0]) then [s[0]] else []) + Filter(s[1..], p)
  }

  /** Filtering distributes over concatenation. */
  lemma {:induction false} FilterConcat<T(!new)>(a: seq<T>, b: seq<T>, p: T -> bool)
    ensures Filter(a + b, p) == Filter(a, p) + Filter(b, p)
  {
    if a != [] {
      assert (a + b)[0] == a[0];
      assert (a + b)[1..] == a[1..] + b;
      FilterConcat(a[1..], b, p);
      var h := if p(a[0]) then [a[0]] else [];
      assert Filter(a + b, p) == h + Filter(a[1..] + b, p);
      assert Filter(a, p) == h + Filter(a[1..], p);
    } else {
      assert a + b == b;
    }
  }

  /** Nothing qualifies: the filter is empty. */
  lemma {:induction false} FilterNone<T(!new)>(s: seq<T>, p: T -> bool)
    requires forall i :: 0 <= i < |s| ==> !p(s[i])
    ensures Filter(s, p) == []
  {
    if s != [] {
      assert forall i :: 1 <= i < |s| ==> s[i] == s[1..][i - 1];
      FilterNone(s[1..], p);
    }
  }

  /** Everything qualifies: the filter keeps the whole sequence. */
  lemma {:induction false} FilterAll<T(!new)>(s: seq<T>, p: T -> bool)
    requires forall i :: 0 <= i < |s| ==> p(s[i])
    ensures Filter(s, p) == s
  {
    if s != [] {
      assert forall i :: 1 <= i < |s| ==> s[i] == s[1..][i - 1];
      FilterAll(s[1..], p);
    }
  }

  /** Conditions that agree on every element filter alike. */
  lemma {:induction false} FilterSame<T(!new)>(s: seq<T>, p: T -> bool, q: T -> bool)
    requires forall i :: 0 <= i < |s| ==> (p(s[i]) <==> q(s[i]))
    ensures Filter(s, p) == Filter(s, q)
  {
    if s != [] {
      assert forall i :: 1 <= i < |s| ==> s[i] == s[1..][i - 1];
      FilterSame(s[1..], p, q);
    }
  }

  /** `s.indexOf(x)`: the first position holding `x`, or -1. */
  function IndexOfElem<T(==)>(s: seq<T>, x: T): (r: int)
    ensures -1 <= r < |s|
    ensures r == -1 <==> x !in s
    ensures r != -1 ==> s[r] == x && forall k :: 0 <= k < r ==> s[k] != x
  {
    if s == [] then -1
    else if s[0] == x then 0
    else
      var r := IndexOfElem(s[1..], x);
      assert forall k :: 1 <= k < |s| ==> s[k] == s[1..][k - 1];
      if r == -1 then -1 else r + 1
  }

  /** Filtering twice is filtering once by both conditions. */
  lemma {:induction false} FilterFilter<T(!new)>(s: seq<T>, p: T -> bool, q: T -> bool, pq: T -> bool)
    requires forall i :: 0 <= i < |s| ==> (pq(s[i]) <==> p(s[i]) && q(s[i]))
    ensures Filter(Filter(s, p), q) == Filter(s, pq)
  {
    if s != [] {
      assert forall i :: 1 <= i < |s| ==> s[i] == s[1..][i - 1];
      FilterFilter(s[1..], p, q, pq);
      var h := if p(s[0]) then [s[0]] else [];
      FilterConcat(h, Filter(s[1..], p), q);
    }
  }

  /** How many elements satisfy `p`. */
  function Count<T>(s: seq<T>, p: T -> bool): nat {
    if s == [] then 0
    else (if p(s[0]) then 1 else 0) + Count(s[1..], p)
  }

  /** `s.filter(p).length` is the count. */
  lemma {:induction false} FilterLength<T(!new)>(s: seq<T>, p: T -> bool)
    ensures |Filter(s, p)| == Count(s, p)
  {
    if s != [] {
      FilterLength(s[1..], p);
    }
  }

  /** A count never exceeds the length, and reaches it exactly when every
      element qualifies. */
  lemma {:induction false} CountBound<T>(s: seq<T>, p: T -> bool)
    ensures Count(s, p) <= |s|
    ensures Count(s, p) == |s| <==> forall i :: 0 <= i < |s| ==> p(s[i])
  {
    if s != [] {
      CountBound(s[1..], p);
      assert forall i :: 1 <= i < |s| ==> s[i] == s[1..][i - 1];
    }
  }

  /** Counting a weaker condition gives at least as much. */
  lemma {:induction false} CountMono<T>(s: seq<T>, p: T -> bool, q: T -> bool)
    requires forall i :: 0 <= i < |s| && p(s[i]) ==> q(s[i])
    ensures Count(s, p) <= Count(s, q)
  {
    if s != [] {
      assert forall i :: 1 <= i < |s| ==> s[i] == s[1..][i - 1];
      CountMono(s[1..], p, q);
    }
  }

  /** Two conditions that never hold together: the count of either is
      the sum of the counts. */
  lemma {:induction false} CountDisjoint<T>(s: seq<T>, p: T -> bool, q: T -> bool, pq: T -> bool)
    requires forall i :: 0 <= i < |s| ==> !(p(s[i]) && q(s[i]))
    requires forall i :: 0 <= i < |s| ==> (pq(s[i]) <==> p(s[i]) || q(s[i]))
    ensures Count(s, pq) == Count(s, p) + Count(s, q)
  {
    if s != [] {
      assert forall i :: 1 <= i < |s| ==> s[i] == s[1..][i - 1];
      CountDisjoint(s[1..], p, q, pq);
    }
  }

  predicate Distinct<T(==)>(s: seq<T>) {
    forall i, j :: 0 <= i < j < |s| ==> s[i] != s[j]
  }

  /** `[...new Set(s)]`: each value once, at its first occurrence. */
  function Dedup<T(==,!new)>(s: seq<T>): (r: seq<T>)
    ensures Distinct(r)
    ensures forall x :: x in r <==> x in s
    ensures |r| <= |s|
  {
    if s == [] then []
    else
      var d := Dedup(s[..|s| - 1]);
      var x := s[|s| - 1];
      assert s == s[..|s| - 1] + [x];
      if x in d then d else d + [x]
  }

  /** The de-duplication keeps first occurrences in order: a value seen
      before another in the input is listed before it. */
  lemma {:induction false} DedupOrder<T(!new)>(s: seq<T>, i: nat, j: nat)
    requires i < j < |s|
    requires forall k :: 0 <= k < j ==> s[k] != s[j]
    requires forall k :: 0 <= k < i ==> s[k] != s[i]
    ensures exists a, b :: 0 <= a < b < |Dedup(s)| && Dedup(s)[a] == s[i] && Dedup(s)[b] == s[j]
    decreases |s|
  {
    var d := Dedup(s[..|s| - 1]);
    var x := s[|s| - 1];
    if j < |s| - 1 {
      DedupOrder(s[..|s| - 1], i, j);
      var a, b :| 0 <= a < b < |d| && d[a] == s[i] && d[b] == s[j];
      var r := Dedup(s);
      assert r == d || r == d + [x];
      assert r[a] == s[i] && r[b] == s[j];
    } else {
      assert s[j] !in s[..|s| - 1];
      assert s[i] in s[..|s| - 1];
      var a :| 0 <= a < |d| && d[a] == s[i];
      assert x !in d;
      var r := Dedup(s);
      assert r == d + [x];
      assert r[a] == s[i] && r[|d|] == s[j];
    }
  }
}

=== FILE: sheeturl.dfy ===
/** The Google Sheets link typed into the loader, rewritten into the URL
    whose CSV is downloaded. */
module SheetUrl {
  import opened Results
  import opened Text

  const PubHtml: string := "/pubhtml"
  const PubCsv: string := "/pub?output=csv"
  const ExportPrefix: string := "https://docs.google.com/spreadsheets/d/"
  const ExportSuffix: string := "/export?format=csv"

  /** The characters `.` does not match in a regular expression. */
  predicate IsLineTerminator(c: char) {
    c == '\n' || c == '\r' || c == '\U{2028}' || c == '\U{2029}'
  }

  /** `[a-zA-Z0-9-_]`. */
  predicate IsIdChar(c: char) {
    ('a' <= c <= 'z') || ('A' <= c <= 'Z') || ('0' <= c <= '9') || c == '-' || c == '_'
  }

  /** Where `.*` starting at `i` stops: the first line terminator at or
      after `i`, or the end. */
  function LineEnd(s: string, i: nat): (j: nat)
    requires i <= |s|
    ensures i <= j <= |s|
    ensures forall k :: i <= k < j ==> !IsLineTerminator(s[k])
    ensures j == |s| || IsLineTerminator(s[j])
    decreases |s| - i
  {
    if i == |s| || IsLineTerminator(s[i]) then i else LineEnd(s, i + 1)
  }

  /** "/pubhtml" starts at position `i`. */
  predicate PubAt(s: string, i: int) {
    0 <= i && i + 8 <= |s| && s[i] == '/' && s[i + 1] == 'p' && s[i + 2] == 'u' && s[i + 3] == 'b'
    && s[i + 4] == 'h' && s[i + 5] == 't' && s[i + 6] == 'm' && s[i + 7] == 'l'
  }

  /** `PubAt` is an occurrence of "/pubhtml". */
  lemma PubAtIsOccurrence(s: string, i: int)
    ensures PubAt(s, i) <==> OccursAt(s, PubHtml, i)
  {
    if OccursAt(s, PubHtml, i) {
      assert forall k :: 0 <= k < 8 ==> s[i + k] == PubHtml[k];
    }
  }

  /** The first "/pubhtml" at or after `p`. */
  function FindPub(s: string, p: nat): (r: Option<nat>)
    ensures r.Some? ==> p <= r.value && PubAt(s, r.value) && forall k :: p <= k < r.value ==> !PubAt(s, k)
    ensures r.None? ==> forall k :: p <= k ==> !PubAt(s, k)
    decreases |s| - p
  {
    if p + 8 > |s| then None
    else if PubAt(s, p) then Some(p)
    else FindPub(s, p + 1)
  }

  /** `s.includes('/pubhtml')`. */
  lemma FindPubIsIncludes(s: string)
    ensures FindPub(s, 0).Some? <==> Contains(s, PubHtml)
  {
    if FindPub(s, 0).Some? {
      PubAtIsOccurrence(s, FindPub(s, 0).value);
    }
    if Contains(s, PubHtml) {
      var i :| OccursAt(s, PubHtml, i);
      PubAtIsOccurrence(s, i);
    }
  }

  /** `s.replace(/\/pubhtml.*\/, '/pub?output=csv')` for `s` holding
      "/pubhtml" first at `i`: it and the rest of its line become
      "/pub?output=csv". */
  function ReplacePubHtml(s: string, i: nat): (r: string)
    requires PubAt(s, i)
    ensures exists j :: i + 8 <= j <= |s| && (forall k :: i + 8 <= k < j ==> !IsLineTerminator(s[k]))
                       && (j == |s| || IsLineTerminator(s[j]))
                       && r == s[..i] + PubCsv + s[j..]
  {
    s[..i] + PubCsv + s[LineEnd(s, i + 8)..]
  }

  /** Whether `/\/d\/([a-zA-Z0-9-_]+)/` can match at position `p`. */
  predicate MatchAt(s: string, p: int) {
    0 <= p && p + 3 < |s| && s[p] == '/' && s[p + 1] == 'd' && s[p + 2] == '/' && IsIdChar(s[p + 3])
  }

  /** The leftmost match position at or after `p`. */
  function FindMatch(s: string, p: nat): (r: Option<nat>)
    ensures r.Some? ==> p <= r.value && MatchAt(s, r.value)
                        && forall k :: p <= k < r.value ==> !MatchAt(s, k)
    ensures r.None? ==> forall k :: p <= k ==> !MatchAt(s, k)
    decreases |s| - p
  {
    if p + 3 >= |s| then None
    else if MatchAt(s, p) then Some(p)
    else FindMatch(s, p + 1)
  }

  /** Length of the run of id characters starting at `j` (the greedy
      `+`). */
  function IdRun(s: string, j: nat): (n: nat)
    requires j <= |s|
    ensures j + n <= |s|
    ensures forall k :: j <= k < j + n ==> IsIdChar(s[k])
    ensures j + n == |s| || !IsIdChar(s[j + n])
    decreases |s| - j
  {
    if j == |s| || !IsIdChar(s[j]) then 0 else 1 + IdRun(s, j + 1)
  }

  /** `match[1]`: the id after the leftmost "/d/", when there is one. */
  function SheetId(s: string): (r: Option<string>)
    ensures r.None? <==> forall k :: !MatchAt(s, k)
    ensures r.Some? ==> r.value != [] && forall k :: 0 <= k < |r.value| ==> IsIdChar(r.value[k])
    ensures r.Some? ==> exists p :: MatchAt(s, p) && (forall k :: 0 <= k < p ==> !MatchAt(s, k))
                                    && p + 3 + |r.value| <= |s| && r.value == s[p + 3..p + 3 + |r.value|]
                                    && (p + 3 + |r.value| == |s| || !IsIdChar(s[p + 3 + |r.value|]))
  {
    match FindMatch(s, 0)
    case None => None
    case Some(p) =>
      var n := IdRun(s, p + 3);
      Some(s[p + 3..p + 3 + n])
  }

  /** The CSV export URL of a spreadsheet id. */
  function ExportUrl(id: string): string {
    ExportPrefix + id + ExportSuffix
  }

  /** `match[1] !== 'e'` fails: the id is the single letter "e". */
  predicate IsLetterE(id: string) {
    |id| == 1 && id[0] == 'e'
  }

  /** `handleSheetLoad`'s rewrite: nothing is loaded for an empty link; a
      "published to the web" link is pointed at its CSV output; a link
      with a spreadsheet id (other than the "e" of published links)
      becomes that sheet's export URL; anything else is fetched as
      typed. */
  function Rewrite(url: string): (r: Option<string>)
    ensures r.None? <==> url == []
    ensures url != [] && FindPub(url, 0).Some? ==> r == Some(ReplacePubHtml(url, FindPub(url, 0).value))
    ensures url != [] && FindPub(url, 0).None? && SheetId(url).Some? && !IsLetterE(SheetId(url).value)
            ==> r == Some(ExportUrl(SheetId(url).value))
    ensures url != [] && FindPub(url, 0).None? && (SheetId(url).None? || IsLetterE(SheetId(url).value))
            ==> r == Some(url)
  {
    if url == [] then None
    else
      match FindPub(url, 0)
      case Some(i) => Some(ReplacePubHtml(url, i))
      case None =>
        match SheetId(url)
        case Some(id) => if !IsLetterE(id) then Some(ExportUrl(id)) else Some(url)
        case None => Some(url)
  }

  /** The first match is the one the search finds. */
  lemma FirstMatch(s: string, q: nat)
    requires MatchAt(s, q) && forall k :: 0 <= k < q ==> !MatchAt(s, k)
    ensures FindMatch(s, 0) == Some(q)
  {
  }

  /** The run of id characters is the maximal one. */
  lemma {:induction false} RunLength(s: string, j: nat, n: nat)
    requires j + n <= |s|
    requires forall k :: j <= k < j + n ==> IsIdChar(s[k])
    requires j + n == |s| || !IsIdChar(s[j + n])
    ensures IdRun(s, j) == n
    decreases n
  {
    if n > 0 {
      RunLength(s, j + 1, n - 1);
    }
  }

  /** The prefix of an export URL holds no "/d/" before its own. */
  lemma PrefixHasOneMatch(s: string)
    requires |s| > |ExportPrefix| && s[..|ExportPrefix|] == ExportPrefix && IsIdChar(s[|ExportPrefix|])
    ensures FindMatch(s, 0) == Some(|ExportPrefix| - 3)
  {
    var n := |ExportPrefix|;
    assert forall k :: 0 <= k < n ==> s[k] == ExportPrefix[k];
    assert forall k :: 0 <= k < n && ExportPrefix[k] == '/' ==> k == 6 || k == 7 || k == 23 || k == 36 || k == 38;
    FirstMatch(s, n - 3);
  }

  /** An edit link `https://docs.google.com/spreadsheets/d/<id>/...`
      becomes the export URL of `<id>`. */
  lemma EditLinkBecomesExport(url: string, id: string, tail: string)
    requires url == ExportPrefix + id + tail
    requires id != [] && !IsLetterE(id) && forall k :: 0 <= k < |id| ==> IsIdChar(id[k])
    requires tail == [] || !IsIdChar(tail[0])
    requires forall k :: !PubAt(url, k)
    ensures Rewrite(url) == Some(ExportUrl(id))
  {
    var n := |ExportPrefix|;
    assert url[..n] == ExportPrefix;
    assert url[n] == id[0];
    PrefixHasOneMatch(url);
    assert forall k :: n <= k < n + |id| ==> url[k] == id[k - n];
    assert n + |id| == |url| || url[n + |id|] == tail[0];
    RunLength(url, n, |id|);
    assert url[n..n + |id|] == id;
  }

  /** Rewriting an export URL leaves it as it is. */
  lemma ExportUrlIsStable(id: string)
    requires id != [] && !IsLetterE(id) && forall k :: 0 <= k < |id| ==> IsIdChar(id[k])
    requires forall k :: !PubAt(ExportUrl(id), k)
    ensures Rewrite(ExportUrl(id)) == Some(ExportUrl(id))
  {
    assert ExportSuffix[0] == '/';
    EditLinkBecomesExport(ExportUrl(id), id, ExportSuffix);
  }

  /** A published link without "/pubhtml" (`.../d/e/<key>/pub`) is
      fetched as typed: its first id is the "e". */
  lemma PublishedKeyIsNotAnId(url: string, q: nat)
    requires forall k :: !PubAt(url, k)
    requires MatchAt(url, q) && forall k :: 0 <= k < q ==> !MatchAt(url, k)
    requires q + 4 < |url| && url[q + 3] == 'e' && url[q + 4] == '/'
    ensures Rewrite(url) == Some(url)
  {
    FirstMatch(url, q);
    RunLength(url, q + 3, 1);
    assert IsLetterE(SheetId(url).value);
  }

  /** "/pubhtml" has no proper prefix that is also its suffix, so its
      first occurrence in `base + "/pubhtml" + rest` is the one after
      `base` when `base` does not contain it. */
  lemma PubHtmlAfter(base: string, rest: string)
    requires forall k :: !PubAt(base, k)
    ensures FindPub(base + PubHtml + rest, 0) == Some(|base|)
  {
    var s := base + PubHtml + rest;
    var b := |base|;
    assert forall k :: b <= k < b + 8 ==> s[k] == PubHtml[k - b];
    assert PubAt(s, b);
    forall k | 0 <= k < b ensures !PubAt(s, k) {
      if k + 8 <= b {
        assert forall m :: k <= m < k + 8 ==> s[m] == base[m];
        assert !PubAt(base, k);
      }
    }
  }

  /** A published page link `<base>/pubhtml<rest of line>` is pointed at
      `<base>/pub?output=csv`. */
  lemma PublishedLinkBecomesCsv(base: string, rest: string)
    requires forall k :: !PubAt(base, k)
    requires forall k :: 0 <= k < |rest| ==> !IsLineTerminator(rest[k])
    ensures Rewrite(base + PubHtml + rest) == Some(base + PubCsv)
  {
    var s := base + PubHtml + rest;
    PubHtmlAfter(base, rest);
    var j := LineEnd(s, |base| + 8);
    assert forall k :: |base| + 8 <= k < |s| ==> s[k] == rest[k - |base| - 8];
    assert j == |s|;
    assert s[..|base|] == base;
    assert ReplacePubHtml(s, |base|) == base + PubCsv + s[|s|..];
    assert base + PubCsv + s[|s|..] == base + PubCsv;
  }
}

=== FILE: sorting.dfy ===
/** `Array.prototype.sort` with a comparator: a stable sort, written as an
    insertion sort on sequences.  `le(a, b)` means the comparator does
    not put `b` before `a` (it returns at most 0). */
module Sorting {
  import opened Seqs

  predicate Sorted<T>(s: seq<T>, le: (T, T) -> bool) {
    forall i, j :: 0 <= i < j < |s| ==> le(s[i], s[j])
  }

  /** The comparator is consistent on the values of `s`: total and
      transitive. */
  ghost predicate Preorder<T(!new)>(s: seq<T>, le: (T, T) -> bool) {
    (forall a, b :: a in s && b in s ==> le(a, b) || le(b, a))
    && (forall a, b, c :: a in s && b in s && c in s && le(a, b) && le(b, c) ==> le(a, c))
  }

  /** Places `x` after every element of `s` that may precede it. */
  function Insert<T>(x: T, s: seq<T>, le: (T, T) -> bool): (r: seq<T>)
    ensures multiset(r) == multiset(s) + multiset{x}
  {
    if s == [] then [x]
    else if le(s[|s| - 1], x) then s + [x]
    else
      assert s == s[..|s| - 1] + [s[|s| - 1]];
      Insert(x, s[..|s| - 1], le) + [s[|s| - 1]]
  }

  /** The sorted permutation, each element inserted in input order. */
  function InsertionSort<T>(s: seq<T>, le: (T, T) -> bool): (r: seq<T>)
    ensures multiset(r) == multiset(s)
  {
    if s == [] then []
    else
      assert s == s[..|s| - 1] + [s[|s| - 1]];
      Insert(s[|s| - 1], InsertionSort(s[..|s| - 1], le), le)
  }

  lemma {:induction false} InsertSorted<T(!new)>(x: T, s: seq<T>, le: (T, T) -> bool, all: seq<T>)
    requires Sorted(s, le) && Preorder(all, le)
    requires x in all && forall y :: y in s ==> y in all
    ensures Sorted(Insert(x, s, le), le)
  {
    if s != [] {
      var last := s[|s| - 1];
      assert last in s;
      if le(last, x) {
        forall i | 0 <= i < |s| ensures le(s[i], x) {
          assert s[i] in s;
        }
      } else {
        var init := s[..|s| - 1];
        assert le(x, last);
        InsertSorted(x, init, le, all);
        var t := Insert(x, init, le);
        forall i | 0 <= i < |t| ensures le(t[i], last) {
          assert t[i] in multiset(t);
          assert t[i] == x || t[i] in init;
          if t[i] != x {
            var k :| 0 <= k < |init| && init[k] == t[i];
          }
        }
      }
    }
  }

  /** The result is ordered whenever the comparator is consistent. */
  lemma {:induction false} SortSorted<T(!new)>(s: seq<T>, le: (T, T) -> bool)
    requires Preorder(s, le)
    ensures Sorted(InsertionSort(s, le), le)
  {
    if s != [] {
      var init := s[..|s| - 1];
      assert Preorder(init, le);
      SortSorted(init, le);
      var r := InsertionSort(init, le);
      forall y | y in r ensures y in s {
        assert y in multiset(r);
      }
      InsertSorted(s[|s| - 1], r, le, s);
    }
  }

  /** An input already in order is returned unchanged. */
  lemma {:induction false} SortKeepsSorted<T>(s: seq<T>, le: (T, T) -> bool)
    requires Sorted(s, le)
    ensures InsertionSort(s, le) == s
  {
    if s != [] {
      var init := s[..|s| - 1];
      var x := s[|s| - 1];
      SortedInit(s, le);
      SortKeepsSorted(init, le);
      InsertAtEnd(x, init, le);
      assert init + [x] == s;
    }
  }

  /** Dropping the last element keeps a sequence sorted, and the dropped
      element may follow the new last one. */
  lemma SortedInit<T>(s: seq<T>, le: (T, T) -> bool)
    requires s != [] && Sorted(s, le)
    ensures Sorted(s[..|s| - 1], le)
    ensures |s| > 1 ==> le(s[|s| - 2], s[|s| - 1])
  {
    var init := s[..|s| - 1];
    forall i, j | 0 <= i < j < |init| ensures le(init[i], init[j]) {
      assert init[i] == s[i] && init[j] == s[j];
    }
  }

  /** An element that may follow the last one is appended. */
  lemma InsertAtEnd<T>(x: T, s: seq<T>, le: (T, T) -> bool)
    requires s == [] || le(s[|s| - 1], x)
    ensures Insert(x, s, le) == s + [x]
  {
  }

  /** Elements the comparator ranks equal to `k`. */
  function EquivTo<T>(k: T, le: (T, T) -> bool): T -> bool {
    y => le(y, k) && le(k, y)
  }

  /** A class of values the comparator does not separate: any two of
      them may stay in either order. */
  ghost predicate Tied<T(!new)>(s: seq<T>, le: (T, T) -> bool, p: T -> bool) {
    forall a, b :: a in s && b in s && p(a) && p(b) ==> le(a, b)
  }

  /** Under a consistent comparator, the values ranked equal to `k` are
      such a class. */
  lemma EquivTied<T(!new)>(s: seq<T>, le: (T, T) -> bool, k: T)
    requires Preorder(s, le) && k in s
    ensures Tied(s, le, EquivTo(k, le))
  {
    forall a, b | a in s && b in s && EquivTo(k, le)(a) && EquivTo(k, le)(b) ensures le(a, b) {
      assert le(a, k) && le(k, b);
    }
  }

  lemma {:induction false} InsertStable<T(!new)>(x: T, s: seq<T>, le: (T, T) -> bool, p: T -> bool, all: seq<T>)
    requires Tied(all, le, p) && x in all && forall y :: y in s ==> y in all
    ensures Filter(Insert(x, s, le), p) == Filter(s, p) + Filter([x], p)
  {
    if s == [] {
    } else if le(s[|s| - 1], x) {
      FilterConcat(s, [x], p);
    } else {
      var init := s[..|s| - 1];
      var last := s[|s| - 1];
      assert last in s;
      assert init + [last] == s;
      assert Insert(x, s, le) == Insert(x, init, le) + [last];
      InsertStable(x, init, le, p, all);
      FilterConcat(Insert(x, init, le), [last], p);
      FilterConcat(init, [last], p);
      assert !(p(x) && p(last));
      FilterSingletonsCommute(Filter(init, p), x, last, p);
    }
  }

  /** Two single elements that `p` does not both keep filter to the same
      sequence in either order. */
  lemma FilterSingletonsCommute<T(!new)>(a: seq<T>, x: T, y: T, p: T -> bool)
    requires !(p(x) && p(y))
    ensures a + Filter([x], p) + Filter([y], p) == a + Filter([y], p) + Filter([x], p)
  {
    assert Filter([x], p) == if p(x) then [x] else [];
    assert Filter([y], p) == if p(y) then [y] else [];
  }

  /** Stability: the values of any tied class, in particular those ranked
      equal to a given one, keep their input order. */
  lemma {:induction false} SortStable<T(!new)>(s: seq<T>, le: (T, T) -> bool, p: T -> bool)
    requires Tied(s, le, p)
    ensures Filter(InsertionSort(s, le), p) == Filter(s, p)
  {
    if s != [] {
      var init := s[..|s| - 1];
      var x := s[|s| - 1];
      assert init + [x] == s;
      assert Tied(init, le, p);
      SortStable(init, le, p);
      var r := InsertionSort(init, le);
      forall y | y in r ensures y in s {
        assert y in multiset(r);
      }
      InsertStable(x, r, le, p, s);
      FilterConcat(init, [x], p);
    }
  }
}

=== FILE: status.dfy ===
/** Status words.  The time-metric rule recognises a finished task by
    its exact status text; the ingestion, the filter and the statistics
    compare the normalised status (accents stripped, lower case, trimmed)
    with fixed word lists. */
module Status {
  import opened Text
  import opened Values

  /** Status texts `calculateTimeMetrics` takes as finished, compared
      exactly. */
  const CompletedLabels: seq<string> := ["Done", "Completed", "Termin\U{00E9}", "Finished"]

  /** Normalised status words of the four categories. */
  const CompletedWords: seq<string> := ["done", "completed", "termine", "finished"]
  const InProgressWords: seq<string> := ["in progress", "en cours", "ongoing", "doing"]
  const ReappearedWords: seq<string> := ["reappeared", "r\U{00E9}apparu"]

  /** `['Done', 'Completed', 'Terminé', 'Finished'].includes(status)`:
      only a string can be equal to an element. */
  predicate IsCompletedLabel(status: Value) {
    status.Str? && status.s in CompletedLabels
  }

  predicate IsCompleted(env: Env, status: Value) {
    NormalizeValue(env, status) in CompletedWords
  }

  predicate IsInProgress(env: Env, status: Value) {
    NormalizeValue(env, status) in InProgressWords
  }

  predicate IsReappeared(env: Env, status: Value) {
    NormalizeValue(env, status) in ReappearedWords
  }

  /** A word without combining marks and without whitespace at either
      end normalises to its character-wise folding. */
  lemma NormalizeWord(s: string, w: string)
    requires s != [] && !IsSpace(LowerChar(BaseLetter(s[0]))) && !IsSpace(LowerChar(BaseLetter(s[|s| - 1])))
    requires forall i :: 0 <= i < |s| ==> !IsCombiningMark(s[i])
    requires |w| == |s| && forall i :: 0 <= i < |s| ==> w[i] == LowerChar(BaseLetter(s[i]))
    ensures Normalize(s) == w
  {
    FoldPointwise(s);
    assert Fold(s) == w;
    TrimIdempotent(w);
  }

  lemma DoneLabel()
    ensures Normalize(CompletedLabels[0]) == CompletedWords[0]
  {
    NormalizeWord(CompletedLabels[0], CompletedWords[0]);
  }

  lemma CompletedLabel()
    ensures Normalize(CompletedLabels[1]) == CompletedWords[1]
  {
    NormalizeWord(CompletedLabels[1], CompletedWords[1]);
  }

  lemma TermineLabel()
    ensures Normalize(CompletedLabels[2]) == CompletedWords[2]
  {
    NormalizeWord(CompletedLabels[2], CompletedWords[2]);
  }

  lemma FinishedLabel()
    ensures Normalize(CompletedLabels[3]) == CompletedWords[3]
  {
    NormalizeWord(CompletedLabels[3], CompletedWords[3]);
  }

  /** Each exact completion label is also a completed status word after
      normalisation, so a task the time metric calls "OK" is counted as
      completed. */
  lemma CompletedLabelIsCompleted(env: Env, status: Value)
    requires IsCompletedLabel(status)
    ensures IsCompleted(env, status)
  {
    LabelNormalizes(status.s);
  }

  lemma LabelNormalizes(s: string)
    requires s in CompletedLabels
    ensures Normalize(s) in CompletedWords
  {
    var k :| 0 <= k < |CompletedLabels| && s == CompletedLabels[k];
    if k == 0 {
      DoneLabel();
    } else if k == 1 {
      CompletedLabel();
    } else if k == 2 {
      TermineLabel();
    } else {
      FinishedLabel();
    }
  }

  /** The converse fails: "done" in lower case is completed for the
      ingestion and the statistics but not for the time metric. */
  lemma LowerCaseDoneIsNotALabel(env: Env, status: Value)
    requires status == Str(CompletedWords[0])
    ensures IsCompleted(env, status) && !IsCompletedLabel(status)
  {
    DoneWord(status.s);
    assert NormalizeValue(env, status) == CompletedWords[0];
    DoneIsNoLabel(status.s);
  }

  lemma DoneIsNoLabel(s: string)
    requires s == CompletedWords[0]
    ensures s !in CompletedLabels
  {
    assert s[0] == 'd';
    assert forall k :: 0 <= k < |CompletedLabels| ==> CompletedLabels[k][0] != 'd';
  }

  lemma DoneWord(s: string)
    requires s == CompletedWords[0]
    ensures Normalize(s) == CompletedWords[0]
  {
    NormalizeWord(s, CompletedWords[0]);
  }

  /** The accented reappeared word can never equal a normalised status:
      normalisation removes the accent first, so only "reappeared"
      matches. */
  lemma ReapparuNeverMatches(env: Env, status: Value)
    ensures NormalizeValue(env, status) != ReappearedWords[1]
    ensures IsReappeared(env, status) <==> NormalizeValue(env, status) == ReappearedWords[0]
  {
    NoAccentedWord(NormalizeValue(env, status), env, status);
  }

  lemma NoAccentedWord(r: string, env: Env, status: Value)
    requires r == NormalizeValue(env, status)
    ensures r != ReappearedWords[1]
  {
    var w := ReappearedWords[1];
    assert w[1] == '\U{00E9}';
    if Truthy(status) && |r| > 1 {
      NormalizeHasNoAccents(ToStr(env, status), 1);
    }
  }

  /** The three word lists share no word, so a status is in at most one
      category. */
  lemma WordsDisjoint(w: string)
    ensures !(w in CompletedWords && w in InProgressWords)
    ensures !(w in CompletedWords && w in ReappearedWords)
    ensures !(w in InProgressWords && w in ReappearedWords)
  {
    if w in CompletedWords && |w| > 2 {
      assert w[0] in "dctf" && (w[0] == 'd' ==> w[2] == 'n');
    }
    if w in InProgressWords {
      assert w[0] in "ieod" && (w[0] == 'd' ==> w[2] == 'i');
    }
  }

  /** A status belongs to at most one of the three categories. */
  lemma StatusExclusive(env: Env, status: Value)
    ensures !(IsCompleted(env, status) && IsInProgress(env, status))
    ensures !(IsCompleted(env, status) && IsReappeared(env, status))
    ensures !(IsInProgress(env, status) && IsReappeared(env, status))
  {
    WordsDisjoint(NormalizeValue(env, status));
  }
}

=== FILE: tasks.dfy ===
/** The task record the spreadsheet ingestion builds, and JavaScript
    property lookup on it. */
module Tasks {
  import opened Values
  import opened Dates
  import opened Metrics

  /** `task._internal`: the values the statistics were meant to use. */
  datatype Internal = Internal(
    name: Value,
    status: Value,
    startDate: DateVal,
    deadline: DateVal,
    delay: int,
    isDelayed: bool,
    runningDays: Raw,
    timeMetrics: Metric)

  /** A task object: `id` (the row's position among the data rows), one
      property per kept header (keyed by the header's text, a later
      duplicate header overwriting an earlier one), and the fixed fields
      assigned last, which overwrite any header of the same name. */
  datatype Task = Task(
    id: nat,
    cells: map<string, Value>,
    internal: Internal,
    name: Value,
    status: Value,
    isDelayed: bool,
    deadline: string,
    timeMetrics: Metric)

  /** Names of the properties assigned after the header columns. */
  const FixedKeys: seq<string> := ["_internal", "name", "status", "isDelayed", "deadline", "timeMetrics"]

  /** `task[key]`: the fixed fields win, then the header cells, then the
      initial `id`, then what every object inherits from
      `Object.prototype`; any other key is `undefined`. */
  function Get(t: Task, key: string): (r: Value)
    ensures key !in FixedKeys && key in t.cells ==> r == t.cells[key]
    ensures key !in FixedKeys && key !in t.cells && key != "id" && key in InheritedKeys ==> r == Obj
    ensures key !in FixedKeys && key !in t.cells && key != "id" && key !in InheritedKeys ==> r == Undefined
    ensures key == "name" ==> r == t.name
    ensures key == "status" ==> r == t.status
    ensures key == "isDelayed" ==> r == Bool(t.isDelayed)
    ensures key == "deadline" ==> r == Str(t.deadline)
    ensures key == "timeMetrics" || key == "_internal" ==> r == Obj
    ensures key == "id" && key !in t.cells ==> r == Num(t.id)
  {
    if key == "name" then t.name
    else if key == "status" then t.status
    else if key == "isDelayed" then Bool(t.isDelayed)
    else if key == "deadline" then Str(t.deadline)
    else if key == "timeMetrics" || key == "_internal" then Obj
    else if key in t.cells then t.cells[key]
    else if key == "id" then Num(t.id)
    else if key in InheritedKeys then Obj
    else Undefined
  }
}

=== FILE: text.dfy ===
/** String primitives with the JavaScript semantics the application relies
    on: `trim`, `toLowerCase`, the accent-stripping normalisation
    (`normalize("NFD")` followed by removal of U+0300..U+036F), `includes`,
    the `<` ordering of strings and decimal numerals. */
module Text {

  // ---------------------------------------------------------------------
  // Whitespace and trim

  /** JavaScript's WhiteSpace and LineTerminator characters, the set that
      `trim` removes and that `\s` matches. */
  predicate IsSpace(c: char) {
    c == '\t' || c == '\n' || c == '\U{000B}' || c == '\U{000C}' || c == '\r'
    || c == ' ' || c == '\U{00A0}' || c == '\U{1680}'
    || ('\U{2000}' <= c <= '\U{200A}') || c == '\U{2028}' || c == '\U{2029}'
    || c == '\U{202F}' || c == '\U{205F}' || c == '\U{3000}' || c == '\U{FEFF}'
  }

  predicate AllSpace(s: string) {
    forall i :: 0 <= i < |s| ==> IsSpace(s[i])
  }

  function TrimStart(s: string): (r: string)
    ensures |r| <= |s| && r == s[|s| - |r|..]
    ensures AllSpace(s[..|s| - |r|])
    ensures r == [] || !IsSpace(r[0])
  {
    if |s| > 0 && IsSpace(s[0]) then
      var r := TrimStart(s[1..]);
      assert s[..|s| - |r|] == [s[0]] + s[1..][..|s[1..]| - |r|];
      r
    else s
  }

  function TrimEnd(s: string): (r: string)
    ensures |r| <= |s| && r == s[..|r|]
    ensures AllSpace(s[|r|..])
    ensures r == [] || !IsSpace(r[|r| - 1])
  {
    if |s| > 0 && IsSpace(s[|s| - 1]) then
      var r := TrimEnd(s[..|s| - 1]);
      assert s[|r|..] == s[..|s| - 1][|r|..] + [s[|s| - 1]];
      r
    else s
  }

  /** How many characters `trim` cuts off the front of `s`. */
  function TrimOffset(s: string): (i: nat)
    ensures i <= |s|
  {
    |s| - |TrimStart(s)|
  }

  /** `String.prototype.trim`: the result is a slice of the input with
      only whitespace cut off either end, and it neither starts nor ends
      with whitespace. */
  function Trim(s: string): (r: string)
    ensures TrimOffset(s) + |r| <= |s|
    ensures r == s[TrimOffset(s)..TrimOffset(s) + |r|]
    ensures AllSpace(s[..TrimOffset(s)]) && AllSpace(s[TrimOffset(s) + |r|..])
    ensures r == [] || (!IsSpace(r[0]) && !IsSpace(r[|r| - 1]))
  {
    var a := TrimStart(s);
    var r := TrimEnd(a);
    SuffixSlices(s, |s| - |a|, a, |r|);
    r
  }

  /** Text that does not start with whitespace loses nothing at the
      front. */
  lemma TrimStartNoLead(s: string)
    requires s == [] || !IsSpace(s[0])
    ensures TrimStart(s) == s && TrimOffset(s) == 0
  {
  }

  /** Trimming the end keeps every character up to the last
      non-whitespace one. */
  lemma {:induction false} TrimEndKeeps(s: string, j: nat)
    requires j < |s| && !IsSpace(s[j])
    ensures j < |TrimEnd(s)|
  {
    if IsSpace(s[|s| - 1]) {
      var t := s[..|s| - 1];
      assert j < |t| && t[j] == s[j];
      TrimEndKeeps(t, j);
    }
  }

  /** Text that starts with non-whitespace keeps, under `trim`, every
      character up to any later non-whitespace one. */
  lemma TrimKeepsUpTo(s: string, j: nat)
    requires j < |s| && !IsSpace(s[0]) && !IsSpace(s[j])
    ensures j < |Trim(s)| && Trim(s)[..j + 1] == s[..j + 1]
  {
    TrimStartNoLead(s);
    TrimEndKeeps(s, j);
    var r := TrimEnd(s);
    assert Trim(s) == r;
  }

  /** Slices of a suffix are slices of the whole. */
  lemma SuffixSlices(s: string, i: nat, a: string, n: nat)
    requires i <= |s| && a == s[i..] && n <= |a|
    ensures a[..n] == s[i..i + n] && a[n..] == s[i + n..]
  {
  }

  /** A string with no whitespace at either end is its own trim. */
  lemma TrimIdempotent(s: string)
    requires s == [] || (!IsSpace(s[0]) && !IsSpace(s[|s| - 1]))
    ensures Trim(s) == s
  {
  }

  lemma {:induction false} AllSpaceTrimStart(s: string)
    requires AllSpace(s)
    ensures TrimStart(s) == []
  {
    if s != [] {
      AllSpaceTrimStart(s[1..]);
    }
  }

  /** A leading whitespace run is exactly what `TrimStart` cuts. */
  lemma {:induction false} TrimStartRun(w: string, b: string)
    requires AllSpace(w) && (b == [] || !IsSpace(b[0]))
    ensures TrimStart(w + b) == b
  {
    if w != [] {
      assert (w + b)[1..] == w[1..] + b;
      TrimStartRun(w[1..], b);
    } else {
      assert w + b == b;
    }
  }

  /** `str.trim() === ''` holds exactly for all-whitespace strings. */
  lemma TrimEmptyIffBlank(s: string)
    ensures Trim(s) == [] <==> AllSpace(s)
  {
    if AllSpace(s) {
      AllSpaceTrimStart(s);
    }
    if Trim(s) == [] {
      var a := TrimStart(s);
      assert AllSpace(a[|TrimEnd(a)|..]);
      assert a == [];
      assert s[..TrimOffset(s)] == s;
    }
  }

  // ---------------------------------------------------------------------
  // Case mapping and accent stripping over ASCII and Latin-1

  /** `toLowerCase` on ASCII and the Latin-1 letters (plus U+0178); other
      characters are left as they are. */
  function LowerChar(c: char): char {
    if 'A' <= c <= 'Z' then (c as int + 32) as char
    else if ('\U{00C0}' <= c <= '\U{00DE}') && c != '\U{00D7}' then (c as int + 32) as char
    else if c == '\U{0178}' then '\U{00FF}'
    else c
  }

  function Lower(s: string): (r: string)
    ensures |r| == |s|
    ensures forall i :: 0 <= i < |s| ==> r[i] == LowerChar(s[i])
  {
    if s == [] then [] else [LowerChar(s[0])] + Lower(s[1..])
  }

  /** Combining diacritical marks, which the normalisation removes after
      canonical decomposition. */
  predicate IsCombiningMark(c: char) {
    '\U{0300}' <= c <= '\U{036F}'
  }

  /** The base letter of a precomposed Latin-1 letter under canonical
      decomposition (NFD); characters without a canonical decomposition
      are their own base. */
  function BaseLetter(c: char): char {
    if '\U{00C0}' <= c <= '\U{00C5}' then 'A'
    else if c == '\U{00C7}' then 'C'
    else if '\U{00C8}' <= c <= '\U{00CB}' then 'E'
    else if '\U{00CC}' <= c <= '\U{00CF}' then 'I'
    else if c == '\U{00D1}' then 'N'
    else if '\U{00D2}' <= c <= '\U{00D6}' then 'O'
    else if '\U{00D9}' <= c <= '\U{00DC}' then 'U'
    else if c == '\U{00DD}' || c == '\U{0178}' then 'Y'
    else if '\U{00E0}' <= c <= '\U{00E5}' then 'a'
    else if c == '\U{00E7}' then 'c'
    else if '\U{00E8}' <= c <= '\U{00EB}' then 'e'
    else if '\U{00EC}' <= c <= '\U{00EF}' then 'i'
    else if c == '\U{00F1}' then 'n'
    else if '\U{00F2}' <= c <= '\U{00F6}' then 'o'
    else if '\U{00F9}' <= c <= '\U{00FC}' then 'u'
    else if c == '\U{00FD}' || c == '\U{00FF}' then 'y'
    else c
  }

  /** Decompose, drop combining marks and lower-case, character by
      character. */
  function Fold(s: string): (r: string)
    ensures |r| <= |s|
    ensures forall i :: 0 <= i < |r| ==> !IsCombiningMark(r[i])
    ensures forall i :: 0 <= i < |r| ==> LowerChar(r[i]) == r[i]
  {
    if s == [] then []
    else if IsCombiningMark(s[0]) then Fold(s[1..])
    else [LowerChar(BaseLetter(s[0]))] + Fold(s[1..])
  }

  /** The application's `normalizeStr` on a string: NFD, strip combining
      marks, lower-case, trim.  The result is lower-case text without
      combining marks or surrounding whitespace. */
  function Normalize(s: string): (r: string)
    ensures |r| <= |s|
    ensures forall i :: 0 <= i < |r| ==> !IsCombiningMark(r[i])
    ensures forall i :: 0 <= i < |r| ==> LowerChar(r[i]) == r[i]
    ensures r == [] || (!IsSpace(r[0]) && !IsSpace(r[|r| - 1]))
  {
    var f := Fold(s);
    TrimKeepsFolded(f);
    Trim(f)
  }

  /** Trimming cannot bring in a combining mark or an upper-case letter. */
  lemma TrimKeepsFolded(f: string)
    requires forall i :: 0 <= i < |f| ==> !IsCombiningMark(f[i])
    requires forall i :: 0 <= i < |f| ==> LowerChar(f[i]) == f[i]
    ensures forall i :: 0 <= i < |Trim(f)| ==> !IsCombiningMark(Trim(f)[i])
    ensures forall i :: 0 <= i < |Trim(f)| ==> LowerChar(Trim(f)[i]) == Trim(f)[i]
  {
    var r := Trim(f);
    assert forall k :: 0 <= k < |r| ==> r[k] == f[TrimOffset(f) + k];
  }

  /** Folding a string without combining marks maps each character to its
      lower-case base letter. */
  lemma {:induction false} FoldPointwise(s: string)
    requires forall i :: 0 <= i < |s| ==> !IsCombiningMark(s[i])
    ensures |Fold(s)| == |s|
    ensures forall i :: 0 <= i < |s| ==> Fold(s)[i] == LowerChar(BaseLetter(s[i]))
  {
    if s != [] {
      FoldPointwise(s[1..]);
    }
  }


  /** On text with neither combining marks nor accented letters the
      normalisation is `toLowerCase` followed by `trim`. */
  lemma NormalizePlain(s: string)
    requires forall i :: 0 <= i < |s| ==> !IsCombiningMark(s[i]) && BaseLetter(s[i]) == s[i]
    ensures Normalize(s) == Trim(Lower(s))
  {
    FoldPointwise(s);
    assert Fold(s) == Lower(s);
  }

  lemma NormalizeEmpty()
    ensures Normalize("") == ""
  {
    assert Fold("") == "";
    assert TrimStart("") == "";
  }

  /** Normalised text never contains an accented Latin-1 letter: every one
      of them was folded to its base. */
  lemma NormalizeHasNoAccents(s: string, k: int)
    requires 0 <= k < |Normalize(s)|
    ensures Normalize(s)[k] != '\U{00E9}' && Normalize(s)[k] != '\U{00C9}'
  {
    FoldHasNoAccents(s);
    var f := Fold(s);
    var r := Normalize(s);
    assert r[k] == f[TrimOffset(f) + k];
  }

  lemma {:induction false} FoldHasNoAccents(s: string)
    ensures forall k :: 0 <= k < |Fold(s)| ==> Fold(s)[k] != '\U{00E9}' && Fold(s)[k] != '\U{00C9}'
  {
    if s != [] {
      FoldHasNoAccents(s[1..]);
    }
  }

  // ---------------------------------------------------------------------
  // Substrings

  predicate OccursAt(s: string, t: string, i: int) {
    0 <= i && i + |t| <= |s| && s[i..i + |t|] == t
  }

  /** `String.prototype.includes`. */
  function Contains(s: string, t: string): (r: bool)
    ensures r <==> exists i :: OccursAt(s, t, i)
    decreases |s|
  {
    if |t| <= |s| && s[..|t|] == t then
      assert OccursAt(s, t, 0);
      true
    else if s == [] then
      assert forall i :: !OccursAt(s, t, i);
      false
    else
      var rest := Contains(s[1..], t);
      assert forall i :: OccursAt(s[1..], t, i) ==> OccursAt(s, t, i + 1);
      assert forall i :: OccursAt(s, t, i) && i >= 1 ==> OccursAt(s[1..], t, i - 1);
      rest
  }

  // ---------------------------------------------------------------------
  // String ordering

  /** JavaScript's `a < b` on strings: lexicographic by character code. */
  predicate LexLess(a: string, b: string) {
    if b == [] then false
    else if a == [] then true
    else if a[0] != b[0] then a[0] < b[0]
    else LexLess(a[1..], b[1..])
  }

  lemma {:induction false} LexLessIrreflexive(a: string)
    ensures !LexLess(a, a)
  {
    if a != [] {
      LexLessIrreflexive(a[1..]);
    }
  }

  /** Any two distinct strings are ordered one way or the other. */
  lemma {:induction false} LexLessTotal(a: string, b: string)
    requires a != b
    ensures LexLess(a, b) || LexLess(b, a)
  {
    if a != [] && b != [] && a[0] == b[0] {
      assert a == [a[0]] + a[1..] && b == [b[0]] + b[1..];
      LexLessTotal(a[1..], b[1..]);
    }
  }

  lemma {:induction false} LexLessTransitive(a: string, b: string, c: string)
    requires LexLess(a, b) && LexLess(b, c)
    ensures LexLess(a, c)
  {
    if a != [] && a[0] == b[0] && b[0] == c[0] {
      LexLessTransitive(a[1..], b[1..], c[1..]);
    }
  }

  // ---------------------------------------------------------------------
  // Decimal numerals

  predicate IsDigit(c: char) {
    '0' <= c <= '9'
  }

  predicate AllDigits(s: string) {
    forall i :: 0 <= i < |s| ==> IsDigit(s[i])
  }

  function DigitChar(d: int): char
    requires 0 <= d <= 9
  {
    ('0' as int + d) as char
  }

  /** Value of a string of decimal digits (`parseInt(s, 10)` on digits). */
  function DecimalValue(s: string): (v: nat)
    requires AllDigits(s)
  {
    if s == [] then 0 else 10 * DecimalValue(s[..|s| - 1]) + (s[|s| - 1] as int - '0' as int)
  }

  /** Decimal representation of a natural number, without leading zeros. */
  function NatToString(n: nat): (r: string)
    ensures |r| >= 1 && AllDigits(r)
    ensures DecimalValue(r) == n
    ensures |r| > 1 ==> r[0] != '0'
  {
    if n < 10 then [DigitChar(n)]
    else
      var r := NatToString(n / 10) + [DigitChar(n % 10)];
      assert r[..|r| - 1] == NatToString(n / 10);
      r
  }

  /** `String(n)` for an integer. */
  function IntToString(i: int): (r: string)
    ensures i >= 0 ==> r == NatToString(i)
    ensures i < 0 ==> r == "-" + NatToString(-i)
  {
    if i >= 0 then NatToString(i) else "-" + NatToString(-i)
  }

  lemma {:induction false} NatToStringLength(n: nat)
    ensures n < 10 ==> |NatToString(n)| == 1
    ensures 10 <= n < 100 ==> |NatToString(n)| == 2
    ensures 100 <= n < 1000 ==> |NatToString(n)| == 3
    ensures 1000 <= n < 10000 ==> |NatToString(n)| == 4
  {
    if n >= 10 {
      NatToStringLength(n / 10);
      assert |NatToString(n)| == |NatToString(n / 10)| + 1;
      assert n < 100 ==> n / 10 < 10;
      assert 100 <= n < 1000 ==> 10 <= n / 10 < 100;
      assert 1000 <= n < 10000 ==> 100 <= n / 10 < 1000;
    }
  }

  /** Numerals are unambiguous: different numbers, different strings. */
  lemma NatToStringInjective(a: nat, b: nat)
    requires NatToString(a) == NatToString(b)
    ensures a == b
  {
  }

  /** `padStart(2, '0')`. */
  function PadStart2(s: string): (r: string)
    ensures |s| >= 2 ==> r == s
    ensures |s| < 2 ==> |r| == 2 && r[2 - |s|..] == s && forall i :: 0 <= i < 2 - |s| ==> r[i] == '0'
  {
    if |s| >= 2 then s else if |s| == 1 then "0" + s else "00"
  }

  /** A two-digit zero-padded numeral reads back as the number. */
  lemma PadStart2Value(n: nat)
    requires n < 100
    ensures |PadStart2(NatToString(n))| == 2
    ensures AllDigits(PadStart2(NatToString(n)))
    ensures DecimalValue(PadStart2(NatToString(n))) == n
  {
    NatToStringLength(n);
    var s := NatToString(n);
    if n < 10 {
      var p := PadStart2(s);
      assert p[..1] == "0";
    }
  }
}

=== FILE: values.dfy ===
/** The JavaScript values that flow through the ingestion pipeline, their
    truthiness and their string conversion, and the environment that the
    browser supplies (the clock, the engine's date parser and printer). */
module Values {
  import opened Results
  import opened Text
  import opened Calendar

  /** A JavaScript value as it appears in a sheet cell or a task property.
      Numbers are integral; `null` and `undefined` are one value. */
  datatype Value =
    | Undefined
    | Str(s: string)
    | Num(n: int)
    | Bool(b: bool)
    | DateObj(day: Day)   // a valid Date object at local midnight
    | InvalidDate         // a Date object whose time value is NaN
    | Obj                 // any other object, such as a metrics record

  /** JavaScript truthiness. */
  predicate Truthy(v: Value) {
    match v
    case Undefined => false
    case Str(s) => s != []
    case Num(n) => n != 0
    case Bool(b) => b
    case _ => true
  }

  /** `v || fallback`: the value itself when truthy, the fallback otherwise,
      so the result is truthy exactly when one of the two is. */
  function OrElse(v: Value, fallback: Value): (r: Value)
    ensures Truthy(v) ==> r == v
    ensures !Truthy(v) ==> r == fallback
    ensures Truthy(r) <==> Truthy(v) || Truthy(fallback)
  {
    if Truthy(v) then v else fallback
  }

  /** The property names every plain object inherits from
      `Object.prototype`.  Reading one off an object that lacks an own
      property of that name yields a function or `Object.prototype`
      itself, never `undefined`. */
  const InheritedKeys: set<string> := {
    "constructor", "__defineGetter__", "__defineSetter__", "hasOwnProperty",
    "__lookupGetter__", "__lookupSetter__", "isPrototypeOf", "propertyIsEnumerable",
    "toString", "valueOf", "__proto__", "toLocaleString" }

  /** The accessor property whose setter replaces an object's prototype;
      assigning it a primitive does nothing, so it never becomes an own
      property that way. */
  const ProtoKey: string := "__proto__"

  /** What the browser provides and the model cannot compute: the current
      day (`new Date()` at midnight), the engine's fallback parse of date
      text (`new Date(text)`, `None` for an Invalid Date) and the engine's
      `Date.prototype.toString`. */
  datatype Env = Env(today: Day, parseText: string -> Option<Day>, showDate: Day -> string)

  /** `String(v)`. */
  function ToStr(env: Env, v: Value): string {
    match v
    case Undefined => "undefined"
    case Str(s) => s
    case Num(n) => IntToString(n)
    case Bool(b) => if b then "true" else "false"
    case DateObj(d) => env.showDate(d)
    case InvalidDate => "Invalid Date"
    case Obj => "[object Object]"
  }

  /** `normalizeStr(v)`: `String(v || '')` normalised. */
  function NormalizeValue(env: Env, v: Value): (r: string)
    ensures !Truthy(v) ==> r == ""
    ensures v.Str? ==> r == Normalize(v.s)
  {
    if !Truthy(v) then
      NormalizeEmpty();
      assert ToStr(env, OrElse(v, Str(""))) == "";
      ""
    else
      Normalize(ToStr(env, v))
  }
}

=== FILE: views.dfy ===
/** The derived views over the task list: the filtered and sorted table,
    the column-header sort toggle, the task-name dropdown, and the two
    statistics panels. */
module Views {
  import opened Results
  import opened Text
  import opened Values
  import opened Status
  import opened Metrics
  import opened Tasks
  import opened Seqs
  import opened Sorting

  // ---------------------------------------------------------------------
  // Filtering

  /** The status filter buttons; any other filter value shows every task. */
  datatype Category = AllTasks | DelayedOnly | CompletedOnly | InProgressOnly | ReappearedOnly | DeadlineNowOnly

  /** The search box, the task-name dropdown and the status filter. */
  datatype Query = Query(term: string, taskName: string, category: Category)

  /** `v.toLowerCase()`: only a string has the method; on `undefined` or
      a number the call throws a TypeError. */
  function LowerOf(v: Value): (r: Outcome<string>)
    ensures r.Ok? <==> v.Str?
    ensures v.Str? ==> r == Ok(Lower(v.s))
  {
    if v.Str? then Ok(Lower(v.s)) else Error("TypeError: toLowerCase is not a function")
  }

  /** `task.name.toLowerCase().includes(term) ||
      task.assignee.toLowerCase().includes(term)`, the term lower-cased:
      the assignee is read only when the name does not match. */
  function MatchesSearch(t: Task, term: string): Outcome<bool> {
    match LowerOf(t.name)
    case Error(e) => Error(e)
    case Ok(n) =>
      if Contains(n, Lower(term)) then Ok(true)
      else
        match LowerOf(Get(t, "assignee"))
        case Error(e) => Error(e)
        case Ok(a) => Ok(Contains(a, Lower(term)))
  }

  /** The search throws unless the name is a string, matches when the
      name contains the term, and otherwise needs a string assignee and
      answers whether it contains the term, all case-insensitively. */
  lemma SearchOutcome(t: Task, term: string)
    ensures !t.name.Str? ==> MatchesSearch(t, term).Error?
    ensures t.name.Str? && Contains(Lower(t.name.s), Lower(term)) ==> MatchesSearch(t, term) == Ok(true)
    ensures t.name.Str? && !Contains(Lower(t.name.s), Lower(term))
            ==> (MatchesSearch(t, term).Ok? <==> Get(t, "assignee").Str?)
                && (MatchesSearch(t, term).Ok? ==> MatchesSearch(t, term).value == Contains(Lower(Get(t, "assignee").s), Lower(term)))
  {
  }

  /** `taskNameFilter === 'all' || task.name === taskNameFilter`. */
  predicate NameMatches(t: Task, taskName: string) {
    taskName == "all" || t.name == Str(taskName)
  }

  /** The status filter's test. */
  predicate InCategory(env: Env, t: Task, c: Category) {
    match c
    case AllTasks => true
    case DelayedOnly => t.isDelayed
    case CompletedOnly => IsCompleted(env, t.status)
    case InProgressOnly => IsInProgress(env, t.status)
    case ReappearedOnly => IsReappeared(env, t.status)
    case DeadlineNowOnly => t.timeMetrics.display == DeadlineNowText
  }

  /** Whether the filter callback keeps the task, when it does not throw. */
  predicate Selected(env: Env, t: Task, q: Query) {
    MatchesSearch(t, q.term) == Ok(true) && NameMatches(t, q.taskName) && InCategory(env, t, q.category)
  }

  /** A filter whose callback may throw: the kept elements in order, or
      the error of the first element whose test throws. */
  function TryFilter<T(!new)>(s: seq<T>, test: T -> Outcome<bool>, keep: T -> bool): (r: Outcome<seq<T>>)
    ensures r.Ok? <==> forall i :: 0 <= i < |s| ==> test(s[i]).Ok?
    ensures r.Ok? ==> r.value == Filter(s, keep)
    ensures r.Error? ==> exists i :: 0 <= i < |s| && test(s[i]) == Error(r.message)
                                     && forall j :: 0 <= j < i ==> test(s[j]).Ok?
  {
    if s == [] then Ok([])
    else if test(s[0]).Error? then Error(test(s[0]).message)
    else
      var rest := TryFilter(s[1..], test, keep);
      assert forall i :: 1 <= i < |s| ==> s[i] == s[1..][i - 1];
      if rest.Error? then Error(rest.message)
      else Ok((if keep(s[0]) then [s[0]] else []) + rest.value)
  }

  /** The filter callback, when it does not throw. */
  function SelectedBy(env: Env, q: Query): Task -> bool {
    (t: Task) => Selected(env, t, q)
  }

  /** `tasks.filter(...)`: the selected tasks in order, or the TypeError
      of the first task whose search test throws. */
  function FilterTasks(env: Env, ts: seq<Task>, q: Query): (r: Outcome<seq<Task>>)
    ensures r.Ok? <==> forall i :: 0 <= i < |ts| ==> MatchesSearch(ts[i], q.term).Ok?
    ensures r.Ok? ==> r.value == Filter(ts, SelectedBy(env, q))
  {
    TryFilter(ts, (t: Task) => MatchesSearch(t, q.term), SelectedBy(env, q))
  }

  /** An empty search matches every task whose name is a string. */
  lemma EmptySearchMatches(t: Task, term: string)
    requires term == [] && t.name.Str?
    ensures MatchesSearch(t, term) == Ok(true)
  {
    assert OccursAt(Lower(t.name.s), Lower(term), 0);
  }

  /** The search throws on any task whose name misses the term when the
      task has no string "assignee" property, which is the case for every
      sheet without an "assignee" header. */
  lemma SearchThrowsWithoutAssignee(t: Task, term: string)
    requires t.name.Str? && !Contains(Lower(t.name.s), Lower(term))
    requires !Get(t, "assignee").Str?
    ensures MatchesSearch(t, term).Error?
  {
  }

  /** A task whose name is a number (a truthy numeric cell in the name
      column) makes the whole filter throw, whatever the query. */
  lemma NumericNameThrows(env: Env, ts: seq<Task>, q: Query, i: nat)
    requires i < |ts| && ts[i].name.Num?
    ensures FilterTasks(env, ts, q).Error?
  {
  }

  // ---------------------------------------------------------------------
  // Sorting

  datatype Direction = Asc | Desc

  /** `sortConfig`: no key at first. */
  datatype SortConfig = SortConfig(key: Option<string>, direction: Direction)

  /** What the comparator looks at: the number, when the value is one,
      and the lower-cased text. */
  datatype SortKey = SortKey(num: Option<int>, text: string)

  /** The number that orders the "Delay / running days" column:
      `raw || -999999`, so a raw 0 and a NaN rank as the default. */
  const NoRaw: int := -999999

  function RawOrDefault(m: Metric): (k: int)
    ensures m.raw.Days? && m.raw.n != 0 ==> k == m.raw.n
    ensures m.raw == NaN || m.raw == Days(0) ==> k == NoRaw
  {
    if m.raw.Days? && m.raw.n != 0 then m.raw.n else NoRaw
  }

  /** The sort key of a task for column `key`: `undefined` becomes "". */
  function KeyOf(env: Env, t: Task, key: string): (k: SortKey)
    ensures key == "timeMetrics" ==> k.num == Some(RawOrDefault(t.timeMetrics))
    ensures key != "timeMetrics" ==> (k.num.Some? <==> Get(t, key).Num?)
  {
    if key == "timeMetrics" then SortKey(Some(RawOrDefault(t.timeMetrics)), "")
    else
      var v := Get(t, key);
      var v' := if v.Undefined? then Str("") else v;
      SortKey(if v'.Num? then Some(v'.n) else None, Lower(ToStr(env, v')))
  }

  /** The comparator's result: numbers by difference, otherwise strings by
      `<` and `>`, negated for a descending sort. */
  function Compare(dir: Direction, a: SortKey, b: SortKey): int {
    var base :=
      if a.num.Some? && b.num.Some? then a.num.value - b.num.value
      else if LexLess(a.text, b.text) then -1
      else if LexLess(b.text, a.text) then 1
      else 0;
    if dir == Asc then base else -base
  }

  /** `a` may stay before `b`: the comparator returns at most 0. */
  function TaskLe(env: Env, key: string, dir: Direction): (Task, Task) -> bool {
    (a: Task, b: Task) => Compare(dir, KeyOf(env, a, key), KeyOf(env, b, key)) <= 0
  }

  /** `result.sort(...)` when a sort key is set. */
  function SortTasks(env: Env, cfg: SortConfig, ts: seq<Task>): (r: seq<Task>)
    ensures multiset(r) == multiset(ts)
  {
    if cfg.key.Some? && cfg.key.value != "" then InsertionSort(ts, TaskLe(env, cfg.key.value, cfg.direction))
    else ts
  }

  /** The table's rows: filter, then sort. */
  function FilteredTasks(env: Env, ts: seq<Task>, q: Query, cfg: SortConfig): (r: Outcome<seq<Task>>)
    ensures r.Ok? <==> forall i :: 0 <= i < |ts| ==> MatchesSearch(ts[i], q.term).Ok?
    ensures r.Ok? ==> multiset(r.value) == multiset(Filter(ts, SelectedBy(env, q)))
    ensures r.Ok? && (cfg.key.None? || cfg.key.value == "") ==> r.value == Filter(ts, SelectedBy(env, q))
  {
    match FilterTasks(env, ts, q)
    case Error(e) => Error(e)
    case Ok(kept) => Ok(SortTasks(env, cfg, kept))
  }

  lemma LexLessAsymmetric(a: string, b: string)
    requires LexLess(a, b)
    ensures !LexLess(b, a)
  {
    if LexLess(b, a) {
      LexLessTransitive(a, b, a);
      LexLessIrreflexive(a);
    }
  }

  /** Descending order is ascending order reversed: `a` may precede `b`
      descending exactly when `b` may precede `a` ascending. */
  lemma DescendingReverses(env: Env, key: string, a: Task, b: Task)
    ensures TaskLe(env, key, Desc)(a, b) <==> TaskLe(env, key, Asc)(b, a)
  {
    var ka := KeyOf(env, a, key);
    var kb := KeyOf(env, b, key);
    if LexLess(ka.text, kb.text) {
      LexLessAsymmetric(ka.text, kb.text);
    }
    if LexLess(kb.text, ka.text) {
      LexLessAsymmetric(kb.text, ka.text);
    }
  }

  /** The string comparison ranks two keys equal only when their texts
      are equal. */
  lemma TextTie(a: SortKey, b: SortKey)
    requires !LexLess(a.text, b.text) && !LexLess(b.text, a.text)
    ensures a.text == b.text
  {
    if a.text != b.text {
      LexLessTotal(a.text, b.text);
    }
  }

  /** Keys that are all numbers or all non-numbers. */
  predicate Uniform(env: Env, key: string, ts: seq<Task>) {
    (forall i :: 0 <= i < |ts| ==> KeyOf(env, ts[i], key).num.Some?)
    || (forall i :: 0 <= i < |ts| ==> KeyOf(env, ts[i], key).num.None?)
  }

  lemma NumericCompareTransitive(dir: Direction, a: SortKey, b: SortKey, c: SortKey)
    requires a.num.Some? && b.num.Some? && c.num.Some?
    requires Compare(dir, a, b) <= 0 && Compare(dir, b, c) <= 0
    ensures Compare(dir, a, c) <= 0
  {
  }

  /** "Not after" on strings is transitive. */
  lemma NotAfterTransitive(x: string, y: string, z: string)
    requires !LexLess(y, x) && !LexLess(z, y)
    ensures !LexLess(z, x)
  {
    if x != y && y != z {
      LexLessTotal(x, y);
      LexLessTotal(y, z);
      LexLessTransitive(x, y, z);
      LexLessAsymmetric(x, z);
    }
  }

  lemma TextCompareTransitive(dir: Direction, a: SortKey, b: SortKey, c: SortKey)
    requires a.num.None? && b.num.None? && c.num.None?
    requires Compare(dir, a, b) <= 0 && Compare(dir, b, c) <= 0
    ensures Compare(dir, a, c) <= 0
  {
    var x, y, z := a.text, b.text, c.text;
    if dir == Asc {
      if LexLess(x, y) {
        LexLessAsymmetric(x, y);
      }
      if LexLess(y, z) {
        LexLessAsymmetric(y, z);
      }
      NotAfterTransitive(x, y, z);
    } else {
      NotAfterTransitive(z, y, x);
    }
  }

  lemma CompareTotal(dir: Direction, a: SortKey, b: SortKey)
    ensures Compare(dir, a, b) <= 0 || Compare(dir, b, a) <= 0
  {
    if !(a.num.Some? && b.num.Some?) && LexLess(a.text, b.text) {
      LexLessAsymmetric(a.text, b.text);
    }
  }

  /** With uniform keys the comparator is consistent, so the sorted table
      is ordered, a permutation, and keeps tied rows in their filtered
      order. */
  lemma UniformSortIsConsistent(env: Env, key: string, dir: Direction, ts: seq<Task>)
    requires Uniform(env, key, ts)
    ensures Preorder(ts, TaskLe(env, key, dir))
    ensures Sorted(InsertionSort(ts, TaskLe(env, key, dir)), TaskLe(env, key, dir))
  {
    var le := TaskLe(env, key, dir);
    forall a, b | a in ts && b in ts ensures le(a, b) || le(b, a) {
      CompareTotal(dir, KeyOf(env, a, key), KeyOf(env, b, key));
    }
    forall a, b, c | a in ts && b in ts && c in ts && le(a, b) && le(b, c) ensures le(a, c) {
      var ka, kb, kc := KeyOf(env, a, key), KeyOf(env, b, key), KeyOf(env, c, key);
      var i :| 0 <= i < |ts| && ts[i] == a;
      var j :| 0 <= j < |ts| && ts[j] == b;
      var k :| 0 <= k < |ts| && ts[k] == c;
      if ka.num.Some? {
        assert kb.num.Some? && kc.num.Some?;
        NumericCompareTransitive(dir, ka, kb, kc);
      } else {
        assert kb.num.None? && kc.num.None?;
        TextCompareTransitive(dir, ka, kb, kc);
      }
    }
    SortSorted(ts, le);
  }

  /** With a sort key whose values are all numbers or all non-numbers
      among the selected tasks, the table's rows come out ordered by the
      comparator. */
  lemma FilteredTasksSorted(env: Env, ts: seq<Task>, q: Query, cfg: SortConfig)
    requires cfg.key.Some? && cfg.key.value != ""
    requires Uniform(env, cfg.key.value, Filter(ts, SelectedBy(env, q)))
    ensures FilteredTasks(env, ts, q, cfg).Ok?
            ==> Sorted(FilteredTasks(env, ts, q, cfg).value, TaskLe(env, cfg.key.value, cfg.direction))
  {
    UniformSortIsConsistent(env, cfg.key.value, cfg.direction, Filter(ts, SelectedBy(env, q)));
  }

  /** Sorting by the delay column always uses numbers. */
  lemma DelayColumnIsUniform(env: Env, ts: seq<Task>)
    ensures Uniform(env, "timeMetrics", ts)
  {
  }

  /** Numbers against text break the comparator: with the values 2, 10
      and "1a" in one column, ascending order wants 2 before 10 (numbers),
      10 before "1a" and "1a" before 2 (strings), a cycle. */
  lemma MixedKeysCycle(two: SortKey, ten: SortKey, oneA: SortKey)
    requires two == SortKey(Some(2), "2") && ten == SortKey(Some(10), "10") && oneA == SortKey(None, "1a")
    ensures Compare(Asc, two, ten) < 0 && Compare(Asc, ten, oneA) < 0 && Compare(Asc, oneA, two) < 0
  {
    assert LexLess(ten.text[1..], oneA.text[1..]);
    assert LexLess(oneA.text, two.text);
  }

  /** In the delay column a task showing "Deadline Now" or "OK" (raw 0)
      ranks with the undated ones, below every task with a real count
      above the default. */
  lemma ZeroRawRanksAsMissing(env: Env, a: Task, b: Task)
    requires a.timeMetrics.raw == Days(0)
    requires b.timeMetrics.raw.Days? && b.timeMetrics.raw.n != 0 && b.timeMetrics.raw.n > NoRaw
    ensures Compare(Asc, KeyOf(env, a, "timeMetrics"), KeyOf(env, b, "timeMetrics")) < 0
  {
  }

  // ---------------------------------------------------------------------
  // The sort toggle

  /** `handleSort(key)`: a click sorts ascending by the column, and a
      second click on an ascending column turns it descending. */
  function HandleSort(cfg: SortConfig, key: string): (r: SortConfig)
    ensures r.key == Some(key)
    ensures r.direction == Desc <==> cfg == SortConfig(Some(key), Asc)
  {
    if cfg.key == Some(key) && cfg.direction == Asc then SortConfig(Some(key), Desc)
    else SortConfig(Some(key), Asc)
  }

  /** Clicks on one column alternate: a third click undoes the second. */
  lemma SortToggleAlternates(cfg: SortConfig, key: string)
    ensures HandleSort(HandleSort(cfg, key), key) != HandleSort(cfg, key)
    ensures HandleSort(HandleSort(HandleSort(cfg, key), key), key) == HandleSort(cfg, key)
  {
  }

  // ---------------------------------------------------------------------
  // The task-name dropdown

  function Names(ts: seq<Task>): (ns: seq<Value>)
    ensures |ns| == |ts| && forall i :: 0 <= i < |ts| ==> ns[i] == ts[i].name
  {
    seq(|ts|, i requires 0 <= i < |ts| => ts[i].name)
  }

  /** `['all', ...new Set(tasks.map(t => t.name).filter(Boolean))]`. */
  function UniqueTaskNames(ts: seq<Task>): (r: seq<Value>)
    ensures r != [] && r[0] == Str("all")
    ensures Distinct(r[1..])
    ensures forall v :: v in r[1..] <==> Truthy(v) && exists i :: 0 <= i < |ts| && ts[i].name == v
  {
    var d := Dedup(Filter(Names(ts), Truthy));
    assert ([Str("all")] + d)[1..] == d;
    forall v ensures v in d <==> Truthy(v) && exists i :: 0 <= i < |ts| && ts[i].name == v {
      if Truthy(v) && exists i :: 0 <= i < |ts| && ts[i].name == v {
        var i :| 0 <= i < |ts| && ts[i].name == v;
        assert Names(ts)[i] == v;
      }
    }
    [Str("all")] + d
  }

  /** A task called "all" is listed in the dropdown, but choosing it
      selects every task: the name filter cannot tell it from "all". */
  lemma TaskNamedAllSelectsEverything(t: Task, u: Task, name: string)
    requires name == "all" && t.name == Str(name)
    ensures NameMatches(t, name) && NameMatches(u, name)
  {
  }

  // ---------------------------------------------------------------------
  // Statistics

  predicate Delayed(t: Task) {
    t.isDelayed
  }

  predicate DueNow(t: Task) {
    t.timeMetrics.display == DeadlineNowText
  }

  /** The summary cards. */
  datatype Stats = Stats(total: nat, delayed: nat, completed: nat, deadlineNow: nat, inProgress: nat)

  /** `stats`: the in-progress card leaves out tasks already counted as
      "Deadline Now". */
  function StatsOf(env: Env, ts: seq<Task>): (s: Stats)
    ensures s.total == |ts|
    ensures s.delayed <= s.total && s.completed <= s.total && s.deadlineNow <= s.total && s.inProgress <= s.total
  {
    var st := Stats(|ts|, Count(ts, Delayed), Count(ts, (t: Task) => IsCompleted(env, t.status)),
                    Count(ts, DueNow), Count(ts, (t: Task) => IsInProgress(env, t.status) && !DueNow(t)));
    CountBound(ts, Delayed);
    CountBound(ts, (t: Task) => IsCompleted(env, t.status));
    CountBound(ts, DueNow);
    CountBound(ts, (t: Task) => IsInProgress(env, t.status) && !DueNow(t));
    st
  }

  /** Counting with pointwise-equal conditions gives the same number. */
  lemma CountSame(ts: seq<Task>, p: Task -> bool, q: Task -> bool)
    requires forall i :: 0 <= i < |ts| ==> (p(ts[i]) <==> q(ts[i]))
    ensures Count(ts, p) == Count(ts, q)
  {
    CountMono(ts, p, q);
    CountMono(ts, q, p);
  }

  /** The query of a status button with no search and no name filter. */
  function ButtonQuery(c: Category): Query {
    Query("", "all", c)
  }

  lemma ButtonSelects(env: Env, ts: seq<Task>, c: Category)
    requires forall i :: 0 <= i < |ts| ==> ts[i].name.Str?
    ensures FilterTasks(env, ts, ButtonQuery(c)).Ok?
    ensures |FilterTasks(env, ts, ButtonQuery(c)).value| == Count(ts, (t: Task) => InCategory(env, t, c))
  {
    forall i | 0 <= i < |ts| ensures MatchesSearch(ts[i], "") == Ok(true) {
      EmptySearchMatches(ts[i], "");
    }
    var q := ButtonQuery(c);
    FilterLength(ts, SelectedBy(env, q));
    CountSame(ts, SelectedBy(env, q), (t: Task) => InCategory(env, t, c));
  }

  lemma DelayedCardMatches(env: Env, ts: seq<Task>)
    requires forall i :: 0 <= i < |ts| ==> ts[i].name.Str?
    ensures StatsOf(env, ts).delayed == |FilterTasks(env, ts, ButtonQuery(DelayedOnly)).value|
  {
    ButtonSelects(env, ts, DelayedOnly);
    CountSame(ts, (t: Task) => InCategory(env, t, DelayedOnly), Delayed);
  }

  lemma CompletedCardMatches(env: Env, ts: seq<Task>)
    requires forall i :: 0 <= i < |ts| ==> ts[i].name.Str?
    ensures StatsOf(env, ts).completed == |FilterTasks(env, ts, ButtonQuery(CompletedOnly)).value|
  {
    ButtonSelects(env, ts, CompletedOnly);
    CountSame(ts, (t: Task) => InCategory(env, t, CompletedOnly), (t: Task) => IsCompleted(env, t.status));
  }

  lemma DeadlineNowCardMatches(env: Env, ts: seq<Task>)
    requires forall i :: 0 <= i < |ts| ==> ts[i].name.Str?
    ensures StatsOf(env, ts).deadlineNow == |FilterTasks(env, ts, ButtonQuery(DeadlineNowOnly)).value|
  {
    ButtonSelects(env, ts, DeadlineNowOnly);
    CountSame(ts, (t: Task) => InCategory(env, t, DeadlineNowOnly), DueNow);
  }

  lemma InProgressCardMatches(env: Env, ts: seq<Task>)
    requires forall i :: 0 <= i < |ts| ==> ts[i].name.Str?
    ensures StatsOf(env, ts).inProgress + Count(ts, (t: Task) => IsInProgress(env, t.status) && DueNow(t))
            == |FilterTasks(env, ts, ButtonQuery(InProgressOnly)).value|
  {
    ButtonSelects(env, ts, InProgressOnly);
    CountDisjoint(ts, (t: Task) => IsInProgress(env, t.status) && !DueNow(t), (t: Task) => IsInProgress(env, t.status) && DueNow(t),
                  (t: Task) => InCategory(env, t, InProgressOnly));
  }

  /** The cards agree with the status buttons: the delayed, completed and
      "Deadline Now" cards count the rows their button shows, while the
      in-progress button also shows in-progress tasks due today. */
  lemma StatsMatchButtons(env: Env, ts: seq<Task>)
    requires forall i :: 0 <= i < |ts| ==> ts[i].name.Str?
    ensures var s := StatsOf(env, ts);
            s.delayed == |FilterTasks(env, ts, ButtonQuery(DelayedOnly)).value|
            && s.completed == |FilterTasks(env, ts, ButtonQuery(CompletedOnly)).value|
            && s.deadlineNow == |FilterTasks(env, ts, ButtonQuery(DeadlineNowOnly)).value|
            && s.inProgress + Count(ts, (t: Task) => IsInProgress(env, t.status) && DueNow(t))
               == |FilterTasks(env, ts, ButtonQuery(InProgressOnly)).value|
  {
    DelayedCardMatches(env, ts);
    CompletedCardMatches(env, ts);
    DeadlineNowCardMatches(env, ts);
    InProgressCardMatches(env, ts);
  }

  // ---------------------------------------------------------------------
  // Per-task-name statistics

  datatype TypeCounts = TypeCounts(total: nat, delayed: nat, completed: nat, inProgress: nat, reappeared: nat, deadlineNow: nat)

  const NoCounts: TypeCounts := TypeCounts(0, 0, 0, 0, 0, 0)

  function Bump(b: bool): nat {
    if b then 1 else 0
  }

  /** One task's contribution: the status is counted under the first of
      completed, in progress (unless due today) and reappeared that
      applies. */
  function AddTask(env: Env, c: TypeCounts, t: Task): TypeCounts {
    var completed := IsCompleted(env, t.status);
    var inProgress := !completed && IsInProgress(env, t.status) && !DueNow(t);
    var reappeared := !completed && !inProgress && IsReappeared(env, t.status);
    TypeCounts(c.total + 1, c.delayed + Bump(t.isDelayed), c.completed + Bump(completed),
               c.inProgress + Bump(inProgress), c.reappeared + Bump(reappeared), c.deadlineNow + Bump(DueNow(t)))
  }

  /** The property key of a task's name. */
  function NameKey(env: Env, t: Task): string {
    ToStr(env, t.name)
  }

  /** `taskTypeStats`: the tasks visited in order, unnamed ones skipped,
      each added to the record of its name.  A name that is an inherited
      property name finds the inherited value truthy, so no record is
      created for it and its counts go to that inherited object, outside
      the map. */
  function TypeStats(env: Env, ts: seq<Task>): map<string, TypeCounts> {
    if ts == [] then map[]
    else
      var m := TypeStats(env, ts[..|ts| - 1]);
      var t := ts[|ts| - 1];
      var k := NameKey(env, t);
      if !Truthy(t.name) || k in InheritedKeys then m
      else m[k := AddTask(env, if k in m then m[k] else NoCounts, t)]
  }

  /** The tasks listed under name key `k`; none are for an inherited
      property name. */
  function NamedAs(env: Env, k: string): Task -> bool {
    (t: Task) => Truthy(t.name) && NameKey(env, t) == k && k !in InheritedKeys
  }

  /** The record a list of tasks should produce: its length and the
      counts of each category, the status categories exclusive. */
  function Counts(env: Env, s: seq<Task>): TypeCounts {
    TypeCounts(|s|, Count(s, Delayed), Count(s, (t: Task) => IsCompleted(env, t.status)),
               Count(s, (t: Task) => IsInProgress(env, t.status) && !DueNow(t)),
               Count(s, (t: Task) => IsReappeared(env, t.status)), Count(s, DueNow))
  }

  /** What the record of name `k` should hold: the counts over that
      name's tasks. */
  function Expected(env: Env, ts: seq<Task>, k: string): TypeCounts {
    Counts(env, Filter(ts, NamedAs(env, k)))
  }

  lemma CountSnoc(s: seq<Task>, x: Task, p: Task -> bool)
    ensures Count(s + [x], p) == Count(s, p) + Bump(p(x))
  {
    CountConcat(s, [x], p);
  }

  lemma {:induction false} CountConcat(a: seq<Task>, b: seq<Task>, p: Task -> bool)
    ensures Count(a + b, p) == Count(a, p) + Count(b, p)
  {
    if a == [] {
      assert a + b == b;
    } else {
      assert (a + b)[1..] == a[1..] + b;
      CountConcat(a[1..], b, p);
    }
  }

  /** Adding one task to the record counts it in exactly the categories
      the summary cards would. */
  lemma CountsSnoc(env: Env, s: seq<Task>, t: Task)
    ensures Counts(env, s + [t]) == AddTask(env, Counts(env, s), t)
  {
    StatusExclusive(env, t.status);
    CountSnoc(s, t, Delayed);
    CountSnoc(s, t, (u: Task) => IsCompleted(env, u.status));
    CountSnoc(s, t, (u: Task) => IsInProgress(env, u.status) && !DueNow(u));
    CountSnoc(s, t, (u: Task) => IsReappeared(env, u.status));
    CountSnoc(s, t, DueNow);
  }

  /** One more task changes only its own name's record, by exactly its
      contribution. */
  lemma ExpectedSnoc(env: Env, ts: seq<Task>, t: Task, k: string)
    ensures NamedAs(env, k)(t) ==> Expected(env, ts + [t], k) == AddTask(env, Expected(env, ts, k), t)
    ensures !NamedAs(env, k)(t) ==> Expected(env, ts + [t], k) == Expected(env, ts, k)
  {
    var p := NamedAs(env, k);
    FilterConcat(ts, [t], p);
    if p(t) {
      assert Filter([t], p) == [t];
      CountsSnoc(env, Filter(ts, p), t);
    } else {
      assert Filter([t], p) == [];
      assert Filter(ts, p) + [] == Filter(ts, p);
    }
  }

  lemma ExpectedEmpty(env: Env, k: string)
    ensures Expected(env, [], k) == NoCounts
  {
  }

  /** Some task is listed under name key `k`. */
  predicate HasNamed(env: Env, ts: seq<Task>, k: string) {
    exists i :: 0 <= i < |ts| && NamedAs(env, k)(ts[i])
  }

  /** One more task touches only the record of its own name. */
  lemma TypeStatsSnoc(env: Env, ts: seq<Task>, t: Task, k: string)
    ensures var m, m' := TypeStats(env, ts), TypeStats(env, ts + [t]);
            (NamedAs(env, k)(t) ==> k in m' && m'[k] == AddTask(env, if k in m then m[k] else NoCounts, t))
            && (!NamedAs(env, k)(t) ==> (k in m' <==> k in m) && (k in m ==> m'[k] == m[k]))
  {
    assert (ts + [t])[..|ts + [t]| - 1] == ts;
  }

  lemma HasNamedSnoc(env: Env, ts: seq<Task>, t: Task, k: string)
    ensures HasNamed(env, ts + [t], k) <==> HasNamed(env, ts, k) || NamedAs(env, k)(t)
  {
    var s := ts + [t];
    if HasNamed(env, ts, k) {
      var i :| 0 <= i < |ts| && NamedAs(env, k)(ts[i]);
      assert s[i] == ts[i];
    }
    if NamedAs(env, k)(t) {
      assert s[|ts|] == t;
    }
    if HasNamed(env, s, k) {
      var i :| 0 <= i < |s| && NamedAs(env, k)(s[i]);
      if i < |ts| {
        assert ts[i] == s[i];
      }
    }
  }

  lemma NoneNamedExpected(env: Env, ts: seq<Task>, k: string)
    requires !HasNamed(env, ts, k)
    ensures Expected(env, ts, k) == NoCounts
  {
    FilterNone(ts, NamedAs(env, k));
  }

  /** The per-name statistics are the counts over each name's tasks: a
      record exists exactly for the names of named tasks, and its
      categories are exclusive. */
  lemma {:induction false} TypeStatsCount(env: Env, ts: seq<Task>, k: string)
    ensures k in TypeStats(env, ts) <==> HasNamed(env, ts, k)
    ensures k in TypeStats(env, ts) ==> TypeStats(env, ts)[k] == Expected(env, ts, k)
  {
    if ts != [] {
      var init := ts[..|ts| - 1];
      var t := ts[|ts| - 1];
      assert init + [t] == ts;
      TypeStatsCount(env, init, k);
      TypeStatsSnoc(env, init, t, k);
      HasNamedSnoc(env, init, t, k);
      ExpectedSnoc(env, init, t, k);
      if !HasNamed(env, init, k) {
        NoneNamedExpected(env, init, k);
      }
    }
  }

  /** Each name's record agrees with the summary cards computed over that
      name's tasks alone. */
  lemma TypeStatsMatchStats(env: Env, ts: seq<Task>, k: string)
    requires k in TypeStats(env, ts)
    ensures var c := TypeStats(env, ts)[k];
            var s := StatsOf(env, Filter(ts, NamedAs(env, k)));
            c.total == s.total && c.delayed == s.delayed && c.completed == s.completed
            && c.inProgress == s.inProgress && c.deadlineNow == s.deadlineNow
  {
    TypeStatsCount(env, ts, k);
  }
}

=== FILE: workbook.dfy ===
/** `processWorkbook`: turns the first sheet's rows (as `sheet_to_json`
    with `header: 1` returns them) into the column list and the task
    records. */
module Workbook {
  import opened Results
  import opened Text
  import opened Values
  import opened Dates
  import opened Status
  import opened Metrics
  import opened Tasks

  // ---------------------------------------------------------------------
  // Column roles

  /** The five columns the application gives a meaning to. */
  datatype Role = NameRole | AssigneeRole | StatusRole | StartRole | DeadlineRole

  /** The words that name each role, English and accent-free French. */
  function Words(role: Role): seq<string> {
    match role
    case NameRole => ["task", "nom", "tache"]
    case AssigneeRole => ["assign", "responsable"]
    case StatusRole => ["status", "statut", "etat"]
    case StartRole => ["start", "debut"]
    case DeadlineRole => ["deadline", "fin", "echeance"]
  }

  /** Whether `h` contains one of `words`. */
  predicate AnyWord(h: string, words: seq<string>) {
    words != [] && (Contains(h, words[0]) || AnyWord(h, words[1..]))
  }

  /** Whether a normalised header text names a role: it contains one of
      the role's words. */
  predicate Matches(role: Role, h: string) {
    AnyWord(h, Words(role))
  }

  /** The first `true` at or after position `i`, or -1: `findIndex` over
      precomputed tests (`FirstTrueSpec` states it). */
  function FirstTrue(bs: seq<bool>, i: nat): (r: int)
    requires i <= |bs|
    ensures r == -1 || i <= r < |bs|
    decreases |bs| - i
  {
    if i == |bs| then -1
    else if bs[i] then i
    else FirstTrue(bs, i + 1)
  }

  lemma {:induction false} FirstTrueSpec(bs: seq<bool>, i: nat)
    requires i <= |bs|
    ensures FirstTrue(bs, i) == -1 <==> forall j :: i <= j < |bs| ==> !bs[j]
    ensures FirstTrue(bs, i) != -1 ==> bs[FirstTrue(bs, i)]
    ensures forall j :: i <= j < |bs| && j < FirstTrue(bs, i) ==> !bs[j]
    decreases |bs| - i
  {
    if i < |bs| && !bs[i] {
      FirstTrueSpec(bs, i + 1);
    }
  }

  /** The role test applied to every normalised cell of a row. */
  function Hits(env: Env, row: seq<Value>, role: Role): (bs: seq<bool>)
    ensures |bs| == |row|
  {
    seq(|row|, j requires 0 <= j < |row| => Matches(role, NormalizeValue(env, row[j])))
  }

  /** `row.some(h => ...)` over the normalised cells. */
  predicate HasRole(env: Env, row: seq<Value>, role: Role) {
    FirstTrue(Hits(env, row, role), 0) != -1
  }

  /** The message of the TypeError `h.includes` raises on a hole of the
      header row. */
  const HoleError: string := "TypeError: Cannot read properties of undefined (reading 'includes')"

  /** Whether the scan for `role` reaches a hole before any header naming
      it.  A blank header cell is a hole of the row `sheet_to_json`
      returns (no `defval` is given); `map(normalizeStr)` keeps it a hole,
      and `findIndex`, unlike `some` and `filter`, calls its test on it. */
  predicate HoleFirst(env: Env, row: seq<Value>, role: Role) {
    exists j :: 0 <= j < |row| && row[j] == Undefined
                && forall k :: 0 <= k < j ==> !Matches(role, NormalizeValue(env, row[k]))
  }

  /** The cells at which `findIndex` stops: a hole (the test throws) or a
      header naming the role. */
  function Stops(env: Env, row: seq<Value>, role: Role): (bs: seq<bool>)
    ensures |bs| == |row|
    ensures forall j :: 0 <= j < |row| ==> (bs[j] <==> row[j] == Undefined || Matches(role, NormalizeValue(env, row[j])))
  {
    seq(|row|, j requires 0 <= j < |row| => row[j] == Undefined || Matches(role, NormalizeValue(env, row[j])))
  }

  /** `HasRole` is `some`: a header names the role. */
  lemma HasRoleSpec(env: Env, row: seq<Value>, role: Role)
    ensures HasRole(env, row, role) <==> exists j :: 0 <= j < |row| && Matches(role, NormalizeValue(env, row[j]))
  {
    var bs := Hits(env, row, role);
    FirstTrueSpec(bs, 0);
    assert forall j :: 0 <= j < |row| ==> bs[j] == Matches(role, NormalizeValue(env, row[j]));
  }

  /** Where the `findIndex` scan stops, and that it passed only named,
      non-matching headers before. */
  lemma StopsSpec(env: Env, row: seq<Value>, role: Role, i: int)
    requires i == FirstTrue(Stops(env, row, role), 0)
    ensures i == -1 ==> forall j :: 0 <= j < |row| ==> row[j] != Undefined && !Matches(role, NormalizeValue(env, row[j]))
    ensures i != -1 ==> 0 <= i < |row| && (row[i] == Undefined || Matches(role, NormalizeValue(env, row[i])))
    ensures forall k :: 0 <= k < |row| && k < i ==> row[k] != Undefined && !Matches(role, NormalizeValue(env, row[k]))
  {
    FirstTrueSpec(Stops(env, row, role), 0);
  }

  /** The scan throws exactly when it stops at a hole. */
  lemma HoleFirstSpec(env: Env, row: seq<Value>, role: Role, i: int)
    requires i == FirstTrue(Stops(env, row, role), 0)
    ensures HoleFirst(env, row, role) <==> i != -1 && row[i] == Undefined
  {
    StopsSpec(env, row, role, i);
    if HoleFirst(env, row, role) {
      StopsAtFirstHole(env, row, role, i);
    }
  }

  /** A hole with no header naming the role before it stops the scan at
      that hole or at an earlier one. */
  lemma StopsAtFirstHole(env: Env, row: seq<Value>, role: Role, i: int)
    requires i == FirstTrue(Stops(env, row, role), 0)
    requires HoleFirst(env, row, role)
    ensures i != -1 && row[i] == Undefined
  {
    StopsSpec(env, row, role, i);
    var j :| 0 <= j < |row| && row[j] == Undefined
             && forall k :: 0 <= k < j ==> !Matches(role, NormalizeValue(env, row[k]));
    assert i != -1 && i <= j;
    if i < j {
      assert !Matches(role, NormalizeValue(env, row[i]));
    }
  }

  /** The column of a role, `normalizedHeaders.findIndex(...)`: the
      leftmost header that names it, -1 when none does, and a TypeError
      when a hole comes first. */
  function FindRole(env: Env, row: seq<Value>, role: Role): (r: Outcome<int>)
    ensures r.Error? <==> HoleFirst(env, row, role)
    ensures r.Error? ==> r.message == HoleError
    ensures r.Ok? ==> (r.value == -1 <==> forall j :: 0 <= j < |row| ==> !Matches(role, NormalizeValue(env, row[j])))
    ensures r.Ok? ==> (r.value == -1 <==> !HasRole(env, row, role))
    ensures r.Ok? && r.value != -1 ==> 0 <= r.value < |row| && Matches(role, NormalizeValue(env, row[r.value]))
    ensures r.Ok? && r.value != -1 ==> forall j :: 0 <= j < r.value ==> !Matches(role, NormalizeValue(env, row[j]))
  {
    var i := FirstTrue(Stops(env, row, role), 0);
    StopsSpec(env, row, role, i);
    HoleFirstSpec(env, row, role, i);
    HasRoleSpec(env, row, role);
    if i == -1 then Ok(-1)
    else if row[i] == Undefined then Error(HoleError)
    else Ok(i)
  }

  /** The `IDX` record. */
  datatype Roles = Roles(name: int, assignee: int, status: int, start: int, deadline: int)

  /** The five scans in the order the code runs them; the first one that
      throws ends the ingestion. */
  function RolesOf(env: Env, header: seq<Value>): (r: Outcome<Roles>)
    ensures r.Error? <==> exists role :: HoleFirst(env, header, role)
    ensures r.Error? ==> r.message == HoleError
    ensures r.Ok? ==> r.value.name == FindRole(env, header, NameRole).value
                      && r.value.assignee == FindRole(env, header, AssigneeRole).value
                      && r.value.status == FindRole(env, header, StatusRole).value
                      && r.value.start == FindRole(env, header, StartRole).value
                      && r.value.deadline == FindRole(env, header, DeadlineRole).value
  {
    var name := FindRole(env, header, NameRole);
    var assignee := FindRole(env, header, AssigneeRole);
    var status := FindRole(env, header, StatusRole);
    var start := FindRole(env, header, StartRole);
    var deadline := FindRole(env, header, DeadlineRole);
    if name.Error? then Error(name.message)
    else if assignee.Error? then Error(assignee.message)
    else if status.Error? then Error(status.message)
    else if start.Error? then Error(start.message)
    else if deadline.Error? then Error(deadline.message)
    else
      EveryRole(env, header);
      Ok(Roles(name.value, assignee.value, status.value, start.value, deadline.value))
  }

  /** No scan reaches a hole when none of the five does. */
  lemma EveryRole(env: Env, header: seq<Value>)
    requires !HoleFirst(env, header, NameRole) && !HoleFirst(env, header, AssigneeRole)
    requires !HoleFirst(env, header, StatusRole) && !HoleFirst(env, header, StartRole)
    requires !HoleFirst(env, header, DeadlineRole)
    ensures forall role :: !HoleFirst(env, header, role)
  {
    forall role ensures !HoleFirst(env, header, role) {
      match role
      case NameRole =>
      case AssigneeRole =>
      case StatusRole =>
      case StartRole =>
      case DeadlineRole =>
    }
  }

  /** A header row without holes never throws. */
  lemma NoHoleNoError(env: Env, header: seq<Value>)
    requires forall j :: 0 <= j < |header| ==> header[j] != Undefined
    ensures RolesOf(env, header).Ok?
  {
  }

  // ---------------------------------------------------------------------
  // Header detection

  /** How many leading rows are searched for the header. */
  const ScanWindow: nat := 20

  /** A row that names both a task column and a status column. */
  predicate IsHeaderRow(env: Env, row: seq<Value>) {
    HasRole(env, row, NameRole) && HasRole(env, row, StatusRole)
  }

  function Min(a: int, b: int): int {
    if a <= b then a else b
  }

  /** The header test on each row of the scan window. */
  function HeaderFlags(env: Env, table: seq<seq<Value>>): (bs: seq<bool>)
    ensures |bs| == Min(|table|, ScanWindow)
  {
    seq(Min(|table|, ScanWindow), j requires 0 <= j < Min(|table|, ScanWindow) => IsHeaderRow(env, table[j]))
  }

  /** `headerRowIndex`: the first of the first twenty rows that looks like
      a header, and row 0 when none does. */
  function HeaderIndex(env: Env, table: seq<seq<Value>>): (r: nat)
    requires table != []
    ensures r < |table| && r < ScanWindow
    ensures IsHeaderRow(env, table[r]) ==> forall j :: 0 <= j < r ==> !IsHeaderRow(env, table[j])
    ensures !IsHeaderRow(env, table[r]) ==>
              r == 0 && forall j :: 0 <= j < |table| && j < ScanWindow ==> !IsHeaderRow(env, table[j])
  {
    var bs := HeaderFlags(env, table);
    FirstTrueSpec(bs, 0);
    assert forall j :: 0 <= j < |bs| ==> (bs[j] <==> IsHeaderRow(env, table[j]));
    var i := FirstTrue(bs, 0);
    if i == -1 then 0 else i
  }

  // ---------------------------------------------------------------------
  // Columns and cells

  /** `h && String(h).trim() !== ''`: a header that becomes a column. */
  predicate HeaderKept(env: Env, h: Value) {
    Truthy(h) && Trim(ToStr(env, h)) != ""
  }

  /** `validHeaders`: the kept headers, in order. */
  function ValidHeaders(env: Env, header: seq<Value>): (r: seq<Value>)
    ensures |r| <= |header|
    ensures forall h :: h in r ==> h in header && HeaderKept(env, h)
    ensures forall h :: h in header && HeaderKept(env, h) ==> h in r
  {
    if header == [] then []
    else (if HeaderKept(env, header[0]) then [header[0]] else []) + ValidHeaders(env, header[1..])
  }

  /** `filter` keeps order and multiplicity: the kept headers of a
      concatenation are those of each part, one after the other.  With
      the one-cell case of `ValidHeaders` this determines the result. */
  lemma {:induction false} ValidHeadersConcat(env: Env, a: seq<Value>, b: seq<Value>)
    ensures ValidHeaders(env, a + b) == ValidHeaders(env, a) + ValidHeaders(env, b)
    decreases |a|
  {
    if a == [] {
      assert a + b == b;
    } else {
      assert (a + b)[0] == a[0];
      assert (a + b)[1..] == a[1..] + b;
      ValidHeadersConcat(env, a[1..], b);
    }
  }

  /** One cell is kept exactly when it passes the test. */
  lemma ValidHeadersCell(env: Env, h: Value)
    ensures HeaderKept(env, h) ==> ValidHeaders(env, [h]) == [h]
    ensures !HeaderKept(env, h) ==> ValidHeaders(env, [h]) == []
  {
    assert [h][1..] == [];
  }

  /** `row[idx]`, `undefined` past the end of a short row. */
  function At(row: seq<Value>, idx: int): Value {
    if 0 <= idx < |row| then row[idx] else Undefined
  }

  /** A parse result as the `formatDate(parsed)` of the cell code sees it:
      an Invalid Date is rejected on the second parse. */
  function ValidOnly(d: DateVal): DateVal {
    if d.BadDate? then NoDate else d
  }

  /** The value stored under a kept header for column `col`. */
  function StoredCell(env: Env, roles: Roles, col: nat, v: Value): (r: Value)
    ensures v.DateObj? ==> r == Str(FormatDay(v.day))
    ensures col as int == roles.start || col as int == roles.deadline
            ==> r == Str(FormatDateManual(ValidOnly(ParseDate(env, v))))
    ensures !v.DateObj? && !v.InvalidDate? && col as int != roles.start && col as int != roles.deadline
            ==> r == OrElse(v, Str(""))
  {
    var val :=
      if v.DateObj? || v.InvalidDate? then Str(FormatDate(env, v))
      else if col as int == roles.start || col as int == roles.deadline then
        Str(FormatDate(env, AsValue(ParseDate(env, v))))
      else v;
    OrElse(val, Str(""))
  }

  /** Property assignment in order: slot `i` with key `Some(k)` sets
      property `k` to `vals[i]`, a later slot overwriting an earlier one;
      slots with `None` are skipped. */
  function Overlay(keys: seq<Option<string>>, vals: seq<Value>, n: nat): map<string, Value>
    requires n <= |keys| == |vals|
  {
    if n == 0 then map[]
    else
      var m := Overlay(keys, vals, n - 1);
      if keys[n - 1].Some? then m[keys[n - 1].value := vals[n - 1]] else m
  }

  /** A property exists exactly when some slot assigns it. */
  lemma {:induction false} OverlayKeys(keys: seq<Option<string>>, vals: seq<Value>, n: nat, key: string)
    requires n <= |keys| == |vals|
    ensures key in Overlay(keys, vals, n) <==> exists i :: 0 <= i < n && keys[i] == Some(key)
  {
    if n > 0 {
      OverlayKeys(keys, vals, n - 1, key);
    }
  }

  /** The last slot assigning a property gives its value. */
  lemma {:induction false} OverlayLastWins(keys: seq<Option<string>>, vals: seq<Value>, n: nat, i: nat)
    requires i < n <= |keys| == |vals|
    requires keys[i].Some?
    requires forall j :: i < j < n ==> keys[j] != keys[i]
    ensures keys[i].value in Overlay(keys, vals, n)
    ensures Overlay(keys, vals, n)[keys[i].value] == vals[i]
  {
    if n - 1 > i {
      OverlayLastWins(keys, vals, n - 1, i);
    }
  }

  /** The property key each header creates, `None` for a dropped header
      and for a header reading `__proto__`, whose assignment of a
      primitive cell goes to the prototype setter instead. */
  function HeaderKeys(env: Env, header: seq<Value>): (ks: seq<Option<string>>)
    ensures |ks| == |header|
  {
    seq(|header|, j requires 0 <= j < |header| =>
      if HeaderKept(env, header[j]) && ToStr(env, header[j]) != ProtoKey then Some(ToStr(env, header[j])) else None)
  }

  /** The stored value of every column of a row. */
  function StoredRow(env: Env, roles: Roles, header: seq<Value>, row: seq<Value>): (vs: seq<Value>)
    ensures |vs| == |header|
  {
    seq(|header|, j requires 0 <= j < |header| => StoredCell(env, roles, j, At(row, j)))
  }

  /** The header properties of a row's task: each kept header, keyed by
      its text, holds its stored cell. */
  function Cells(env: Env, roles: Roles, header: seq<Value>, row: seq<Value>): map<string, Value> {
    Overlay(HeaderKeys(env, header), StoredRow(env, roles, header, row), |header|)
  }

  /** A key is a header property exactly when some kept header has that
      text and the text is not `__proto__`. */
  lemma CellsKeys(env: Env, roles: Roles, header: seq<Value>, row: seq<Value>, key: string)
    ensures key in Cells(env, roles, header, row)
            <==> key != ProtoKey && exists i :: 0 <= i < |header| && HeaderKept(env, header[i]) && ToStr(env, header[i]) == key
  {
    var ks := HeaderKeys(env, header);
    OverlayKeys(ks, StoredRow(env, roles, header, row), |header|, key);
    assert forall i :: 0 <= i < |header| ==>
      (ks[i] == Some(key) <==> HeaderKept(env, header[i]) && ToStr(env, header[i]) == key && key != ProtoKey);
  }

  /** With duplicate header texts, the rightmost column wins. */
  lemma CellsLastWins(env: Env, roles: Roles, header: seq<Value>, row: seq<Value>, i: nat)
    requires i < |header|
    requires HeaderKept(env, header[i])
    requires forall j :: i < j < |header| ==> !(HeaderKept(env, header[j]) && ToStr(env, header[j]) == ToStr(env, header[i]))
    ensures var m := Cells(env, roles, header, row);
            ToStr(env, header[i]) != ProtoKey
            ==> ToStr(env, header[i]) in m && m[ToStr(env, header[i])] == StoredCell(env, roles, i, At(row, i))
  {
    if ToStr(env, header[i]) != ProtoKey {
      var ks := HeaderKeys(env, header);
      assert forall j :: i < j < |header| ==> ks[j] != ks[i];
      OverlayLastWins(ks, StoredRow(env, roles, header, row), |header|, i);
    }
  }

  // ---------------------------------------------------------------------
  // One task per data row

  /** `getVal(idx)` when the role exists, `absent` otherwise. */
  function Field(row: seq<Value>, idx: int, absent: Value): Value {
    if idx != -1 then OrElse(At(row, idx), Str("")) else absent
  }

  function Abs(x: int): nat {
    if x < 0 then -x else x
  }

  /** The `_internal` record of a data row. */
  function InternalOf(env: Env, roles: Roles, row: seq<Value>): (i: Internal)
    ensures i.name == Field(row, roles.name, Str("")) && i.status == Field(row, roles.status, Str(""))
    ensures i.deadline == ParseDate(env, Field(row, roles.deadline, Undefined))
    ensures i.startDate == ParseDate(env, Field(row, roles.start, Undefined))
    ensures i.isDelayed <==> !IsCompleted(env, i.status) && i.deadline.OnDay? && i.deadline.day < env.today
    ensures i.isDelayed ==> i.delay == env.today - i.deadline.day > 0
    ensures !i.isDelayed ==> i.delay == 0
    ensures i.startDate == NoDate ==> i.runningDays == Days(0)
    ensures i.startDate == BadDate ==> i.runningDays == NaN
    ensures i.startDate.OnDay? ==> (i.runningDays.Days? && i.runningDays.n >= 0
              && (i.runningDays.n == env.today - i.startDate.day || i.runningDays.n == i.startDate.day - env.today))
    ensures i.timeMetrics == TimeMetrics(env.today, i.status, i.startDate, i.deadline)
    ensures roles.name == -1 ==> !Truthy(i.name)
  {
    var start := ParseDate(env, Field(row, roles.start, Undefined));
    var deadline := ParseDate(env, Field(row, roles.deadline, Undefined));
    var status := Field(row, roles.status, Str(""));
    var name := Field(row, roles.name, Str(""));
    var running := match start
      case NoDate => Days(0)
      case BadDate => NaN
      case OnDay(s) => Days(Abs(env.today - s));
    var delayed := !IsCompleted(env, status) && deadline.OnDay? && env.today > deadline.day;
    var delay := if delayed then env.today - deadline.day else 0;
    Internal(name, status, start, deadline, delay, delayed, running, TimeMetrics(env.today, status, start, deadline))
  }

  /** The task record built from data row `row`, the `index`-th data row:
      the fixed fields repeat the internal ones, and `deadline` prints the
      deadline as read. */
  function BuildTask(env: Env, header: seq<Value>, roles: Roles, row: seq<Value>, index: nat): (t: Task)
    ensures t.id == index && t.internal == InternalOf(env, roles, row)
    ensures t.name == t.internal.name && t.status == t.internal.status
    ensures t.isDelayed == t.internal.isDelayed && t.timeMetrics == t.internal.timeMetrics
    ensures t.cells == Cells(env, roles, header, row)
    ensures t.deadline == FormatDateManual(t.internal.deadline)
    ensures t.deadline == "-" <==> t.internal.deadline == NoDate
  {
    var i := InternalOf(env, roles, row);
    Task(index, Cells(env, roles, header, row), i, i.name, i.status, i.isDelayed,
         FormatDate(env, Field(row, roles.deadline, Undefined)), i.timeMetrics)
  }

  /** `.filter(t => t.name)`. */
  function KeepNamed(ts: seq<Task>): (r: seq<Task>)
    ensures |r| <= |ts|
    ensures forall t :: t in r ==> t in ts && Truthy(t.name)
    ensures forall t :: t in ts && Truthy(t.name) ==> t in r
  {
    if ts == [] then []
    else (if Truthy(ts[0].name) then [ts[0]] else []) + KeepNamed(ts[1..])
  }

  /** The ids rise strictly along the list. */
  predicate IdsRise(ts: seq<Task>) {
    forall i, j :: 0 <= i < j < |ts| ==> ts[i].id < ts[j].id
  }

  /** Every kept task comes from the list, so a bound on the list's ids
      bounds the kept ones. */
  lemma KeepNamedAbove(ts: seq<Task>, b: int)
    requires forall i :: 0 <= i < |ts| ==> b < ts[i].id
    ensures forall t :: t in KeepNamed(ts) ==> b < t.id
  {
  }

  /** Keeping the named tasks keeps their relative order: ids that rise
      along the list still rise along the kept tasks. */
  lemma {:induction false} KeepNamedKeepsOrder(ts: seq<Task>)
    requires IdsRise(ts)
    ensures IdsRise(KeepNamed(ts))
  {
    if ts != [] {
      var tail := ts[1..];
      assert IdsRise(tail) by {
        forall i, j | 0 <= i < j < |tail| ensures tail[i].id < tail[j].id {
          assert tail[i] == ts[i + 1] && tail[j] == ts[j + 1];
        }
      }
      KeepNamedKeepsOrder(tail);
      assert forall i :: 0 <= i < |tail| ==> ts[0].id < tail[i].id;
      KeepNamedAbove(tail, ts[0].id);
      var rest := KeepNamed(tail);
      if Truthy(ts[0].name) {
        KeepNamedCons(ts[0], rest);
      }
    }
  }

  /** A task before a rising list whose ids all exceed its own keeps the
      list rising. */
  lemma KeepNamedCons(t: Task, rest: seq<Task>)
    requires IdsRise(rest) && forall u :: u in rest ==> t.id < u.id
    ensures IdsRise([t] + rest)
  {
    var r := [t] + rest;
    forall i, j | 0 <= i < j < |r| ensures r[i].id < r[j].id {
      assert r[j] == rest[j - 1];
      if i > 0 {
        assert r[i] == rest[i - 1];
      }
    }
  }

  /** A list with no named task keeps nothing. */
  lemma {:induction false} KeepNamedNone(ts: seq<Task>)
    requires forall k :: 0 <= k < |ts| ==> !Truthy(ts[k].name)
    ensures KeepNamed(ts) == []
  {
    if ts != [] {
      assert forall k :: 1 <= k < |ts| ==> ts[k] == ts[1..][k - 1];
      KeepNamedNone(ts[1..]);
    }
  }

  /** One task per data row, numbered by position. */
  function BuildAll(env: Env, header: seq<Value>, roles: Roles, rows: seq<seq<Value>>): (r: seq<Task>)
    ensures |r| == |rows|
    ensures forall k :: 0 <= k < |rows| ==> r[k] == BuildTask(env, header, roles, rows[k], k)
  {
    seq(|rows|, k requires 0 <= k < |rows| => BuildTask(env, header, roles, rows[k], k))
  }

  /** The message of the TypeError `headerRow.filter` raises when the
      sheet has no row 0. */
  const NoHeaderError: string := "TypeError: Cannot read properties of undefined (reading 'filter')"

  /** What one ingestion leaves behind: the column list it set and saved
      (`None` when it threw before `setColumns`), and the tasks or the
      error that ended it.  The columns are set before the role scans, so
      a scan that throws leaves the new columns beside the old tasks. */
  datatype Ingest = Ingest(columns: Option<seq<Value>>, tasks: Outcome<seq<Task>>)

  /** The whole ingestion.  An empty sheet has no row 0, and filtering its
      header row fails with a TypeError before any column is set; a role
      scan that reaches a hole of the header row fails after the kept
      headers have become the column list. */
  function ProcessWorkbook(env: Env, table: seq<seq<Value>>): (r: Ingest)
    ensures r.columns.None? <==> table == []
    ensures table != [] ==> r.columns == Some(ValidHeaders(env, table[HeaderIndex(env, table)]))
    ensures r.tasks.Error? <==> table == [] || exists role :: HoleFirst(env, table[HeaderIndex(env, table)], role)
    ensures table == [] ==> r.tasks == Error(NoHeaderError)
    ensures table != [] && r.tasks.Error? ==> r.tasks.message == HoleError
    ensures r.tasks.Ok? ==> |r.tasks.value| < |table|
    ensures r.tasks.Ok? ==> forall t :: t in r.tasks.value ==> Truthy(t.name) && t.id < |table|
  {
    if table == [] then Ingest(None, Error(NoHeaderError))
    else
      var hdr := HeaderIndex(env, table);
      var header := table[hdr];
      var columns := Some(ValidHeaders(env, header));
      match RolesOf(env, header)
      case Error(e) => Ingest(columns, Error(e))
      case Ok(roles) =>
        var rows := table[hdr + 1..];
        Ingest(columns, Ok(KeepNamed(BuildAll(env, header, roles, rows))))
  }

  // ---------------------------------------------------------------------
  // Properties of the ingestion

  /** The data rows below the chosen header. */
  function DataRows(env: Env, table: seq<seq<Value>>): seq<seq<Value>>
    requires table != []
  {
    table[HeaderIndex(env, table) + 1..]
  }

  /** When the scans succeed, the tasks are the named ones among the tasks
      built from the data rows. */
  lemma ProcessedTasks(env: Env, table: seq<seq<Value>>)
    requires table != [] && RolesOf(env, table[HeaderIndex(env, table)]).Ok?
    ensures var header := table[HeaderIndex(env, table)];
            ProcessWorkbook(env, table).tasks
              == Ok(KeepNamed(BuildAll(env, header, RolesOf(env, header).value, DataRows(env, table))))
  {
  }

  /** The tasks are exactly the data rows whose name cell is non-empty,
      each built from its own row, numbered by its position among the
      data rows, and listed in row order. */
  lemma TasksAreNamedRows(env: Env, table: seq<seq<Value>>)
    requires table != [] && ProcessWorkbook(env, table).tasks.Ok?
    ensures var header := table[HeaderIndex(env, table)];
            var roles := RolesOf(env, header).value;
            var rows := DataRows(env, table);
            var tasks := ProcessWorkbook(env, table).tasks.value;
            (forall t :: t in tasks ==> t.id < |rows| && t == BuildTask(env, header, roles, rows[t.id], t.id))
            && (forall k :: 0 <= k < |rows| && Truthy(Field(rows[k], roles.name, Str("")))
                  ==> BuildTask(env, header, roles, rows[k], k) in tasks)
            && IdsRise(tasks)
  {
    var header := table[HeaderIndex(env, table)];
    var roles := RolesOf(env, header).value;
    var rows := DataRows(env, table);
    var built := BuildAll(env, header, roles, rows);
    ProcessedTasks(env, table);
    KeptAreBuilt(env, header, roles, rows);
    KeepNamedKeepsOrder(built);
  }

  /** The named tasks are the built tasks of the named rows. */
  lemma KeptAreBuilt(env: Env, header: seq<Value>, roles: Roles, rows: seq<seq<Value>>)
    ensures var tasks := KeepNamed(BuildAll(env, header, roles, rows));
            (forall t :: t in tasks ==> t.id < |rows| && t == BuildTask(env, header, roles, rows[t.id], t.id))
            && (forall k :: 0 <= k < |rows| && Truthy(Field(rows[k], roles.name, Str("")))
                  ==> BuildTask(env, header, roles, rows[k], k) in tasks)
  {
    var built := BuildAll(env, header, roles, rows);
    forall t | t in KeepNamed(built)
      ensures t.id < |rows| && t == BuildTask(env, header, roles, rows[t.id], t.id)
    {
      var k :| 0 <= k < |built| && built[k] == t;
    }
    forall k | 0 <= k < |rows| && Truthy(Field(rows[k], roles.name, Str("")))
      ensures BuildTask(env, header, roles, rows[k], k) in KeepNamed(built)
    {
      assert built[k] in built;
    }
  }

  /** A sheet without a name column yields no tasks at all. */
  lemma NoNameColumnNoTasks(env: Env, table: seq<seq<Value>>)
    requires table != [] && ProcessWorkbook(env, table).tasks.Ok?
    requires !HasRole(env, table[HeaderIndex(env, table)], NameRole)
    ensures ProcessWorkbook(env, table).tasks == Ok([])
  {
    var header := table[HeaderIndex(env, table)];
    var roles := RolesOf(env, header).value;
    var rows := DataRows(env, table);
    var built := BuildAll(env, header, roles, rows);
    ProcessedTasks(env, table);
    forall k | 0 <= k < |built| ensures !Truthy(built[k].name) {
    }
    KeepNamedNone(built);
  }

  /** A header such as "Task | Status | (blank) | Deadline" fails: the
      blank cell is a hole the assignee scan reaches before any assignee
      column, although the header scan itself (`some`) passes over it. */
  lemma BlankBeforeAssigneeFails(env: Env, name: string, status: string, deadline: string, rows: seq<seq<Value>>)
    requires Matches(NameRole, Normalize(name)) && Matches(StatusRole, Normalize(status))
    requires !Matches(AssigneeRole, Normalize(name)) && !Matches(AssigneeRole, Normalize(status))
    ensures var header := [Str(name), Str(status), Undefined, Str(deadline)];
            HeaderIndex(env, [header] + rows) == 0
            && ProcessWorkbook(env, [header] + rows) == Ingest(Some(ValidHeaders(env, header)), Error(HoleError))
  {
    var header := [Str(name), Str(status), Undefined, Str(deadline)];
    BlankHeaderShape(env, name, status, deadline);
    HeaderOnTop(env, header, rows);
    assert ([header] + rows)[0] == header;
    HoleFails(env, [header] + rows, AssigneeRole);
  }

  /** The example header passes the header test and its assignee scan
      reaches the hole. */
  lemma BlankHeaderShape(env: Env, name: string, status: string, deadline: string)
    requires Matches(NameRole, Normalize(name)) && Matches(StatusRole, Normalize(status))
    requires !Matches(AssigneeRole, Normalize(name)) && !Matches(AssigneeRole, Normalize(status))
    ensures var header := [Str(name), Str(status), Undefined, Str(deadline)];
            IsHeaderRow(env, header) && HoleFirst(env, header, AssigneeRole)
  {
    var header := [Str(name), Str(status), Undefined, Str(deadline)];
    assert NormalizeValue(env, header[0]) == Normalize(name);
    assert NormalizeValue(env, header[1]) == Normalize(status);
    NamedAt(env, header, NameRole, 0);
    NamedAt(env, header, StatusRole, 1);
    forall k | 0 <= k < 2 ensures !Matches(AssigneeRole, NormalizeValue(env, header[k])) {
      assert k == 0 || k == 1;
    }
    assert header[2] == Undefined;
  }

  /** A row with a header naming a role has that role. */
  lemma NamedAt(env: Env, row: seq<Value>, role: Role, j: nat)
    requires j < |row| && Matches(role, NormalizeValue(env, row[j]))
    ensures HasRole(env, row, role)
  {
    HasRoleSpec(env, row, role);
  }

  /** A scan that reaches a hole of the chosen header row ends the
      ingestion with the TypeError, after the kept headers have become
      the column list. */
  lemma HoleFails(env: Env, table: seq<seq<Value>>, role: Role)
    requires table != [] && HoleFirst(env, table[HeaderIndex(env, table)], role)
    ensures ProcessWorkbook(env, table) == Ingest(Some(ValidHeaders(env, table[HeaderIndex(env, table)])), Error(HoleError))
  {
  }

  /** A header-like first row is the header. */
  lemma HeaderOnTop(env: Env, header: seq<Value>, rows: seq<seq<Value>>)
    requires IsHeaderRow(env, header)
    ensures HeaderIndex(env, [header] + rows) == 0
  {
    var table := [header] + rows;
    assert table[0] == header;
    HeaderFoundBelowNoise(env, table, 0);
  }

  /** A header below decorative rows is found: the first header-like row
      of the scan window is chosen whatever precedes it. */
  lemma HeaderFoundBelowNoise(env: Env, table: seq<seq<Value>>, i: nat)
    requires i < |table| && i < ScanWindow
    requires IsHeaderRow(env, table[i])
    requires forall j :: 0 <= j < i ==> !IsHeaderRow(env, table[j])
    ensures HeaderIndex(env, table) == i
  {
  }

  /** A header past the scan window is never found: the sheet is read with
      row 0 as header. */
  lemma HeaderBeyondWindow(env: Env, table: seq<seq<Value>>)
    requires table != []
    requires forall j :: 0 <= j < |table| && j < ScanWindow ==> !IsHeaderRow(env, table[j])
    ensures HeaderIndex(env, table) == 0
  {
  }

  /** The flag the filter and the statistics use agrees with the badge: a
      task flagged as delayed shows "Delayed (+N days)" with its delay. */
  lemma DelayedShowsDelay(env: Env, roles: Roles, row: seq<Value>)
    ensures var i := InternalOf(env, roles, row);
            i.isDelayed ==> i.timeMetrics == Metric(DelayedText(i.delay), DelayCell, Days(i.delay))
  {
    var i := InternalOf(env, roles, row);
    if i.isDelayed {
      LabelsAreCompleted(env, i.status);
      assert !IsCompletedLabel(i.status);
      assert i.timeMetrics == TimeMetrics(env.today, i.status, i.startDate, i.deadline);
    }
  }

  lemma LabelsAreCompleted(env: Env, status: Value)
    ensures IsCompletedLabel(status) ==> IsCompleted(env, status)
  {
    if IsCompletedLabel(status) {
      CompletedLabelIsCompleted(env, status);
    }
  }

  /** The converse fails for a status that is a finished word but not an
      exact label (such as "done"): the badge reads delayed while the task
      is not flagged, so the delayed filter and count leave it out. */
  lemma BadgeDelayedButNotFlagged(env: Env, roles: Roles, row: seq<Value>)
    requires var i := InternalOf(env, roles, row);
             IsCompleted(env, i.status) && !IsCompletedLabel(i.status)
             && i.deadline.OnDay? && i.deadline.day < env.today
    ensures var i := InternalOf(env, roles, row);
            !i.isDelayed && i.timeMetrics.display == DelayedText(env.today - i.deadline.day)
  {
  }

  /** The running days kept for the statistics equal the badge's count for
      a start in the past, and have the opposite sign for one in the
      future. */
  lemma RunningDaysAgree(env: Env, roles: Roles, row: seq<Value>)
    requires var i := InternalOf(env, roles, row);
             !IsCompletedLabel(i.status) && i.deadline == NoDate && i.startDate.OnDay?
    ensures var i := InternalOf(env, roles, row);
            var s := i.startDate.day;
            (s <= env.today ==> i.runningDays == i.timeMetrics.raw)
            && (s > env.today ==> i.runningDays == Days(s - env.today) && i.timeMetrics.raw == Days(env.today - s))
  {
    var i := InternalOf(env, roles, row);
    var s := i.startDate.day;
    assert i.startDate == OnDay(s) && i.timeMetrics == TimeMetrics(env.today, i.status, OnDay(s), NoDate);
    RunningAgainstBadge(env.today, i.status, s, i.runningDays, i.timeMetrics);
  }

  lemma RunningAgainstBadge(today: int, status: Value, s: int, running: Raw, m: Metric)
    requires !IsCompletedLabel(status) && m == TimeMetrics(today, status, OnDay(s), NoDate)
    requires running.Days? && running.n >= 0 && (running.n == today - s || running.n == s - today)
    ensures s <= today ==> running == m.raw
    ensures s > today ==> running == Days(s - today) && m.raw == Days(today - s)
  {
  }

  /** An unparsable deadline shows as "-" in its column but as
      "NaN/NaN/NaN" in the task's `deadline` field. */
  lemma BadDeadlineShownTwoWays(env: Env, header: seq<Value>, row: seq<Value>, index: nat, c: nat)
    requires c < |header| && RolesOf(env, header).Ok? && RolesOf(env, header).value.deadline == c
    requires HeaderKept(env, header[c])
    requires forall j :: c < j < |header| ==> !(HeaderKept(env, header[j]) && ToStr(env, header[j]) == ToStr(env, header[c]))
    requires ToStr(env, header[c]) !in FixedKeys
    requires ParseDate(env, OrElse(At(row, c), Str(""))) == BadDate
    ensures var t := BuildTask(env, header, RolesOf(env, header).value, row, index);
            t.deadline == "NaN/NaN/NaN"
            && (ToStr(env, header[c]) != ProtoKey ==> Get(t, ToStr(env, header[c])) == Str("-"))
            && (ToStr(env, header[c]) == ProtoKey ==> Get(t, ToStr(env, header[c])) == Obj)
  {
    var roles := RolesOf(env, header).value;
    CellsLastWins(env, roles, header, row, c);
    CellsKeys(env, roles, header, row, ProtoKey);
    ParseFalsyIsNoDate(env, At(row, c));
  }

  /** An empty cell parses as no date. */
  lemma ParseFalsyIsNoDate(env: Env, v: Value)
    ensures !Truthy(v) ==> ParseDate(env, OrElse(v, Str(""))) == NoDate
  {
  }

  /** No property "assignee" exists unless a header reads exactly
      "assignee": the assignee column is found for nothing but the
      statistics' role lookup. */
  lemma AssigneeNotAProperty(env: Env, header: seq<Value>, roles: Roles, row: seq<Value>, index: nat, key: string)
    requires key == "assignee"
    requires forall i :: 0 <= i < |header| && HeaderKept(env, header[i]) ==> ToStr(env, header[i]) != key
    ensures Get(BuildTask(env, header, roles, row, index), key) == Undefined
  {
    var t := BuildTask(env, header, roles, row, index);
    CellsKeys(env, roles, header, row, key);
    NoSuchProperty(t, key);
  }

  /** "assignee" is neither a fixed field nor `id`. */
  lemma NoSuchProperty(t: Task, key: string)
    requires key == "assignee" && key !in t.cells
    ensures Get(t, key) == Undefined
  {
    assert key[0] == 'a' && key[1] == 's';
    assert forall k :: 0 <= k < |FixedKeys| ==> |FixedKeys[k]| < 2 || FixedKeys[k][..2] != "as";
    assert forall k :: k in InheritedKeys ==> k[0] != 'a';
  }
}
